=== FILE: README.md ===
# CloudIaC portal: scan gating, compliance aggregation, template handlers and task post-processing

A Dafny model of four pieces of decision logic in the CloudIaC portal. Each is a
pure function, or a short method, over immutable records. The database is a
record of tables (`Entities.Db`).

- **Scan-request gating** (`ScanGate`, file `scan_gate.dfy`):
  - the four-way scan-type choice;
  - the checks that decide whether an environment or a template may be scanned;
  - which "last scan task" reference a new scan moves;
  - the request handler that chains these checks, creates the pending scan task and commits.
- **Compliance aggregation**:
  - `Grouping`: groups a scan's policy results by policy group, with per-status tallies;
  - `Report`: the day buckets, pie totals and pass rate of the policy scan report;
  - `SummaryJoin`: attaches "policy id + status" scan counts to policy rows;
  - `PolicySync`: synchronises a policy group's stored policies with the policy files of its repository;
  - `RuleTest`: classifies the outcome of a rule test.
- **Template handlers** (`TemplateOps`):
  - the partial-update attribute map and its effect on the stored template;
  - the ownership checks in update and delete, and the active-environment check in delete;
  - the repository address that the template list derives.
- **Task post-processing** (`TaskDone`):
  - state and plan ingestion;
  - drift-row reconciliation;
  - the auto-destroy deadline;
  - the runner stop request;
  - scan-result dispatch.

Modelling conventions:

- **Database faults.** The set `fails: set<Common.Step>` names the database steps that fail on a run.
  - A handler that runs in a transaction returns `Failure` and no new state when a step fails.
  - The task post-processing steps are not transactional. Their `Outcome` carries the database with every write made before the failing one.
- **Errors.** An error is a `Common.Error`: a code plus the HTTP status the handler attaches. The status is `None` where the handler names none.
- **Outside services are parameters.** Each of these is passed in as a value or a function:
  - the JSON decoders;
  - TTL parsing;
  - the drift-log parser;
  - URL joining;
  - the runner-address lookup;
  - the HTTP post;
  - the clock;
  - the active-environment condition;
  - the default-runner lookup.
- **Files.** A file comes in already read. `Success([])` stands for a missing or empty file, and `Failure(msg)` for a read error.
- **Map iteration order.** The order in which Go visits a map's entries is an input (`order`). Proofs about it hold for every order.

## Model

| member | source | states |
|---|---|---|
| `ScanGate.GetScanTaskType` | portal/apps/policy.go:135-146 | The scan type is one of the four scan types. It targets an environment iff an environment id is given, and it is a parse type iff the request is parse-only. |
| `ScanGate.ScanTaskTypeOneToOne` | portal/apps/policy.go:135-146 | Two requests get the same scan type iff they agree on "environment given" and on "parse only". |
| `ScanGate.IsScanableEnv` | portal/apps/policy.go:148-173 | The environment is read through the organisation-plus-global view (`inScope`, the session built at policy.go:54 and passed at policy.go:70). A missing or out-of-scope environment gives EnvNotExists/400 and a read fault DBError/500. An archived one gives EnvArchived/400. A scan-disabled one gives PolicyScanNotEnabled/400 exactly when the request is not parse-only. Otherwise the stored environment is returned. |
| `ScanGate.IsScanableTpl` | portal/apps/policy.go:175-198 | The template is read without the organisation restriction (the handler passes the plain session at policy.go:78). A missing template gives TemplateNotExists/400 and a disabled one TemplateDisabled/400. The template's scan-enabled flag is consulted only when no environment is given, and parse-only requests bypass it. |
| `ScanGate.UpdateLastScanTaskId` | portal/apps/policy.go:200-213 | An env-scan moves only the environment's reference and a tpl-scan only the template's. Parse types change nothing. A failed save is DBError/500, and every other table is unchanged. |
| `ScanGate.CheckScanable` | portal/apps/policy.go:69-80 | Succeeds iff the environment check (only when an environment is given) and the template check both pass. The environment check runs first and its error is returned as is; otherwise the template check's error is returned. |
| `ScanGate.TemplateGateIgnoresOrgScope` | portal/apps/policy.go:76-80 | Without an environment the gate reads only the template, through the unrestricted session, so its answer is the same under any organisation filter and succeeds iff the template check does. |
| `ScanGate.ScanTemplateOrEnv` | portal/apps/policy.go:47-133 | Succeeds iff the gate passes, the default runner is found, and the task creation, result initialisation, the reference save its type needs and the commit all go through. A gating error is returned unchanged, a runner lookup error as its code with 500, a creation fault as the creating service's code with 500 (policy.go:111-114), and every later fault as a DBError. On success the new task is pending, has the computed type and is stored under its id. A template scan runs on the runner found (policy.go:106); an environment scan runs on the runner its creation service assigns, since policy.go:94 does not pass the runner found. The reference its type selects is moved, and a parse-only request changes neither environments nor templates. |
| `ScanGate.ParseOnlyBypassesDisabledTemplateScan` | portal/apps/policy.go:183-196 | A template whose scanning is off refuses a scan with PolicyScanNotEnabled/400 but accepts a parse-only request. |
| `Grouping.TallySnoc` | portal/apps/policy.go:719-729 | Appending a row and bumping the tally of its status keeps the tallies equal to the per-status counts of the rows. |
| `Grouping.LeadingUngrouped` | portal/apps/policy.go:709-715 | The rows before this index all have an empty group name. The row at the index, if any, does not. |
| `Grouping.GroupsOf` | portal/apps/policy.go:708-732 | Each group is a non-empty run of one group name with exact tallies, and adjacent groups differ in name. The concatenated lists are the input minus its leading run of rows with an empty group name (the whole input when the first row has a name). |
| `Grouping.GroupByGroup` | portal/apps/policy.go:708-732 | The loop over the rows returns exactly the grouping `GroupsOf` defines, so it has all of that grouping's properties. |
| `Grouping.GroupingIsUnique` | portal/apps/policy.go:711-717 | Two such groupings of the same rows are equal, so the result is the split into maximal runs. |
| `Grouping.TallyPartitionsRows` | portal/apps/policy.go:719-728 | Passed + violated + suppressed + failed + rows of any other status = number of rows. Each row is counted at most once. |
| `Report.TimePoints` | portal/apps/policy.go:829-837 | One column per day step from `from` to `to` inclusive, each the day of `from + k` days. There are none when `from > to`. |
| `Report.InitTallies` | portal/apps/policy.go:849-856 | Every day's total and rate starts at zero, and the pie is empty. |
| `Report.FoldRows` | portal/apps/policy.go:858-878 | The report loop keeps one total and one rate per column. When it stops early the error is InternalError. |
| `Report.ApplyRowEffect` | portal/apps/policy.go:858-874 | A row is accepted iff its day is a column. It then adds its count to that day's total unless it is pending, and adds it to the pie under its status. |
| `Report.FoldRowsSucceeds` | portal/apps/policy.go:858-878 | The loop fails iff some row's day is not a column. |
| `Report.FoldRowsTotals` | portal/apps/policy.go:858-898 | A successful loop adds each day's non-pending counts to that day's total, and each status's counts to the pie. |
| `Report.ReportMatchesLoop` | portal/apps/policy.go:849-898 | The loop as written yields the reference totals and pie that the corrected report uses. |
| `Report.PolicyScanReport` | portal/apps/policy.go:816-914 | Succeeds iff every row's day is in the range. Then: the columns are the days of the range; each day's value is its non-pending total; the pie is the per-status totals; and each day's rate is passed/total (0 for an empty day). |
| `Report.ReportOver` | portal/apps/policy.go:849-914 | The report over the given columns satisfies the report relation above. |
| `Report.Fraction` | portal/apps/policy.go:881-887 | A share in [0, 1]. It is 0 for a zero total, and otherwise multiplying it by the total gives the part. |
| `Report.PassedWithinTotal` | portal/apps/policy.go:864-870 | A day's passed count never exceeds its non-pending total. |
| `Report.DayOfTimestamp` | portal/apps/policy.go:859 | The day cut out of a timestamp is characters 5 to 10, the "MM-DD" part. |
| `Report.PassRateRedividedAsWritten` | portal/apps/policy.go:881-887 | The loop as written reports 0.5 for a fully passed first day once a second day's row arrives. |
| `Report.PassRateCorrected` | portal/apps/policy.go:881-887 | The corrected report gives both fully passed days a rate of 1. |
| `Report.EmptyDayReportsZero` | portal/apps/policy.go:849-856 | A day with no rows shows a zero total and a zero rate. |
| `SummaryJoin.SumMap` | portal/apps/policy.go:1290-1293 | Every summary's "id + status" key is in the map, and every key comes from some summary. |
| `SummaryJoin.JoinSummaries` | portal/apps/policy.go:1288-1311 | The rows keep their order, ids and other fields. With no summaries, the rows are returned unchanged. |
| `SummaryJoin.KeyInjective` | portal/apps/policy.go:1292 | With known statuses, the concatenated key determines both the id and the status. |
| `SummaryJoin.SumMapIsLastCount` | portal/apps/policy.go:1290-1293 | The map has a key for (id, known status) iff some summary has that pair. Its value is the count of the last such summary. |
| `SummaryJoin.JoinIsLastCount` | portal/apps/policy.go:1294-1309 | Each of the four counts of a row is the last matching summary's count, or the row's own count when there is none. |
| `SummaryJoin.UnmentionedKeepsCounts` | portal/apps/policy.go:297-318 | A policy that no summary mentions keeps its row unchanged. |
| `RuleTest.PolicyTest` | portal/apps/policy.go:947-992 | Input that is not JSON gives an "invalid input" reply with no status. A scratch-file failure gives InternalError/500. An engine error gives "failed" with its message. Otherwise the engine output comes back with "violated" iff it flags a resource, and "passed" otherwise. |
| `RuleTest.TestStatusIsClassified` | portal/apps/policy.go:974-991 | Every evaluation ends in exactly one of passed, violated and failed. The status is failed iff the engine erred, and the error text is empty iff it did not. |
| `PolicySync.GroupRows` | portal/apps/policy.go:1237 | Exactly the stored policies of this group and organisation. |
| `PolicySync.DeleteById` | portal/apps/policy.go:1248 | Exactly the rows of other ids remain, and ids stay unique. |
| `PolicySync.FirstByName` | portal/apps/policy.go:1276-1279 | Finds a group policy with that name, or reports that the group has no such name. |
| `PolicySync.SaveRowMembers` | portal/apps/policy.go:1280 | A save replaces exactly the row with the same id, or appends, and ids stay unique. |
| `PolicySync.SaveId` | portal/apps/policy.go:1276-1279 | The id of a file's policy is either a new id or that of an existing policy. |
| `PolicySync.DeleteStale` | portal/apps/policy.go:1237-1253 | Deletes exactly the listed policies whose name matches no file. It fails with DBError iff a delete fails and some policy needs deleting. |
| `PolicySync.SaveAll` | portal/apps/policy.go:1256-1284 | Fails with DBError iff saving fails and there is a file to save. |
| `PolicySync.SaveAllFacts` | portal/apps/policy.go:1256-1284 | Saving adds exactly the files' names to the group. Ids stay unique, nothing outside the group changes, and an existing name keeps its id. |
| `PolicySync.LastNamed` | portal/apps/policy.go:1256-1284 | The file whose save of a name comes last: it carries the name and no later file does. |
| `PolicySync.SaveAllContents` | portal/apps/policy.go:1256-1284 | When the group's names are unique, each of its policies that a file names holds the metadata and rule text of the last file of that name, under the policy's own id. Policies that no file names are neither added nor removed. |
| `PolicySync.DeleteStaleFacts` | portal/apps/policy.go:1237-1253 | After the deletes, the group keeps exactly its policies whose name a file carries. |
| `PolicySync.PoliciesUpsert` | portal/apps/policy.go:1233-1286 | Fails with DBError iff a needed delete fails (when the group could be listed) or a save fails. A failed listing skips the deletes. |
| `PolicySync.UpsertSyncsGroup` | portal/apps/policy.go:1233-1286 | After a fault-free sync: the group's names equal the files' names; policies outside the group are untouched; ids stay unique; unique names stay unique; a name that is kept keeps its id; and, when the group's names were unique, each of its policies is the row built from the last file of its name. |
| `PolicySync.UpsertContents` | portal/apps/policy.go:1256-1284 | With unique group names, the synchronised group holds, for each name, the row built from the last file of that name. |
| `TemplateOps.BuildAttrs` | portal/apps/template.go:185-233 | A column is in the update map iff its form key is present. The triple vcsId/repoId/repoFullName is present only when all three keys are. The form's triggers go under "triggers". repoAddr is "" and is written only together with a non-empty vcsId. |
| `TemplateOps.RepoColumnsTogether` | portal/apps/template.go:217-232 | The repository columns appear all together or not at all. The address is cleared only alongside a non-empty vcs. Triggers are written iff the form has tplTriggers. |
| `TemplateOps.ApplyIsColumnwise` | portal/apps/template.go:234 | Writing a well-typed update map sets exactly its columns and keeps every other column. |
| `TemplateOps.UpdateIsColumnwise` | portal/apps/template.go:185-234 | After the update, a column whose key was sent has the sent value and any other column keeps its stored value. Id, organisation and last scan task never change. |
| `TemplateOps.EmptyFormChangesNothing` | portal/apps/template.go:185-234 | A form without keys leaves the template as stored. |
| `TemplateOps.UpdateTemplate` | portal/apps/template.go:173-294 | Any failure to read the template gives TemplateNotExists/400, and another organisation's template gives TemplateNotExists/403. A failing update or commit gives DBError. Success replaces only this template. |
| `TemplateOps.DeleteTemplate` | portal/apps/template.go:319-366 | Missing gives 404, a read fault DBError/500, another organisation's template 403. An active environment using the template gives TemplateActiveEnvExists/405, and that error comes only from such an environment. Succeeds iff the template exists in the caller's organisation, no active environment uses it and no read, delete or commit fault occurs. Success removes the template and exactly its policy-group bindings. |
| `TemplateOps.ActiveEnvRefusesBeforeWrites` | portal/apps/template.go:342-359 | Once an active environment uses the template, faults in the relation delete, the row delete or the commit do not change the answer: the guard comes before every write. |
| `TemplateOps.DeleteRelationsFirst` | portal/apps/template.go:350-361 | The bindings are deleted before the template, so a failing binding delete reports DBError/500 whatever follows. |
| `TemplateOps.DeleteDropsExactlyBindings` | portal/apps/template.go:350-354 | A relation survives the delete iff it does not bind this template. |
| `TemplateOps.CollectVcsIds` | portal/apps/template.go:453-456 | The vcs ids collected are exactly those of templates with no stored address. |
| `TemplateOps.VcsMap` | portal/apps/template.go:475-478 | Every listed vcs has an entry, and each entry is a listed vcs under its own id. |
| `TemplateOps.DeriveRepoAddrs` | portal/apps/template.go:481-491 | Only the address changes. A template with a stored address or an empty repository name is left as is. |
| `TemplateOps.VcsByIds` | portal/apps/template.go:471 | Exactly the vcs rows whose id is requested. |
| `TemplateOps.CollectedVcsSuffice` | portal/apps/template.go:453-491 | Fetching only the collected vcs ids gives the same addresses as the whole vcs table would. |
| `TemplateOps.RepoAddrByKind` | portal/apps/template.go:483-489 | For every template of the list with no stored address and a repository name: when the vcs list has its vcs, a local-git vcs gives join(portal, vcs address, repository id) and any other gives join(vcs address, full name). When the list lacks its vcs, the zero record gives join("", full name). |
| `TaskDone.ProcessState` | portal/task_manager/task_done_actions.go:24-52 | A missing or empty state file is a no-op. Each read or decode error is returned, with its message, and nothing written. An empty provider schema gives an empty sensitive map. Once both files decode, a failed resource save returns SaveTaskResourcesFailed with nothing written, and a failed output save returns SaveTaskOutputsFailed with the resources saved. No error means both saves happened. |
| `TaskDone.ProcessStateIdempotent` | portal/task_manager/task_done_actions.go:24-52 | Processing the same files twice gives the same outcome as once. |
| `TaskDone.ProcessPlan` | portal/task_manager/task_done_actions.go:54-67 | A missing or empty plan file is a no-op. Otherwise the outcome has no error iff the plan decodes and the save succeeds, and then the stored changes are the decoded ones. |
| `TaskDone.ProcessPlanStoresDecoded` | portal/task_manager/task_done_actions.go:54-67 | The stored changes are exactly the decoded ones, and re-ingesting them changes nothing. |
| `TaskDone.FindResource` | portal/task_manager/task_done_actions.go:101 | Returns a resource of the task at this address, or nothing iff the task has none there. |
| `TaskDone.DeleteAllOf` | portal/task_manager/task_done_actions.go:86-90 | No drift row of the resource task remains, and rows of other tasks are kept. |
| `TaskDone.DeleteUnlisted` | portal/task_manager/task_done_actions.go:92-99 | The resource task's drift addresses become their intersection with the detected ones. Nothing else changes. |
| `TaskDone.UpsertAll` | portal/task_manager/task_done_actions.go:100-110 | No row is lost and every resolved address gets a row. Each changed row is the detected drift of a visited address, keyed by the id of its resource. |
| `TaskDone.UpsertWritesEachAddress` | portal/task_manager/task_done_actions.go:100-110 | With unique resource ids, each resolved address ends with exactly its own drift row, whatever the visiting order. |
| `TaskDone.ProcessDrift` | portal/task_manager/task_done_actions.go:69-120 | A missing plan step or unreadable log changes nothing and returns nil. Only a failed environment lookup is returned. The notice goes out iff drift was detected. Afterwards every drift row of the last resource task has a detected address. |
| `TaskDone.DriftRowsMatchDetection` | portal/task_manager/task_done_actions.go:85-111 | When every detected address resolves, the environment's drift addresses become exactly the detected set. |
| `TaskDone.DriftRowsHoldDetection` | portal/task_manager/task_done_actions.go:100-110 | Each resolved address's row holds its detected drift. |
| `TaskDone.DriftExample` | portal/task_manager/task_done_actions.go:85-116 | Rows for {A, B} and a detection of {B, C} leave rows for {B, C} and send the notice. |
| `TaskDone.NoDriftClearsRows` | portal/task_manager/task_done_actions.go:86-90 | Detecting no drift removes every row of the resource task and sends no notice. |
| `TaskDone.AutoDestroy` | portal/task_manager/task_done_actions.go:122-155 | A destroyed, inactive environment loses its deadline and auto-destroy task and keeps its TTL. A newly active environment with a TTL other than "" and "0" and no deadline gets now + TTL. A failed environment lookup returns its code. A TTL parse error is returned with its message before any update, whether or not the update would fail; otherwise a failed update returns UpdateEnvFailed. An existing deadline is never overwritten. Only this environment's deadline fields change. |
| `TaskDone.DeadlineArmedOnce` | portal/task_manager/task_done_actions.go:139-147 | A second apply leaves the deadline that the first one set. |
| `TaskDone.RedeployRearms` | portal/task_manager/task_done_actions.go:130-147 | After a destroy clears the deadline, a redeploy arms a fresh one from the kept TTL. |
| `TaskDone.LookupRunner` | portal/task_manager/task_done_actions.go:172-186 | Reads the runner and container from the scan-task table or the task table, as the flag selects. A missing task and a read fault are told apart. |
| `TaskDone.StopTaskContainers` | portal/task_manager/task_done_actions.go:165-205 | A request is sent iff the task and its runner address are found. It goes to the runner's stop URL with the task id and exactly the task's one container. A failed task lookup returns its code and a failed runner-address lookup its message, with nothing sent. Once sent, the error returned is exactly the post's error. |
| `TaskDone.StopNamesTheTasksContainer` | portal/task_manager/task_done_actions.go:193-198 | The request names the task and exactly the one container recorded in the table its kind selects. |
| `TaskDone.ScanTaskDone` | portal/task_manager/task_done_actions.go:207-231 | A passed or violated scan stores its results with its status, or no results when the file cannot be used. A read error is returned after the store. A failed scan has its results cleaned. Any other status writes nothing. |
| `TaskDone.ScanResultsStoredOrEmpty` | portal/task_manager/task_done_actions.go:214-223 | Decoded results are stored exactly. An unreadable, empty or undecodable file stores an empty result but still records the status. |

## Left out

- Transactions, rollback and recover/re-panic blocks: a failed step is modelled as an error with no new state.
- SQL queries, pagination and listing (`QueryTemplateByOrgId`, `SearchPolicy`'s query, `GetPolicyScanStatus`, `GetPolicyScanByTarget`): the model starts from the rows they return.
- `PolicyScanReport`'s defaults for `showCount`, `from` and `to`, and its task-count chart: these come from the clock and a second query. Calendar arithmetic is abstracted as a `dayOf` function on instants.
- `Report.PolicyScanReport`: the pass rate is a real number, not the source's float64 `Percent`, and it is stated in its corrected form (see Findings).
- `Report.PolicyScanReport`: every row's date is taken to be a full timestamp of at least ten characters (`Dated`). The source slices `s.Date[5:10]` (policy.go:860), which panics on a shorter date, and that panic is not modelled.
- `ScanGate.IsScanableEnv`: the organisation-plus-global filter of `QueryWithOrgIdAndGlobal` is not part of this model. Its effect enters as the predicate `inScope` on environments. `services.IsEnvEnabledScan` and `services.IsTemplateEnabledScan` (policy.go:162, 189) are not part of this model either; they are taken to read the stored `policyEnable` flag, the column that template.go:215 writes.
- `ScanGate.ScanTemplateOrEnv`: `CreateEnvScanTask` and `CreateScanTask` are not part of this model. Both are taken to create a pending task of the computed type. The runner `CreateEnvScanTask` picks and the code a failing creation reports enter as the parameters `envRunner` and `createCode`. Names, creator, project and step timeout are not kept.
- `TemplateOps.UpdateTemplate`: the policy-group, project, variable and variable-group updates (template.go:245-287), the post-commit re-scan goroutine and the webhook update are left out. They are foreign services and concurrency. An update-row failure is reported as DBError with no status, although the source returns the service's own error.
- `TemplateOps.DeleteTemplate`: the webhook removal after the commit (template.go:368-383) is left out. It is a VCS client call, and an error there is returned after the deletion has been committed.
- `TemplateOps.DeriveRepoAddrs`: the per-template policy status in `SearchTemplate` (template.go:457-469) is left out, because `PolicyStatusConversion` is not part of this model. The value of `GitTypeLocal` is taken to be "local"; only its identity matters.
- `TaskDone.ProcessDrift`: the plan-step lookup and log read are inputs (found or not, log or read error), and drift parsing is a parameter. `DeleteEnvResourceDriftByAddressList` and `InsertOrUpdateCronTaskInfo` are not part of this model. They are modelled as "delete the rows whose address is not listed" (as their log text says) and "write the row keyed by the resource id". An upsert failure is only logged, so it is modelled as no rows written.
- `TaskDone.StopTaskContainers`: the connect timeout and the headers are left out. The runner stop path is "/task/stop".
- `TaskDone.AutoDestroy`: instants and durations are integers, and `time.Now` and `ParseTTL` are inputs.
- `RuleTest.PolicyTest`: the temporary files and the rego engine are inputs. Only the classification is modelled, and the engine's "violations" count is a parameter.
- `PolicySync.PoliciesUpsert`: the stored table is a sequence in storage order. `GetPolicyByName` is taken to return the first policy of the group with that name.
- The goroutines and WaitGroup in template create/update and policy download, the `ParseTemplate` polling loop, and the `Changes` ratios of `PolicySummary`: concurrency, timers and floating point.

## Findings

| source | as written | input that shows it | evidently intended | confidence | as-written member | corrected member |
|---|---|---|---|---|---|---|
| portal/apps/policy.go:881-887 | The pass-rate loop runs inside the per-row loop. After every row it divides every day's current rate by that day's total, so a finished day is divided again for each later row. | Two rows: 08-01 passed with count 2, then 08-02 passed with count 1. Day 08-01 ends at 0.5 instead of 1. | Each day's rate is its passed count over its final total, computed once after all rows. | not executed | `Report.PassRateRedividedAsWritten` | `Report.PassRateCorrected` |

=== FILE: common.dfy ===
/**
 * Vocabulary shared by the handlers: identifiers, bytes, the error codes and
 * HTTP statuses the handlers attach to their errors, the policy status strings,
 * task types, and the database steps that can fail.
 */
module Common {
  import opened Wrappers

  /** Object identifiers are strings; the empty string means "no object". */
  type Id = string

  newtype byte = x: int | 0 <= x < 256

  // HTTP statuses the handlers attach to their errors.
  const StatusBadRequest := 400
  const StatusForbidden := 403
  const StatusNotFound := 404
  const StatusMethodNotAllowed := 405
  const StatusInternalServerError := 500

  /** The error codes of the handlers that are modelled. */
  datatype Code =
    | BadRequest
    | DBError
    | InternalError
    | EnvNotExists
    | EnvArchived
    | TemplateNotExists
    | TemplateDisabled
    | TemplateActiveEnvExists
    | PolicyScanNotEnabled
    | TaskNotExists

  /**
   * A handler error: a code plus the HTTP status given with it. `status` is
   * None when the handler builds the error without naming a status.
   */
  datatype Error = Error(code: Code, status: Option<int>)

  function Err(code: Code, status: int): Error {
    Error(code, Some(status))
  }

  // Policy result statuses, compared as strings as the source does.
  const PolicyStatusPassed := "passed"
  const PolicyStatusViolated := "violated"
  const PolicyStatusFailed := "failed"
  const PolicyStatusSuppressed := "suppressed"
  const PolicyStatusPending := "pending"

  /** The statuses a stored policy result can carry. */
  predicate IsKnownPolicyStatus(s: string) {
    s == PolicyStatusPassed || s == PolicyStatusViolated || s == PolicyStatusFailed
    || s == PolicyStatusSuppressed || s == PolicyStatusPending
  }

  datatype TaskType = Plan | Apply | Destroy | EnvScan | EnvParse | TplScan | TplParse

  /**
   * Database operations whose failure the handlers react to. A handler is
   * given the set of steps that fail on this run; everything else succeeds.
   */
  datatype Step =
    | ReadEnv
    | ReadTemplate
    | ReadEnvScanEnabled
    | ReadTemplateScanEnabled
    | SaveEnv
    | SaveTemplate
    | CreateScanTask
    | InitScanResult
    | Commit
    | UpdateTemplateRow
    | ReadActiveEnvs
    | DeletePolicyRels
    | DeleteTemplateRow
    | ListGroupPolicies
    | LookupPolicyByName
    | DeletePolicy
    | SavePolicy
    | SaveResources
    | SaveOutputs
    | SaveChanges
    | DeleteDrift
    | UpdateEnvRow
    | UpdateScanResult
    | CleanScanResult
    | ReadTask
    | ReadResource
    | UpsertDrift

  /** Per-status tallies of policy results. */
  datatype Summary = Summary(passed: nat, violated: nat, suppressed: nat, failed: nat)

  const EmptySummary := Summary(0, 0, 0, 0)

  /** Adds `n` results of `status` to a tally; a status outside the four is counted nowhere. */
  function AddToSummary(s: Summary, status: string, n: nat): Summary {
    if status == PolicyStatusPassed then s.(passed := s.passed + n)
    else if status == PolicyStatusViolated then s.(violated := s.violated + n)
    else if status == PolicyStatusFailed then s.(failed := s.failed + n)
    else if status == PolicyStatusSuppressed then s.(suppressed := s.suppressed + n)
    else s
  }
}

=== FILE: entities.dfy ===
/**
 * The persisted records the handlers read and write, and the database as a
 * record of tables. Only the columns the modelled handlers touch are kept.
 */
module Entities {
  import opened Wrappers
  import opened Common

  datatype EnvStatus = Active | Inactive | OtherEnvStatus(name: string)

  /** A deployed instance of a template. Times are instants in seconds. */
  datatype Env = Env(
    id: Id,
    tplId: Id,
    status: EnvStatus,
    archived: bool,
    policyEnable: bool,
    ttl: string,
    autoDestroyAt: Option<int>,
    autoDestroyTaskId: Id,
    lastScanTaskId: Id,
    lastResTaskId: Id)

  /** The template status string that disables a template. */
  const TemplateDisable := "disable"

  /** A reusable infrastructure definition, stored with its repository coordinates. */
  datatype Template = Template(
    id: Id,
    orgId: Id,
    name: string,
    description: string,
    playbook: string,
    status: string,
    workdir: string,
    tfVarsFile: string,
    playVarsFile: string,
    tfVersion: string,
    repoRevision: string,
    policyEnable: bool,
    triggers: seq<string>,
    keyId: Id,
    vcsId: Id,
    repoId: string,
    repoFullName: string,
    repoAddr: string,
    lastScanTaskId: Id)

  /** An execution task (plan, apply, destroy). */
  datatype Task = Task(id: Id, ttype: TaskType, envId: Id, runnerId: Id, containerId: string)

  /** A compliance scan task; `policyStatus` is one of the policy status strings. */
  datatype ScanTask = ScanTask(
    id: Id,
    ttype: TaskType,
    tplId: Id,
    envId: Id,
    runnerId: Id,
    containerId: string,
    policyStatus: string)

  datatype Scope = ScopeTemplate | ScopeEnv

  /** A binding of a policy group to a template or an environment. */
  datatype PolicyRel = PolicyRel(groupId: Id, scope: Scope, targetId: Id)

  /** A resource of a task's state, found by address. */
  datatype Resource = Resource(id: Id, address: string)

  datatype Output = Output(name: string, value: string)

  /** Sensitive attribute names per provider, read from the provider schema. */
  type SensitiveAttrs = map<string, seq<string>>

  /** What SaveTaskResources records for a task. */
  datatype TaskResources = TaskResources(resources: seq<Resource>, sensitive: SensitiveAttrs)

  datatype Change = Change(address: string, actions: seq<string>)

  /** One drift description for a resource address. */
  datatype DriftInfo = DriftInfo(text: string)

  /** A drift row: which last-apply task's resource it belongs to, its address, its drift. */
  datatype DriftRow = DriftRow(resTaskId: Id, address: string, info: DriftInfo)

  /** One violation in a scan result file. */
  datatype Violation = Violation(ruleId: string, resource: string)

  /** What the scan-result services leave behind for a scan task. */
  datatype ScanWrite = ResultUpdated(results: seq<Violation>, status: string) | ResultCleaned

  datatype Db = Db(
    envs: map<Id, Env>,
    templates: map<Id, Template>,
    tasks: map<Id, Task>,
    scanTasks: map<Id, ScanTask>,
    policyRels: set<PolicyRel>,
    resources: map<Id, TaskResources>,
    outputs: map<Id, seq<Output>>,
    changes: map<Id, seq<Change>>,
    drift: map<Id, DriftRow>,
    scanResults: map<Id, ScanWrite>)

  /** GetEnvById / GetEnv: a read fault is a DBError, a missing row is EnvNotExists. */
  function LookupEnv(db: Db, id: Id, fails: set<Step>): (r: Result<Env, Code>)
    ensures r.Success? <==> ReadEnv !in fails && id in db.envs
    ensures r.Success? ==> r.value == db.envs[id]
    ensures r.Failure? ==> r.error == (if ReadEnv in fails then DBError else EnvNotExists)
  {
    if ReadEnv in fails then Failure(DBError)
    else if id in db.envs then Success(db.envs[id])
    else Failure(EnvNotExists)
  }

  /** GetTemplateById: a read fault is a DBError, a missing row is TemplateNotExists. */
  function LookupTemplate(db: Db, id: Id, fails: set<Step>): (r: Result<Template, Code>)
    ensures r.Success? <==> ReadTemplate !in fails && id in db.templates
    ensures r.Success? ==> r.value == db.templates[id]
    ensures r.Failure? ==> r.error == (if ReadTemplate in fails then DBError else TemplateNotExists)
  {
    if ReadTemplate in fails then Failure(DBError)
    else if id in db.templates then Success(db.templates[id])
    else Failure(TemplateNotExists)
  }

  /** Every row is stored under its own identifier (the primary key). */
  predicate WellKeyed(db: Db) {
    && (forall k :: k in db.envs ==> db.envs[k].id == k)
    && (forall k :: k in db.templates ==> db.templates[k].id == k)
    && (forall k :: k in db.tasks ==> db.tasks[k].id == k)
    && (forall k :: k in db.scanTasks ==> db.scanTasks[k].id == k)
  }
}

=== FILE: grouping.dfy ===
/**
 * Grouping of a scan task's policy results by policy group, with per-group
 * tallies of passed / violated / suppressed / failed results.
 */
module Grouping {
  import opened Common

  /** A policy result row as the scan-result query returns it, ordered by group name. */
  datatype ResultRow = ResultRow(policyId: Id, groupId: Id, groupName: string, status: string)

  datatype ResultGroup = ResultGroup(id: Id, name: string, summary: Summary, list: seq<ResultRow>)

  /** The number of rows whose status is `status`. */
  function Count(rows: seq<ResultRow>, status: string): nat
  {
    if |rows| == 0 then 0
    else Count(rows[..|rows| - 1], status) + (if rows[|rows| - 1].status == status then 1 else 0)
  }

  /** The tallies a group of exactly these rows should carry. */
  function Tally(rows: seq<ResultRow>): Summary {
    Summary(Count(rows, PolicyStatusPassed), Count(rows, PolicyStatusViolated),
            Count(rows, PolicyStatusSuppressed), Count(rows, PolicyStatusFailed))
  }

  /** One result's effect on a running tally. */
  function Bump(s: Summary, status: string): Summary {
    AddToSummary(s, status, 1)
  }

  /** Adding a row to a group's list and bumping its tally keeps the tally exact. */
  lemma TallySnoc(rows: seq<ResultRow>, r: ResultRow)
    ensures Tally(rows + [r]) == Bump(Tally(rows), r.status)
  {
    assert (rows + [r])[..|rows|] == rows;
  }

  /** The rows of the groups, in order. */
  function Flatten(groups: seq<ResultGroup>): seq<ResultRow>
  {
    if |groups| == 0 then [] else groups[0].list + Flatten(groups[1..])
  }

  lemma {:induction false} FlattenSnoc(groups: seq<ResultGroup>, g: ResultGroup)
    ensures Flatten(groups + [g]) == Flatten(groups) + g.list
    decreases |groups|
  {
    if |groups| == 0 {
      assert groups + [g] == [g];
    } else {
      assert (groups + [g])[1..] == groups[1..] + [g];
      FlattenSnoc(groups[1..], g);
    }
  }

  /**
   * The number of leading rows whose group name is empty: the first row whose
   * group name is not empty sits at this index (or there is none).
   */
  function LeadingUngrouped(rows: seq<ResultRow>): (n: nat)
    ensures n <= |rows|
    ensures forall k :: 0 <= k < n ==> rows[k].groupName == ""
    ensures n < |rows| ==> rows[n].groupName != ""
  {
    if |rows| == 0 || rows[0].groupName != "" then 0 else 1 + LeadingUngrouped(rows[1..])
  }

  /** A group holds at least one row, all of its own name, and its tallies are exact. */
  predicate WellFormedGroup(g: ResultGroup) {
    && |g.list| > 0
    && g.id == g.list[0].groupId
    && (forall k :: 0 <= k < |g.list| ==> g.list[k].groupName == g.name)
    && g.summary == Tally(g.list)
  }

  /** Well-formed groups, and a new group starts exactly where the group name changes. */
  predicate Grouped(groups: seq<ResultGroup>) {
    && (forall i :: 0 <= i < |groups| ==> WellFormedGroup(groups[i]))
    && (forall i :: 0 < i < |groups| ==> groups[i - 1].name != groups[i].name)
  }

  lemma GroupedSnoc(groups: seq<ResultGroup>, g: ResultGroup)
    requires Grouped(groups) && WellFormedGroup(g)
    requires |groups| > 0 ==> groups[|groups| - 1].name != g.name
    ensures Grouped(groups + [g])
  {
  }

  lemma GroupedReplaceLast(groups: seq<ResultGroup>, g: ResultGroup)
    requires Grouped(groups) && |groups| > 0 && WellFormedGroup(g)
    requires g.name == groups[|groups| - 1].name
    ensures Grouped(groups[..|groups| - 1] + [g])
  {
  }

  /** A row of the group's own name, added with a bumped tally, keeps the group well formed. */
  lemma WellFormedAdd(g: ResultGroup, r: ResultRow)
    requires WellFormedGroup(g) && r.groupName == g.name
    ensures WellFormedGroup(g.(list := g.list + [r], summary := Bump(g.summary, r.status)))
  {
    TallySnoc(g.list, r);
  }

  /** The group a row opens when its group name differs from the running group's. */
  function NewGroup(r: ResultRow): ResultGroup {
    ResultGroup(r.groupId, r.groupName, Bump(EmptySummary, r.status), [r])
  }

  /** The running group with one more row. */
  function AddRow(g: ResultGroup, r: ResultRow): ResultGroup {
    g.(list := g.list + [r], summary := Bump(g.summary, r.status))
  }

  /**
   * What holds after the first `i` rows: the listed groups are a grouping of
   * the rows after the leading empty-name run, and `lastName` is the running
   * group's name ("" while the running group is still the unlisted initial one).
   */
  ghost predicate Progress(results: seq<ResultRow>, i: int, groups: seq<ResultGroup>, lastName: string) {
    Shape(results, i, groups, lastName) && Grouped(groups) && Covers(results, i, groups)
  }

  /** Where the loop stands: the running name, and the position against the leading empty-name run. */
  ghost predicate Shape(results: seq<ResultRow>, i: int, groups: seq<ResultGroup>, lastName: string) {
    var lead := LeadingUngrouped(results);
    && 0 <= i <= |results|
    && (|groups| > 0 ==> lastName == groups[|groups| - 1].name && lead < i && groups[0].name != "")
    && (|groups| == 0 ==> lastName == "" && i <= lead)
  }

  /** The listed groups hold, in order, the rows from the end of the leading run up to `i`. */
  ghost predicate Covers(results: seq<ResultRow>, i: int, groups: seq<ResultGroup>) {
    var lead := LeadingUngrouped(results);
    |groups| > 0 ==> lead <= i <= |results| && Flatten(groups) == results[lead..i]
  }

  lemma NewShape(results: seq<ResultRow>, i: int, groups: seq<ResultGroup>, lastName: string)
    requires Shape(results, i, groups, lastName) && i < |results|
    requires lastName != results[i].groupName
    ensures Shape(results, i + 1, groups + [NewGroup(results[i])], results[i].groupName)
    ensures |groups| == 0 ==> i == LeadingUngrouped(results)
  {
  }

  lemma NewGroupWellFormed(r: ResultRow)
    ensures WellFormedGroup(NewGroup(r))
  {
    TallySnoc([], r);
    assert [] + [r] == [r];
  }

  lemma NewCovers(results: seq<ResultRow>, i: int, groups: seq<ResultGroup>)
    requires Covers(results, i, groups) && 0 <= i < |results|
    requires |groups| == 0 ==> i == LeadingUngrouped(results)
    requires |groups| > 0 ==> LeadingUngrouped(results) < i
    ensures Covers(results, i + 1, groups + [NewGroup(results[i])])
  {
    SliceSnoc(results, LeadingUngrouped(results), i, groups, NewGroup(results[i]));
  }

  /** Appending a group holding just the next row extends the covered slice by that row. */
  lemma SliceSnoc(rows: seq<ResultRow>, lead: int, i: int, groups: seq<ResultGroup>, g: ResultGroup)
    requires 0 <= lead <= i < |rows| && g.list == [rows[i]]
    requires |groups| == 0 ==> i == lead
    requires |groups| > 0 ==> Flatten(groups) == rows[lead..i]
    ensures Flatten(groups + [g]) == rows[lead..i + 1]
  {
    FlattenSnoc(groups, g);
    if |groups| == 0 {
      RowsSnoc(rows, lead, i, [], Flatten(groups + [g]));
    } else {
      RowsSnoc(rows, lead, i, Flatten(groups), Flatten(groups + [g]));
    }
  }

  /** A slice followed by the next row is the slice one longer. */
  lemma RowsSnoc(rows: seq<ResultRow>, lead: int, i: int, covered: seq<ResultRow>, f: seq<ResultRow>)
    requires 0 <= lead <= i < |rows| && covered == rows[lead..i] && f == covered + [rows[i]]
    ensures f == rows[lead..i + 1]
  {
  }

  lemma StepNewGroup(results: seq<ResultRow>, i: int, groups: seq<ResultGroup>, lastName: string)
    requires Progress(results, i, groups, lastName) && i < |results|
    requires lastName != results[i].groupName
    ensures Progress(results, i + 1, groups + [NewGroup(results[i])], results[i].groupName)
  {
    NewShape(results, i, groups, lastName);
    NewGroupWellFormed(results[i]);
    GroupedSnoc(groups, NewGroup(results[i]));
    NewCovers(results, i, groups);
  }

  lemma SameCovers(results: seq<ResultRow>, i: int, groups: seq<ResultGroup>)
    requires Covers(results, i, groups) && 0 <= i < |results| && |groups| > 0
    ensures Covers(results, i + 1, groups[..|groups| - 1] + [AddRow(groups[|groups| - 1], results[i])])
  {
    var n := |groups| - 1;
    FlattenReplaceLast(groups, results[i]);
    RowsSnoc(results, LeadingUngrouped(results), i, Flatten(groups),
             Flatten(groups[..n] + [AddRow(groups[n], results[i])]));
  }

  lemma StepSameGroup(results: seq<ResultRow>, i: int, groups: seq<ResultGroup>, lastName: string)
    requires Progress(results, i, groups, lastName) && i < |results|
    requires lastName == results[i].groupName && |groups| > 0
    ensures Progress(results, i + 1, groups[..|groups| - 1] + [AddRow(groups[|groups| - 1], results[i])], lastName)
  {
    var n := |groups| - 1;
    WellFormedAdd(groups[n], results[i]);
    GroupedReplaceLast(groups, AddRow(groups[n], results[i]));
    SameCovers(results, i, groups);
  }

  /** Adding a row to the last group appends it to the flattened rows. */
  lemma FlattenReplaceLast(groups: seq<ResultGroup>, r: ResultRow)
    requires |groups| > 0
    ensures var n := |groups| - 1;
      Flatten(groups[..n] + [AddRow(groups[n], r)]) == Flatten(groups) + [r]
  {
    var n := |groups| - 1;
    var g := groups[n];
    var front := groups[..n];
    SplitLast(groups);
    FlattenSnoc(front, g);
    FlattenSnoc(front, AddRow(g, r));
    Regroup(Flatten(front), g.list, r, Flatten(groups), Flatten(front + [AddRow(g, r)]));
  }

  lemma SplitLast<T>(s: seq<T>)
    requires |s| > 0
    ensures s[..|s| - 1] + [s[|s| - 1]] == s
  {
  }

  lemma Regroup(a: seq<ResultRow>, b: seq<ResultRow>, r: ResultRow, whole: seq<ResultRow>, f: seq<ResultRow>)
    requires whole == a + b && f == a + (b + [r])
    ensures f == whole + [r]
  {
  }

  lemma StepUngrouped(results: seq<ResultRow>, i: int, groups: seq<ResultGroup>, lastName: string)
    requires Progress(results, i, groups, lastName) && i < |results|
    requires lastName == results[i].groupName && |groups| == 0
    ensures Progress(results, i + 1, groups, lastName)
  {
  }

  /** One turn of the grouping loop: open a group, extend the running one, or skip an initial empty-name row. */
  function Step(groups: seq<ResultGroup>, lastName: string, r: ResultRow): (seq<ResultGroup>, string) {
    if lastName != r.groupName then (groups + [NewGroup(r)], r.groupName)
    else if |groups| > 0 then (groups[..|groups| - 1] + [AddRow(groups[|groups| - 1], r)], lastName)
    else (groups, lastName)
  }

  lemma StepKeepsProgress(results: seq<ResultRow>, i: int, groups: seq<ResultGroup>, lastName: string,
                           next: (seq<ResultGroup>, string))
    requires Progress(results, i, groups, lastName) && i < |results|
    requires next == Step(groups, lastName, results[i])
    ensures Progress(results, i + 1, next.0, next.1)
  {
    if lastName != results[i].groupName {
      StepNewGroup(results, i, groups, lastName);
    } else if |groups| > 0 {
      StepSameGroup(results, i, groups, lastName);
    } else {
      StepUngrouped(results, i, groups, lastName);
    }
  }

  /**
   * groupByGroup: split the sorted result rows into runs of one group name.
   * The running group starts out as an unlisted group with the empty name, so
   * a leading run of rows whose group name is empty is dropped; every other row
   * lands, in order, in exactly one group.
   */
  method GroupByGroup(results: seq<ResultRow>) returns (groups: seq<ResultGroup>)
    ensures groups == GroupsOf(results)
  {
    var lastName := "";
    groups := [];
    var i := 0;
    while i < |results|
      invariant 0 <= i <= |results|
      invariant groups == Fold(results, i).0 && lastName == Fold(results, i).1
    {
      var next := Step(groups, lastName, results[i]);
      groups := next.0;
      lastName := next.1;
      i := i + 1;
    }
  }

  /** The grouping the loop computes, as a function of the rows alone. */
  function GroupsOf(results: seq<ResultRow>): (groups: seq<ResultGroup>)
    ensures Grouped(groups)
    ensures |groups| > 0 ==> groups[0].name != ""
    ensures Flatten(groups) == results[LeadingUngrouped(results)..]
    ensures |results| > 0 && results[0].groupName != "" ==> Flatten(groups) == results
  {
    FoldGroups(results);
    Fold(results, |results|).0
  }

  /** The loop's state after the first `i` rows. */
  function Fold(results: seq<ResultRow>, i: int): (seq<ResultGroup>, string)
    requires 0 <= i <= |results|
  {
    if i == 0 then ([], "")
    else
      var prev := Fold(results, i - 1);
      Step(prev.0, prev.1, results[i - 1])
  }

  lemma {:induction false} FoldProgress(results: seq<ResultRow>, i: int)
    requires 0 <= i <= |results|
    ensures Progress(results, i, Fold(results, i).0, Fold(results, i).1)
    decreases i
  {
    if i == 0 {
      ProgressStart(results, Fold(results, 0));
    } else {
      var prev := Fold(results, i - 1);
      FoldProgress(results, i - 1);
      StepKeepsProgress(results, i - 1, prev.0, prev.1, Fold(results, i));
    }
  }

  lemma ProgressStart(results: seq<ResultRow>, start: (seq<ResultGroup>, string))
    requires start == ([], "")
    ensures Progress(results, 0, start.0, start.1)
  {
  }

  /** The finished fold is a grouping of every row after the leading empty-name run. */
  lemma FoldGroups(results: seq<ResultRow>)
    ensures var groups := Fold(results, |results|).0;
      && Grouped(groups)
      && (|groups| > 0 ==> groups[0].name != "")
      && Flatten(groups) == results[LeadingUngrouped(results)..]
      && (|results| > 0 && results[0].groupName != "" ==> Flatten(groups) == results)
  {
    FoldProgress(results, |results|);
    ProgressDone(results, Fold(results, |results|).0, Fold(results, |results|).1);
  }

  /** When the loop has seen every row, the listed groups hold every row after the leading run. */
  lemma ProgressDone(results: seq<ResultRow>, groups: seq<ResultGroup>, lastName: string)
    requires Progress(results, |results|, groups, lastName)
    ensures Flatten(groups) == results[LeadingUngrouped(results)..]
  {
    if |groups| == 0 {
      assert LeadingUngrouped(results) == |results|;
    }
  }

  /** Every row of a well-formed group carries the group's name, so does its first. */
  lemma {:induction false} FlattenHead(groups: seq<ResultGroup>)
    requires Grouped(groups) && |groups| > 0
    ensures |Flatten(groups)| > 0
    ensures Flatten(groups)[0] == groups[0].list[0]
    ensures Flatten(groups)[0].groupName == groups[0].name
  {
  }

  lemma GroupedTail(groups: seq<ResultGroup>)
    requires Grouped(groups) && |groups| > 0
    ensures Grouped(groups[1..])
  {
  }

  /** The row right after the first group's rows, if any, belongs to another group name. */
  lemma RowAfterFirstGroup(groups: seq<ResultGroup>)
    requires Grouped(groups) && |groups| > 0
    requires |Flatten(groups)| > |groups[0].list|
    ensures Flatten(groups)[|groups[0].list|].groupName != groups[0].name
  {
    var rest := groups[1..];
    assert Flatten(groups) == groups[0].list + Flatten(rest);
    if |rest| == 0 {
      assert false;
    }
    GroupedTail(groups);
    FlattenHead(rest);
    assert Flatten(groups)[|groups[0].list|] == Flatten(rest)[0];
    assert rest[0].name == groups[1].name;
  }

  /**
   * The grouping is determined by the rows: two groupings that flatten to the
   * same rows are the same groupings. With GroupByGroup's contract this makes
   * its result THE split into maximal runs of one group name.
   */
  lemma {:induction false} GroupingIsUnique(a: seq<ResultGroup>, b: seq<ResultGroup>)
    requires Grouped(a) && Grouped(b)
    requires Flatten(a) == Flatten(b)
    ensures a == b
    decreases |a|
  {
    if |a| == 0 {
      if |b| > 0 {
        FlattenHead(b);
      }
    } else if |b| == 0 {
      FlattenHead(a);
    } else {
      FlattenHead(a);
      FlattenHead(b);
      var la, lb := |a[0].list|, |b[0].list|;
      var fa := Flatten(a);
      assert fa == a[0].list + Flatten(a[1..]);
      assert fa == b[0].list + Flatten(b[1..]);
      assert a[0].name == b[0].name;
      GroupedTail(a);
      GroupedTail(b);
      // the shorter first group is followed, in the rows, by a row of another
      // name where the longer one still has a row of its own name
      if la < lb {
        RowAfterFirstGroup(a);
        assert false;
      } else if lb < la {
        RowAfterFirstGroup(b);
        assert false;
      }
      assert a[0].list == fa[..la] == b[0].list;
      assert a[0] == b[0];
      assert Flatten(a[1..]) == fa[la..] == Flatten(b[1..]);
      GroupingIsUnique(a[1..], b[1..]);
      assert a == [a[0]] + a[1..];
      assert b == [b[0]] + b[1..];
    }
  }

  /** The number of rows whose status is none of the four tallied ones. */
  function Untallied(rows: seq<ResultRow>): nat
  {
    if |rows| == 0 then 0
    else Untallied(rows[..|rows| - 1])
         + (if rows[|rows| - 1].status in {PolicyStatusPassed, PolicyStatusViolated, PolicyStatusSuppressed, PolicyStatusFailed}
            then 0 else 1)
  }

  /** Each row is tallied under at most one status, and rows of any other status under none. */
  lemma {:induction false} TallyPartitionsRows(rows: seq<ResultRow>)
    ensures var s := Tally(rows);
      s.passed + s.violated + s.suppressed + s.failed + Untallied(rows) == |rows|
    decreases |rows|
  {
    if |rows| > 0 {
      TallyPartitionsRows(rows[..|rows| - 1]);
    }
  }
}

=== FILE: policy_sync.dfy ===
/**
 * Synchronising a policy group's policies with the policy files found in its
 * repository: stored policies whose name no longer appears are deleted, and
 * each file's policy is saved, updating the stored policy of the same name in
 * the group or inserting a new one.
 */
module PolicySync {
  import opened Wrappers
  import opened Common

  /** What a policy file declares about its rule. */
  datatype Meta = Meta(name: string, referenceId: string, version: int, fixSuggestion: string,
                       severity: string, resourceType: string, policyType: string, category: string)

  /** A parsed policy file: its metadata and the rule text. */
  datatype PolicyFile = PolicyFile(meta: Meta, rego: string)

  /** A stored policy. */
  datatype Policy = Policy(id: Id, orgId: Id, groupId: Id, creatorId: Id, name: string, ruleName: string,
                           referenceId: string, revision: int, fixSuggestion: string, severity: string,
                           resourceType: string, policyType: string, tags: string, rego: string)

  /** Who is synchronising which group of which organisation. */
  datatype SyncCtx = SyncCtx(userId: Id, orgId: Id, groupId: Id)

  /** The policy table, in storage order. */
  type Table = seq<Policy>

  predicate InGroup(p: Policy, c: SyncCtx) {
    p.groupId == c.groupId && p.orgId == c.orgId
  }

  /** No two stored policies share an id. */
  predicate UniqueIds(t: Table) {
    forall i, j :: 0 <= i < j < |t| ==> t[i].id != t[j].id
  }

  /** No two different policies of the group share a name. */
  predicate UniqueGroupNames(t: Table, c: SyncCtx) {
    forall p, q :: p in t && q in t && InGroup(p, c) && InGroup(q, c) && p.name == q.name ==> p == q
  }

  function GroupNames(t: Table, c: SyncCtx): set<string> {
    set p | p in t && InGroup(p, c) :: p.name
  }

  function FileNames(files: seq<PolicyFile>): set<string> {
    set f | f in files :: f.meta.name
  }

  /** The group's stored policies, in storage order. */
  function GroupRows(t: Table, c: SyncCtx): (rows: seq<Policy>)
    ensures forall p :: p in rows <==> p in t && InGroup(p, c)
  {
    if |t| == 0 then []
    else (if InGroup(t[0], c) then [t[0]] else []) + GroupRows(t[1..], c)
  }

  /** The table without the policies of this id. */
  function DeleteById(t: Table, id: Id): (r: Table)
    ensures forall p :: p in r <==> p in t && p.id != id
    ensures UniqueIds(t) ==> UniqueIds(r)
  {
    if |t| == 0 then []
    else
      var rest := DeleteById(t[1..], id);
      if t[0].id == id then rest else [t[0]] + rest
  }

  /** The first stored policy of the group with this name. */
  function FirstByName(t: Table, name: string, c: SyncCtx): (r: Option<Policy>)
    ensures r.Some? ==> r.value in t && InGroup(r.value, c) && r.value.name == name
    ensures r.None? ==> name !in GroupNames(t, c)
  {
    if |t| == 0 then None
    else if InGroup(t[0], c) && t[0].name == name then Some(t[0])
    else
      var r := FirstByName(t[1..], name, c);
      assert GroupNames(t, c) <= GroupNames(t[1..], c) + {t[0].name} by {
        forall p | p in t && InGroup(p, c)
          ensures p.name in GroupNames(t[1..], c) + {t[0].name}
        {
          if p != t[0] {
            assert p in t[1..];
          }
        }
      }
      r
  }

  /** The index of the stored policy with this id. */
  function IndexOfId(t: Table, id: Id): (r: Option<nat>)
    ensures r.Some? ==> r.value < |t| && t[r.value].id == id
    ensures r.None? ==> forall p :: p in t ==> p.id != id
  {
    if |t| == 0 then None
    else if t[0].id == id then Some(0)
    else match IndexOfId(t[1..], id)
      case None => None
      case Some(i) => Some(i + 1)
  }

  /** Saving a row: the row with the same id is overwritten as a whole, or the row is appended. */
  function SaveRow(t: Table, p: Policy): Table {
    match IndexOfId(t, p.id)
    case Some(i) => t[i := p]
    case None => t + [p]
  }

  /** With unique ids, saving replaces exactly the row of the same id. */
  lemma SaveRowMembers(t: Table, p: Policy)
    requires UniqueIds(t)
    ensures UniqueIds(SaveRow(t, p))
    ensures forall q :: q in SaveRow(t, p) <==> q == p || (q in t && q.id != p.id)
  {
    match IndexOfId(t, p.id)
    case Some(i) =>
      var r := t[i := p];
      assert forall k :: 0 <= k < |r| ==> r[k].id == t[k].id;
      forall q | q in t && q.id != p.id
        ensures q in r
      {
        var k :| 0 <= k < |t| && t[k] == q;
        assert k != i;
        assert r[k] == q;
      }
      forall q | q in r && q != p
        ensures q in t && q.id != p.id
      {
        var k :| 0 <= k < |r| && r[k] == q;
        assert k != i && t[k] == q;
      }
    case None =>
  }

  /** The row a policy file becomes, under the given id. */
  function FromFile(c: SyncCtx, id: Id, f: PolicyFile): Policy {
    var m := f.meta;
    Policy(id, c.orgId, c.groupId, c.userId, m.name, m.name, m.referenceId, m.version, m.fixSuggestion,
           m.severity, m.resourceType, m.policyType, m.category, f.rego)
  }

  /** Deleting each listed policy whose name is no file's name; the first failing delete aborts. */
  function DeleteStale(t: Table, ops: seq<Policy>, names: set<string>, fails: set<Step>): (r: Result<Table, Error>)
    ensures r.Failure? <==> DeletePolicy in fails && exists p :: p in ops && p.name !in names
    ensures r.Failure? ==> r.error == Error(DBError, None)
    ensures r.Success? ==> forall p :: p in r.value <==> p in t && !(exists o :: o in ops && o.id == p.id && o.name !in names)
    ensures r.Success? && UniqueIds(t) ==> UniqueIds(r.value)
    decreases |ops|
  {
    if |ops| == 0 then Success(t)
    else
      var op := ops[0];
      var t1 :- if op.name in names then Success(t)
                else if DeletePolicy in fails then Failure(Error(DBError, None))
                else Success(DeleteById(t, op.id));
      var r := DeleteStale(t1, ops[1..], names, fails);
      assert forall p :: p in ops <==> p == op || p in ops[1..];
      r
  }

  /** Saving each file's policy in order, reusing the id of the group's policy of that name. */
  function SaveAll(t: Table, c: SyncCtx, files: seq<PolicyFile>, newIds: seq<Id>, fails: set<Step>): (r: Result<Table, Error>)
    requires |newIds| == |files|
    ensures r.Failure? <==> SavePolicy in fails && |files| > 0
    ensures r.Failure? ==> r.error == Error(DBError, None)
    decreases |files|
  {
    if |files| == 0 then Success(t)
    else if SavePolicy in fails then Failure(Error(DBError, None))
    else SaveAll(SaveStep(t, c, files[0], newIds[0], LookupPolicyByName in fails), c, files[1..], newIds[1..], fails)
  }

  /** The id a file's policy is saved under: that of the group's policy of its name, or a new one. */
  function SaveId(t: Table, c: SyncCtx, f: PolicyFile, newId: Id, lookupFails: bool): (id: Id)
    ensures id == newId || exists p :: p in t && p.id == id
  {
    var existing := if lookupFails then None else FirstByName(t, f.meta.name, c);
    if existing.Some? then existing.value.id else newId
  }

  /** One iteration of the save loop. */
  function SaveStep(t: Table, c: SyncCtx, f: PolicyFile, newId: Id, lookupFails: bool): Table {
    SaveRow(t, FromFile(c, SaveId(t, c, f, newId, lookupFails), f))
  }

  /**
   * policiesUpsert. A failure to list the group's policies skips the deletes;
   * a failure to look a policy up by name makes its save an insert.
   */
  function PoliciesUpsert(t: Table, c: SyncCtx, files: seq<PolicyFile>, newIds: seq<Id>, fails: set<Step>): (r: Result<Table, Error>)
    requires |newIds| == |files|
    ensures r.Failure? ==> r.error == Error(DBError, None)
    ensures r.Failure? <==>
      || (ListGroupPolicies !in fails && DeletePolicy in fails && exists p :: p in t && InGroup(p, c) && p.name !in FileNames(files))
      || (SavePolicy in fails && |files| > 0)
  {
    var ops := if ListGroupPolicies in fails then [] else GroupRows(t, c);
    var t1 :- DeleteStale(t, ops, FileNames(files), fails);
    SaveAll(t1, c, files, newIds, fails)
  }

  /** Ids handed out for inserts are distinct and used by no stored policy. */
  predicate FreshIds(t: Table, ids: seq<Id>) {
    && (forall k, p :: 0 <= k < |ids| && p in t ==> p.id != ids[k])
    && (forall a, b :: 0 <= a < b < |ids| ==> ids[a] != ids[b])
  }

  /** The policies outside the group are the same before and after. */
  ghost predicate SameOutside(t: Table, t': Table, c: SyncCtx) {
    forall q :: !InGroup(q, c) ==> (q in t <==> q in t')
  }

  /** Every policy of the group in `t` whose name is in `names` is still there under its id and name. */
  predicate KeepsIds(t: Table, t': Table, c: SyncCtx, names: set<string>) {
    forall q :: q in t && InGroup(q, c) && q.name in names ==>
      exists r :: r in t' && InGroup(r, c) && r.id == q.id && r.name == q.name
  }

  lemma FileNamesCons(files: seq<PolicyFile>)
    requires |files| > 0
    ensures FileNames(files) == {files[0].meta.name} + FileNames(files[1..])
  {
    assert forall f :: f in files <==> f == files[0] || f in files[1..];
  }

  /** One save: the file's policy takes the place of the group's policy of its name, or is added. */
  lemma SaveOne(t: Table, c: SyncCtx, f: PolicyFile, newId: Id, t': Table)
    requires UniqueIds(t)
    requires forall p :: p in t ==> p.id != newId
    requires t' == SaveStep(t, c, f, newId, false)
    ensures
      && UniqueIds(t')
      && (forall p :: p in t' ==> p.id == SaveId(t, c, f, newId, false) || p in t)
      && SameOutside(t, t', c)
      && GroupNames(t', c) == GroupNames(t, c) + {f.meta.name}
      && (UniqueGroupNames(t, c) ==> UniqueGroupNames(t', c))
      && KeepsIds(t, t', c, GroupNames(t, c))
  {
    var existing := FirstByName(t, f.meta.name, c);
    var id := SaveId(t, c, f, newId, false);
    var row := FromFile(c, id, f);
    SaveRowMembers(t, row);
    // the only policy the save can displace is `existing`
    assert forall q :: q in t && q.id == id ==> existing.Some? && q == existing.value by {
      forall q | q in t && q.id == id
        ensures existing.Some? && q == existing.value
      {
        var a :| 0 <= a < |t| && t[a] == q;
        var b :| 0 <= b < |t| && t[b] == existing.value;
        assert a == b;
      }
    }
    assert GroupNames(t', c) == GroupNames(t, c) + {f.meta.name} by {
      forall n | n in GroupNames(t, c) + {f.meta.name}
        ensures n in GroupNames(t', c)
      {
        if n != f.meta.name {
          var q :| q in t && InGroup(q, c) && q.name == n;
          assert q in t';
        } else {
          assert row in t';
        }
      }
    }
    forall q | q in t && InGroup(q, c) && q.name in GroupNames(t, c)
      ensures exists r :: r in t' && InGroup(r, c) && r.id == q.id && r.name == q.name
    {
      if q.id == id {
        assert row in t' && row.name == q.name;
      } else {
        assert q in t';
      }
    }
  }

  lemma SaveOneFresh(t: Table, c: SyncCtx, f: PolicyFile, newIds: seq<Id>, t': Table)
    requires UniqueIds(t) && FreshIds(t, newIds) && |newIds| > 0
    requires t' == SaveStep(t, c, f, newIds[0], false)
    ensures UniqueIds(t') && FreshIds(t', newIds[1..])
  {
    SaveOne(t, c, f, newIds[0], t');
    FreshAfterSave(t, t', SaveId(t, c, f, newIds[0], false), newIds);
  }

  lemma SaveOneOutside(t: Table, c: SyncCtx, f: PolicyFile, newId: Id, t': Table)
    requires UniqueIds(t) && (forall p :: p in t ==> p.id != newId)
    requires t' == SaveStep(t, c, f, newId, false)
    ensures SameOutside(t, t', c)
  {
    SaveOne(t, c, f, newId, t');
  }

  lemma SaveOneNames(t: Table, c: SyncCtx, f: PolicyFile, newId: Id, t': Table)
    requires UniqueIds(t) && (forall p :: p in t ==> p.id != newId)
    requires t' == SaveStep(t, c, f, newId, false)
    ensures GroupNames(t', c) == GroupNames(t, c) + {f.meta.name}
  {
    SaveOne(t, c, f, newId, t');
  }

  lemma SaveOneUniqueNames(t: Table, c: SyncCtx, f: PolicyFile, newId: Id, t': Table)
    requires UniqueIds(t) && (forall p :: p in t ==> p.id != newId)
    requires t' == SaveStep(t, c, f, newId, false)
    ensures UniqueGroupNames(t, c) ==> UniqueGroupNames(t', c)
  {
    SaveOne(t, c, f, newId, t');
  }

  lemma SaveOneKeepsIds(t: Table, c: SyncCtx, f: PolicyFile, newId: Id, t': Table)
    requires UniqueIds(t) && (forall p :: p in t ==> p.id != newId)
    requires t' == SaveStep(t, c, f, newId, false)
    ensures KeepsIds(t, t', c, GroupNames(t, c))
  {
    SaveOne(t, c, f, newId, t');
  }

  lemma SameOutsideTrans(t0: Table, t1: Table, t2: Table, c: SyncCtx)
    requires SameOutside(t0, t1, c) && SameOutside(t1, t2, c)
    ensures SameOutside(t0, t2, c)
  {
  }

  lemma KeepsIdsTrans(t0: Table, t1: Table, t2: Table, c: SyncCtx)
    requires KeepsIds(t0, t1, c, GroupNames(t0, c)) && KeepsIds(t1, t2, c, GroupNames(t1, c))
    ensures KeepsIds(t0, t2, c, GroupNames(t0, c))
  {
    forall q | q in t0 && InGroup(q, c) && q.name in GroupNames(t0, c)
      ensures exists r :: r in t2 && InGroup(r, c) && r.id == q.id && r.name == q.name
    {
      var r1 :| r1 in t1 && InGroup(r1, c) && r1.id == q.id && r1.name == q.name;
      assert r1.name in GroupNames(t1, c);
    }
  }

  lemma KeepsIdsRefl(t: Table, c: SyncCtx)
    ensures KeepsIds(t, t, c, GroupNames(t, c))
  {
    forall q | q in t && InGroup(q, c) && q.name in GroupNames(t, c)
      ensures exists r :: r in t && InGroup(r, c) && r.id == q.id && r.name == q.name
    {
      assert q in t;
    }
  }

  /** Once the first fresh id is spent (or an existing id reused), the remaining ones are still fresh. */
  lemma FreshAfterSave(t: Table, t1: Table, id: Id, newIds: seq<Id>)
    requires FreshIds(t, newIds) && |newIds| > 0
    requires id == newIds[0] || exists p :: p in t && p.id == id
    requires forall p :: p in t1 ==> p.id == id || p in t
    ensures FreshIds(t1, newIds[1..])
  {
    forall k, p | 0 <= k < |newIds[1..]| && p in t1
      ensures p.id != newIds[1..][k]
    {
      assert newIds[1..][k] == newIds[k + 1];
    }
  }

  /** Saving all files: the group gains exactly the files' names and nothing outside the group changes. */
  lemma {:induction false} SaveAllFacts(t: Table, c: SyncCtx, files: seq<PolicyFile>, newIds: seq<Id>, fails: set<Step>)
    requires |newIds| == |files|
    requires UniqueIds(t) && FreshIds(t, newIds)
    requires LookupPolicyByName !in fails && SavePolicy !in fails
    ensures SaveAll(t, c, files, newIds, fails).Success?
    ensures var t' := SaveAll(t, c, files, newIds, fails).value;
      && UniqueIds(t')
      && SameOutside(t, t', c)
      && GroupNames(t', c) == GroupNames(t, c) + FileNames(files)
      && (UniqueGroupNames(t, c) ==> UniqueGroupNames(t', c))
      && KeepsIds(t, t', c, GroupNames(t, c))
    decreases |files|
  {
    if |files| == 0 {
      KeepsIdsRefl(t, c);
    } else {
      var t1 := SaveStep(t, c, files[0], newIds[0], false);
      var rest, restIds := files[1..], newIds[1..];
      SaveOneFresh(t, c, files[0], newIds, t1);
      assert forall p :: p in t ==> p.id != newIds[0];
      assert SaveAll(t, c, files, newIds, fails) == SaveAll(t1, c, rest, restIds, fails);
      SaveAllFacts(t1, c, rest, restIds, fails);
      var t' := SaveAll(t1, c, rest, restIds, fails).value;
      StepOutside(t, c, files[0], newIds[0], t1, t');
      StepNames(t, c, files, newIds[0], t1, t');
      StepUniqueNames(t, c, files[0], newIds[0], t1, t');
      StepKeepsIds(t, c, files[0], newIds[0], t1, t');
    }
  }

  lemma StepOutside(t: Table, c: SyncCtx, f: PolicyFile, newId: Id, t1: Table, t': Table)
    requires UniqueIds(t) && (forall p :: p in t ==> p.id != newId)
    requires t1 == SaveStep(t, c, f, newId, false) && SameOutside(t1, t', c)
    ensures SameOutside(t, t', c)
  {
    SaveOneOutside(t, c, f, newId, t1);
    SameOutsideTrans(t, t1, t', c);
  }

  lemma StepNames(t: Table, c: SyncCtx, files: seq<PolicyFile>, newId: Id, t1: Table, t': Table)
    requires |files| > 0 && UniqueIds(t) && (forall p :: p in t ==> p.id != newId)
    requires t1 == SaveStep(t, c, files[0], newId, false)
    requires GroupNames(t', c) == GroupNames(t1, c) + FileNames(files[1..])
    ensures GroupNames(t', c) == GroupNames(t, c) + FileNames(files)
  {
    SaveOneNames(t, c, files[0], newId, t1);
    FileNamesCons(files);
  }

  lemma StepUniqueNames(t: Table, c: SyncCtx, f: PolicyFile, newId: Id, t1: Table, t': Table)
    requires UniqueIds(t) && (forall p :: p in t ==> p.id != newId)
    requires t1 == SaveStep(t, c, f, newId, false)
    requires UniqueGroupNames(t1, c) ==> UniqueGroupNames(t', c)
    ensures UniqueGroupNames(t, c) ==> UniqueGroupNames(t', c)
  {
    SaveOneUniqueNames(t, c, f, newId, t1);
  }

  lemma StepKeepsIds(t: Table, c: SyncCtx, f: PolicyFile, newId: Id, t1: Table, t': Table)
    requires UniqueIds(t) && (forall p :: p in t ==> p.id != newId)
    requires t1 == SaveStep(t, c, f, newId, false) && KeepsIds(t1, t', c, GroupNames(t1, c))
    ensures KeepsIds(t, t', c, GroupNames(t, c))
  {
    SaveOneKeepsIds(t, c, f, newId, t1);
    KeepsIdsTrans(t, t1, t', c);
  }

  /** The last of the files carrying this name: the file whose save of that name comes last. */
  function LastNamed(files: seq<PolicyFile>, name: string): (f: PolicyFile)
    requires name in FileNames(files)
    ensures f in files && f.meta.name == name
    ensures exists i :: 0 <= i < |files| && files[i] == f && forall j :: i < j < |files| ==> files[j].meta.name != name
    decreases |files|
  {
    FileNamesCons(files);
    if name in FileNames(files[1..]) then
      var f := LastNamed(files[1..], name);
      var i :| 0 <= i < |files[1..]| && files[1..][i] == f && forall j :: i < j < |files[1..]| ==> files[1..][j].meta.name != name;
      assert files[i + 1] == f;
      assert forall j :: i + 1 < j < |files| ==> files[j] == files[1..][j - 1];
      f
    else
      assert forall j :: 0 < j < |files| ==> files[j] in files[1..];
      files[0]
  }

  /** Each of the group's policies that a file names is that name's last file, saved under the policy's id. */
  predicate SavedAsFiled(t: Table, c: SyncCtx, files: seq<PolicyFile>) {
    forall p :: p in t && InGroup(p, c) && p.name in FileNames(files) ==> p == FromFile(c, p.id, LastNamed(files, p.name))
  }

  /** No policy named by no file is added or removed. */
  ghost predicate UntouchedUnnamed(t: Table, t': Table, files: seq<PolicyFile>) {
    forall p: Policy :: p.name !in FileNames(files) ==> (p in t <==> p in t')
  }

  /** One save touches only policies of the file's name, and stores the file's row. */
  lemma SaveOneOthers(t: Table, c: SyncCtx, f: PolicyFile, newId: Id, t': Table)
    requires UniqueIds(t) && (forall p :: p in t ==> p.id != newId)
    requires t' == SaveStep(t, c, f, newId, false)
    ensures forall p: Policy :: p.name != f.meta.name ==> (p in t <==> p in t')
    ensures FromFile(c, SaveId(t, c, f, newId, false), f) in t'
  {
    var existing := FirstByName(t, f.meta.name, c);
    var id := SaveId(t, c, f, newId, false);
    var row := FromFile(c, id, f);
    SaveRowMembers(t, row);
    forall q | q in t && q.id == id
      ensures q.name == f.meta.name
    {
      var a :| 0 <= a < |t| && t[a] == q;
      var b :| 0 <= b < |t| && t[b] == existing.value;
      assert a == b;
    }
  }

  /** One step of SaveAllContents: the first file's row, then the rest of the saves. */
  lemma ContentsStep(t: Table, t1: Table, t': Table, c: SyncCtx, files: seq<PolicyFile>, row: Policy)
    requires |files| > 0 && row == FromFile(c, row.id, files[0]) && row in t1
    requires UniqueGroupNames(t1, c)
    requires forall p: Policy :: p.name != files[0].meta.name ==> (p in t <==> p in t1)
    requires SavedAsFiled(t', c, files[1..]) && UntouchedUnnamed(t1, t', files[1..])
    ensures SavedAsFiled(t', c, files) && UntouchedUnnamed(t, t', files)
  {
    FileNamesCons(files);
    forall p | p in t' && InGroup(p, c) && p.name in FileNames(files)
      ensures p == FromFile(c, p.id, LastNamed(files, p.name))
    {
      if p.name !in FileNames(files[1..]) {
        assert p in t1;
      }
    }
  }

  /**
   * Saving all files, when the group's names are unique: every policy of the
   * group that a file names holds the last such file's contents, and policies
   * named by no file are left as they were.
   */
  lemma {:induction false} SaveAllContents(t: Table, c: SyncCtx, files: seq<PolicyFile>, newIds: seq<Id>, fails: set<Step>)
    requires |newIds| == |files|
    requires UniqueIds(t) && FreshIds(t, newIds) && UniqueGroupNames(t, c)
    requires LookupPolicyByName !in fails && SavePolicy !in fails
    ensures SaveAll(t, c, files, newIds, fails).Success?
    ensures var t' := SaveAll(t, c, files, newIds, fails).value;
      SavedAsFiled(t', c, files) && UntouchedUnnamed(t, t', files)
    decreases |files|
  {
    SaveAllFacts(t, c, files, newIds, fails);
    if |files| > 0 {
      var t1 := SaveStep(t, c, files[0], newIds[0], false);
      var rest, restIds := files[1..], newIds[1..];
      SaveOneFresh(t, c, files[0], newIds, t1);
      assert forall p :: p in t ==> p.id != newIds[0];
      SaveOneUniqueNames(t, c, files[0], newIds[0], t1);
      SaveOneOthers(t, c, files[0], newIds[0], t1);
      assert SaveAll(t, c, files, newIds, fails) == SaveAll(t1, c, rest, restIds, fails);
      SaveAllContents(t1, c, rest, restIds, fails);
      ContentsStep(t, t1, SaveAll(t1, c, rest, restIds, fails).value, c, files,
                   FromFile(c, SaveId(t, c, files[0], newIds[0], false), files[0]));
    }
  }

  /** Deleting the group's stale policies, with unique ids, removes exactly the group's policies named by no file. */
  lemma DeleteStaleFacts(t: Table, c: SyncCtx, names: set<string>, newIds: seq<Id>, fails: set<Step>)
    requires UniqueIds(t) && FreshIds(t, newIds)
    requires DeletePolicy !in fails
    ensures DeleteStale(t, GroupRows(t, c), names, fails).Success?
    ensures var t1 := DeleteStale(t, GroupRows(t, c), names, fails).value;
      && (forall p :: p in t1 <==> p in t && (InGroup(p, c) ==> p.name in names))
      && UniqueIds(t1) && FreshIds(t1, newIds)
  {
    var ops := GroupRows(t, c);
    forall p | p in t
      ensures (exists o :: o in ops && o.id == p.id && o.name !in names) <==> InGroup(p, c) && p.name !in names
    {
      if o :| o in ops && o.id == p.id && o.name !in names {
        var a :| 0 <= a < |t| && t[a] == p;
        var b :| 0 <= b < |t| && t[b] == o;
        assert a == b;
      }
    }
  }

  /** Keeping exactly the group's policies with a listed name leaves the rest alone. */
  lemma PruneOutside(t: Table, t1: Table, c: SyncCtx, names: set<string>)
    requires forall p :: p in t1 <==> p in t && (InGroup(p, c) ==> p.name in names)
    ensures SameOutside(t, t1, c)
    ensures UniqueGroupNames(t, c) ==> UniqueGroupNames(t1, c)
  {
  }

  lemma PruneNames(t: Table, t1: Table, c: SyncCtx, names: set<string>)
    requires forall p :: p in t1 <==> p in t && (InGroup(p, c) ==> p.name in names)
    ensures GroupNames(t1, c) == GroupNames(t, c) * names
  {
    forall n | n in GroupNames(t, c) * names
      ensures n in GroupNames(t1, c)
    {
      var q :| q in t && InGroup(q, c) && q.name == n;
      assert q in t1;
    }
  }

  lemma PruneKeepsIds(t: Table, t1: Table, t2: Table, c: SyncCtx, names: set<string>)
    requires forall p :: p in t1 <==> p in t && (InGroup(p, c) ==> p.name in names)
    requires KeepsIds(t1, t2, c, GroupNames(t1, c))
    ensures KeepsIds(t, t2, c, names)
  {
    forall q | q in t && InGroup(q, c) && q.name in names
      ensures exists r :: r in t2 && InGroup(r, c) && r.id == q.id && r.name == q.name
    {
      assert q in t1;
      assert q.name in GroupNames(t1, c);
    }
  }

  /** The delete stage of a fault-free synchronisation, and the save stage that follows it. */
  lemma UpsertStages(t: Table, c: SyncCtx, files: seq<PolicyFile>, newIds: seq<Id>, fails: set<Step>) returns (t1: Table)
    requires |newIds| == |files|
    requires UniqueIds(t) && FreshIds(t, newIds)
    requires ListGroupPolicies !in fails && LookupPolicyByName !in fails && DeletePolicy !in fails && SavePolicy !in fails
    ensures forall p :: p in t1 <==> p in t && (InGroup(p, c) ==> p.name in FileNames(files))
    ensures UniqueIds(t1) && FreshIds(t1, newIds)
    ensures PoliciesUpsert(t, c, files, newIds, fails) == SaveAll(t1, c, files, newIds, fails)
  {
    DeleteStaleFacts(t, c, FileNames(files), newIds, fails);
    t1 := DeleteStale(t, GroupRows(t, c), FileNames(files), fails).value;
  }

  lemma UpsertGroupNames(t: Table, c: SyncCtx, files: seq<PolicyFile>, newIds: seq<Id>, fails: set<Step>)
    requires |newIds| == |files|
    requires UniqueIds(t) && FreshIds(t, newIds)
    requires ListGroupPolicies !in fails && LookupPolicyByName !in fails && DeletePolicy !in fails && SavePolicy !in fails
    ensures PoliciesUpsert(t, c, files, newIds, fails).Success?
    ensures GroupNames(PoliciesUpsert(t, c, files, newIds, fails).value, c) == FileNames(files)
    ensures UniqueIds(PoliciesUpsert(t, c, files, newIds, fails).value)
  {
    var t1 := UpsertStages(t, c, files, newIds, fails);
    SaveAllFacts(t1, c, files, newIds, fails);
    PruneNames(t, t1, c, FileNames(files));
    Absorb(GroupNames(t, c), FileNames(files), GroupNames(t1, c),
           GroupNames(SaveAll(t1, c, files, newIds, fails).value, c));
  }

  lemma Absorb(a: set<string>, b: set<string>, pruned: set<string>, saved: set<string>)
    requires pruned == a * b && saved == pruned + b
    ensures saved == b
  {
  }

  lemma UpsertOutside(t: Table, c: SyncCtx, files: seq<PolicyFile>, newIds: seq<Id>, fails: set<Step>)
    requires |newIds| == |files|
    requires UniqueIds(t) && FreshIds(t, newIds)
    requires ListGroupPolicies !in fails && LookupPolicyByName !in fails && DeletePolicy !in fails && SavePolicy !in fails
    ensures PoliciesUpsert(t, c, files, newIds, fails).Success?
    ensures SameOutside(t, PoliciesUpsert(t, c, files, newIds, fails).value, c)
    ensures UniqueGroupNames(t, c) ==> UniqueGroupNames(PoliciesUpsert(t, c, files, newIds, fails).value, c)
  {
    var t1 := UpsertStages(t, c, files, newIds, fails);
    SaveAllFacts(t1, c, files, newIds, fails);
    PruneOutside(t, t1, c, FileNames(files));
    SameOutsideTrans(t, t1, SaveAll(t1, c, files, newIds, fails).value, c);
  }

  lemma UpsertKeepsIds(t: Table, c: SyncCtx, files: seq<PolicyFile>, newIds: seq<Id>, fails: set<Step>)
    requires |newIds| == |files|
    requires UniqueIds(t) && FreshIds(t, newIds)
    requires ListGroupPolicies !in fails && LookupPolicyByName !in fails && DeletePolicy !in fails && SavePolicy !in fails
    ensures PoliciesUpsert(t, c, files, newIds, fails).Success?
    ensures KeepsIds(t, PoliciesUpsert(t, c, files, newIds, fails).value, c, FileNames(files))
  {
    var t1 := UpsertStages(t, c, files, newIds, fails);
    SaveAllFacts(t1, c, files, newIds, fails);
    PruneKeepsIds(t, t1, SaveAll(t1, c, files, newIds, fails).value, c, FileNames(files));
  }

  /** With unique group names, the synchronised group holds each file name's last file. */
  lemma UpsertContents(t: Table, c: SyncCtx, files: seq<PolicyFile>, newIds: seq<Id>, fails: set<Step>)
    requires |newIds| == |files|
    requires UniqueIds(t) && FreshIds(t, newIds) && UniqueGroupNames(t, c)
    requires ListGroupPolicies !in fails && LookupPolicyByName !in fails && DeletePolicy !in fails && SavePolicy !in fails
    ensures PoliciesUpsert(t, c, files, newIds, fails).Success?
    ensures SavedAsFiled(PoliciesUpsert(t, c, files, newIds, fails).value, c, files)
  {
    var t1 := UpsertStages(t, c, files, newIds, fails);
    PruneOutside(t, t1, c, FileNames(files));
    SaveAllContents(t1, c, files, newIds, fails);
  }

  /**
   * A fault-free synchronisation: afterwards the group's policy names are
   * exactly the files' names, policies outside the group are untouched, ids
   * stay unique, a group whose names were unique keeps them unique, a
   * policy whose name a file still carries keeps its id, and, when the
   * group's names were unique, each of its policies holds the contents of the
   * last file of its name.
   */
  lemma UpsertSyncsGroup(t: Table, c: SyncCtx, files: seq<PolicyFile>, newIds: seq<Id>, fails: set<Step>)
    requires |newIds| == |files|
    requires UniqueIds(t) && FreshIds(t, newIds)
    requires ListGroupPolicies !in fails && LookupPolicyByName !in fails && DeletePolicy !in fails && SavePolicy !in fails
    ensures PoliciesUpsert(t, c, files, newIds, fails).Success?
    ensures var t' := PoliciesUpsert(t, c, files, newIds, fails).value;
      && GroupNames(t', c) == FileNames(files)
      && SameOutside(t, t', c)
      && UniqueIds(t')
      && (UniqueGroupNames(t, c) ==> UniqueGroupNames(t', c))
      && KeepsIds(t, t', c, FileNames(files))
      && (UniqueGroupNames(t, c) ==> SavedAsFiled(t', c, files))
  {
    UpsertGroupNames(t, c, files, newIds, fails);
    UpsertOutside(t, c, files, newIds, fails);
    UpsertKeepsIds(t, c, files, newIds, fails);
    if UniqueGroupNames(t, c) {
      UpsertContents(t, c, files, newIds, fails);
    }
  }
}

=== FILE: report.dfy ===
/**
 * The counting part of the policy scan report: one zero-initialised bucket per
 * day of the requested range, per-day totals of non-pending results, pie
 * totals per status, and the per-day pass rate.
 */
module Report {
  import opened Wrappers
  import opened Common

  /** Length of the day step between two time points, in seconds. */
  const Day := 86400

  /**
   * The day labels from `from` to `to` inclusive, one per day step; `dayOf`
   * renders an instant as its "MM-DD" day.
   */
  function TimePoints(from: int, to: int, dayOf: int -> string): (points: seq<string>)
    ensures from > to ==> points == []
    ensures from <= to ==> (|points| - 1) * Day <= to - from < |points| * Day
    ensures forall k :: 0 <= k < |points| ==> points[k] == dayOf(from + k * Day)
    decreases if from > to then 0 else to - from + 1
  {
    if from > to then []
    else
      var rest := TimePoints(from + Day, to, dayOf);
      assert |rest| > 0 ==> (|rest| - 1) * Day <= to - from - Day < |rest| * Day;
      assert (|rest| + 1 - 1) * Day == |rest| * Day;
      assert (|rest| + 1) * Day == |rest| * Day + Day;
      [dayOf(from)] + rest
  }

  /** One row of the per-day status query: a timestamp string, a status and a count. */
  datatype StatusRow = StatusRow(date: string, status: string, count: nat)

  /** A row's day: characters 5 to 10 of its timestamp, "2021-08-08T..." giving "08-08". */
  function DayOf(row: StatusRow): string
    requires |row.date| >= 10
  {
    row.date[5..10]
  }

  /** All timestamps are long enough to cut the day out of. */
  predicate Dated(rows: seq<StatusRow>) {
    forall k :: 0 <= k < |rows| ==> |rows[k].date| >= 10
  }

  /** The position of the first column equal to `d`. */
  function FirstIndex(cols: seq<string>, d: string): (r: Option<nat>)
    ensures r.None? <==> d !in cols
    ensures r.Some? ==> r.value < |cols| && cols[r.value] == d
    ensures r.Some? ==> forall j :: 0 <= j < r.value ==> cols[j] != d
  {
    if |cols| == 0 then None
    else if cols[0] == d then Some(0)
    else match FirstIndex(cols[1..], d)
      case None => None
      case Some(i) => Some(i + 1)
  }

  /**
   * The report under construction: per-day totals, per-day pass rates (the
   * source's floating-point values, as reals) and the pie totals.
   */
  datatype Tallies = Tallies(values: seq<int>, rates: seq<real>, pie: Summary)

  /** One zero bucket and one zero rate per column, and an empty pie. */
  function InitTallies(cols: seq<string>): (t: Tallies)
    ensures |t.values| == |cols| && |t.rates| == |cols|
    ensures forall j :: 0 <= j < |cols| ==> t.values[j] == 0 && t.rates[j] == 0.0
    ensures t.pie == EmptySummary
  {
    Tallies(seq(|cols|, _ => 0), seq(|cols|, _ => 0.0), EmptySummary)
  }

  /** The loop that follows each row: every rate is divided by its day's total so far. */
  function Redivide(rates: seq<real>, values: seq<int>): (r: seq<real>)
    requires |rates| == |values|
    ensures |r| == |rates|
  {
    seq(|rates|, j requires 0 <= j < |rates| => if values[j] == 0 then 0.0 else rates[j] / (values[j] as real))
  }

  /**
   * One row of the report loop, as written: the row's day must be a column;
   * a non-pending row adds its count to the day's total; a passed row sets
   * the day's rate to its count; then every rate is re-divided; then the
   * pie total of the row's status grows.
   */
  function ApplyRow(cols: seq<string>, t: Tallies, row: StatusRow): Result<Tallies, Error>
    requires |t.values| == |cols| && |t.rates| == |cols|
    requires |row.date| >= 10
  {
    match FirstIndex(cols, DayOf(row))
    case None => Failure(Error(InternalError, None))
    case Some(idx) =>
      var values := if row.status != PolicyStatusPending then t.values[idx := t.values[idx] + row.count] else t.values;
      var rates := if row.status == PolicyStatusPassed then t.rates[idx := row.count as real] else t.rates;
      Success(Tallies(values, Redivide(rates, values), AddToSummary(t.pie, row.status, row.count)))
  }

  /** The report loop over the query's rows, stopping at the first row whose day is no column. */
  function FoldRows(cols: seq<string>, t: Tallies, rows: seq<StatusRow>): (r: Result<Tallies, Error>)
    requires |t.values| == |cols| && |t.rates| == |cols|
    requires Dated(rows)
    ensures r.Success? ==> |r.value.values| == |cols| && |r.value.rates| == |cols|
    ensures r.Failure? ==> r.error == Error(InternalError, None)
    decreases |rows|
  {
    if |rows| == 0 then Success(t)
    else
      var t' :- ApplyRow(cols, t, rows[0]);
      FoldRows(cols, t', rows[1..])
  }

  /** The count one row contributes to column `j`'s total: its count if it is non-pending and its day first matches `j`. */
  function RowShare(cols: seq<string>, row: StatusRow, j: int): int
    requires |row.date| >= 10
  {
    if row.status != PolicyStatusPending && FirstIndex(cols, DayOf(row)) == Some(j) then row.count else 0
  }

  /** Reference: the sum of the counts of the non-pending rows whose day first matches column `j`. */
  function BucketTotal(cols: seq<string>, rows: seq<StatusRow>, j: int): int
    requires Dated(rows)
  {
    if |rows| == 0 then 0 else RowShare(cols, rows[0], j) + BucketTotal(cols, rows[1..], j)
  }

  /** Reference: the sum of the counts of the passed rows whose day first matches column `j`. */
  function BucketPassed(cols: seq<string>, rows: seq<StatusRow>, j: int): int
    requires Dated(rows)
  {
    if |rows| == 0 then 0
    else (if rows[0].status == PolicyStatusPassed && FirstIndex(cols, DayOf(rows[0])) == Some(j) then rows[0].count else 0)
         + BucketPassed(cols, rows[1..], j)
  }

  /** Reference: the sum of the counts of the rows of one status. */
  function StatusTotal(rows: seq<StatusRow>, status: string): nat
  {
    if |rows| == 0 then 0
    else (if rows[0].status == status then rows[0].count else 0) + StatusTotal(rows[1..], status)
  }

  function PieOf(rows: seq<StatusRow>): Summary {
    Summary(StatusTotal(rows, PolicyStatusPassed), StatusTotal(rows, PolicyStatusViolated),
            StatusTotal(rows, PolicyStatusSuppressed), StatusTotal(rows, PolicyStatusFailed))
  }

  function PlusSummary(a: Summary, b: Summary): Summary {
    Summary(a.passed + b.passed, a.violated + b.violated, a.suppressed + b.suppressed, a.failed + b.failed)
  }

  /** Every row's day is one of the columns. */
  predicate AllInRange(cols: seq<string>, rows: seq<StatusRow>)
    requires Dated(rows)
  {
    forall k :: 0 <= k < |rows| ==> DayOf(rows[k]) in cols
  }

  /** One row: it is accepted exactly when its day is a column, and then adds its share to each total and its count to the pie. */
  lemma ApplyRowEffect(cols: seq<string>, t: Tallies, row: StatusRow)
    requires |t.values| == |cols| && |t.rates| == |cols|
    requires |row.date| >= 10
    ensures ApplyRow(cols, t, row).Success? <==> DayOf(row) in cols
    ensures ApplyRow(cols, t, row).Success? ==>
      && |ApplyRow(cols, t, row).value.values| == |cols|
      && |ApplyRow(cols, t, row).value.rates| == |cols|
      && (forall j :: 0 <= j < |cols| ==> ApplyRow(cols, t, row).value.values[j] == t.values[j] + RowShare(cols, row, j))
      && ApplyRow(cols, t, row).value.pie == AddToSummary(t.pie, row.status, row.count)
  {
  }

  lemma PieCons(p: Summary, rows: seq<StatusRow>)
    requires |rows| > 0
    ensures PlusSummary(AddToSummary(p, rows[0].status, rows[0].count), PieOf(rows[1..])) == PlusSummary(p, PieOf(rows))
  {
  }

  lemma AllInRangeCons(cols: seq<string>, rows: seq<StatusRow>)
    requires Dated(rows) && |rows| > 0
    ensures Dated(rows[1..])
    ensures AllInRange(cols, rows) <==> DayOf(rows[0]) in cols && AllInRange(cols, rows[1..])
  {
    var rest := rows[1..];
    assert forall k :: 0 <= k < |rest| ==> rest[k] == rows[k + 1];
    if DayOf(rows[0]) in cols && AllInRange(cols, rest) {
      forall k | 0 <= k < |rows|
        ensures DayOf(rows[k]) in cols
      {
        if k > 0 {
          assert rows[k] == rest[k - 1];
        }
      }
    }
  }

  /** The report loop fails exactly when some row's day is no column. */
  lemma {:induction false} FoldRowsSucceeds(cols: seq<string>, t: Tallies, rows: seq<StatusRow>)
    requires |t.values| == |cols| && |t.rates| == |cols|
    requires Dated(rows)
    ensures FoldRows(cols, t, rows).Success? <==> AllInRange(cols, rows)
    decreases |rows|
  {
    if |rows| > 0 {
      AllInRangeCons(cols, rows);
      ApplyRowEffect(cols, t, rows[0]);
      var a := ApplyRow(cols, t, rows[0]);
      if a.Success? {
        FoldRowsSucceeds(cols, a.value, rows[1..]);
      }
    }
  }

  /**
   * When the report loop succeeds, each day's total has grown by that day's
   * non-pending counts and the pie by each status's counts.
   */
  lemma {:induction false} FoldRowsTotals(cols: seq<string>, t: Tallies, rows: seq<StatusRow>)
    requires |t.values| == |cols| && |t.rates| == |cols|
    requires Dated(rows)
    requires FoldRows(cols, t, rows).Success?
    ensures forall j :: 0 <= j < |cols| ==> FoldRows(cols, t, rows).value.values[j] == t.values[j] + BucketTotal(cols, rows, j)
    ensures FoldRows(cols, t, rows).value.pie == PlusSummary(t.pie, PieOf(rows))
    decreases |rows|
  {
    if |rows| > 0 {
      assert Dated(rows[1..]);
      ApplyRowEffect(cols, t, rows[0]);
      var t' := ApplyRow(cols, t, rows[0]).value;
      assert FoldRows(cols, t, rows) == FoldRows(cols, t', rows[1..]);
      FoldRowsTotals(cols, t', rows[1..]);
      PieCons(t.pie, rows);
    }
  }

  /** The report's integer part and its corrected pass-rate series. */
  datatype ScanReport = ScanReport(columns: seq<string>, values: seq<int>, rates: seq<real>, total: Summary)

  /**
   * The evidently intended pass rate of each day: the day's passed count over
   * its final total, and zero for a day without results.
   */
  function PassRates(totals: seq<int>, passed: seq<int>): (r: seq<real>)
    requires |totals| == |passed|
    requires forall j :: 0 <= j < |totals| ==> 0 <= passed[j] <= totals[j]
    ensures |r| == |totals|
    ensures forall j :: 0 <= j < |r| ==> r[j] == Fraction(passed[j], totals[j])
  {
    seq(|totals|, j requires 0 <= j < |totals| => Fraction(passed[j], totals[j]))
  }

  /** The share `p` of `t` as a real in [0, 1]; zero when `t` is zero. */
  function Fraction(p: int, t: int): (r: real)
    requires 0 <= p <= t
    ensures 0.0 <= r <= 1.0
    ensures t == 0 ==> r == 0.0
    ensures t != 0 ==> r * (t as real) == p as real
  {
    if t == 0 then 0.0 else RatioInUnit(p, t)
  }

  /** p / t for 0 <= p <= t and t > 0, which lies in [0, 1]. */
  function RatioInUnit(p: int, t: int): (r: real)
    requires 0 <= p <= t && t > 0
    ensures 0.0 <= r <= 1.0
    ensures r * (t as real) == p as real
  {
    var q := (p as real) / (t as real);
    assert q * (t as real) == p as real;
    assert q <= 1.0 by {
      if q > 1.0 {
        assert q * (t as real) > 1.0 * (t as real);
      }
    }
    q
  }

  /** Passed rows are non-pending, so a day's passed count never exceeds its total. */
  lemma {:induction false} PassedWithinTotal(cols: seq<string>, rows: seq<StatusRow>, j: int)
    requires Dated(rows)
    ensures 0 <= BucketPassed(cols, rows, j) <= BucketTotal(cols, rows, j)
    decreases |rows|
  {
    if |rows| > 0 {
      assert Dated(rows[1..]);
      PassedWithinTotal(cols, rows[1..], j);
    }
  }

  /**
   * PolicyScanReport's counting part: the columns are the days of the range;
   * the request fails with InternalError exactly when some row's day is outside
   * them; each day's value is the sum of its non-pending counts (zero for a day
   * without rows); the pie holds each status's total; and the pass rate of a
   * day is its passed count over its final total.
   */
  function PolicyScanReport(from: int, to: int, dayOf: int -> string, rows: seq<StatusRow>): (r: Result<ScanReport, Error>)
    requires Dated(rows)
    ensures r.Success? <==> AllInRange(TimePoints(from, to, dayOf), rows)
    ensures r.Failure? ==> r.error == Error(InternalError, None)
    ensures r.Success? ==> r.value.columns == TimePoints(from, to, dayOf) && Reports(r.value, rows)
  {
    var cols := TimePoints(from, to, dayOf);
    if !AllInRange(cols, rows) then Failure(Error(InternalError, None))
    else Success(ReportOver(cols, rows))
  }

  /**
   * `rep` is the report of `rows` over its columns: each day's value is the
   * sum of its non-pending counts (zero for a day without rows); the pie holds
   * each status's total; and each day's pass rate is its passed count
   * (never more than its total) over its final total.
   */
  ghost predicate Reports(rep: ScanReport, rows: seq<StatusRow>)
    requires Dated(rows)
  {
    var cols := rep.columns;
    && |rep.values| == |cols| == |rep.rates|
    && (forall j :: 0 <= j < |cols| ==> rep.values[j] == BucketTotal(cols, rows, j))
    && rep.total == PieOf(rows)
    && (forall j :: 0 <= j < |cols| ==> 0 <= BucketPassed(cols, rows, j) <= rep.values[j])
    && (forall j :: 0 <= j < |cols| ==> rep.rates[j] == Fraction(BucketPassed(cols, rows, j), rep.values[j]))
  }

  /** The report over given columns, when every row's day is one of them. */
  function ReportOver(cols: seq<string>, rows: seq<StatusRow>): (rep: ScanReport)
    requires Dated(rows) && AllInRange(cols, rows)
    ensures rep.columns == cols
    ensures Reports(rep, rows)
  {
    var totals := Totals(cols, rows);
    var passed := PassedCounts(cols, rows, totals);
    var rates := PassRates(totals, passed);
    ScanReport(cols, totals, rates, PieOf(rows))
  }

  /** Each day's total of non-pending counts. */
  function Totals(cols: seq<string>, rows: seq<StatusRow>): (v: seq<int>)
    requires Dated(rows)
    ensures |v| == |cols|
    ensures forall j :: 0 <= j < |cols| ==> v[j] == BucketTotal(cols, rows, j)
  {
    seq(|cols|, j requires 0 <= j < |cols| => BucketTotal(cols, rows, j))
  }

  /**
   * The source's report loop computes the reference totals: when every row's
   * day is a column it succeeds, with each day's total and the pie as Totals
   * and PieOf give them (the corrected report uses both unchanged).
   */
  lemma ReportMatchesLoop(cols: seq<string>, rows: seq<StatusRow>)
    requires Dated(rows) && AllInRange(cols, rows)
    ensures FoldRows(cols, InitTallies(cols), rows).Success?
    ensures FoldRows(cols, InitTallies(cols), rows).value.values == Totals(cols, rows)
    ensures FoldRows(cols, InitTallies(cols), rows).value.pie == PieOf(rows)
  {
    var init := InitTallies(cols);
    FoldRowsSucceeds(cols, init, rows);
    FoldRowsTotals(cols, init, rows);
    ZeroStartTotals(cols, rows, FoldRows(cols, init, rows).value.values);
    assert PlusSummary(EmptySummary, PieOf(rows)) == PieOf(rows);
  }

  /** Totals accumulated from zero are the day totals. */
  lemma ZeroStartTotals(cols: seq<string>, rows: seq<StatusRow>, values: seq<int>)
    requires Dated(rows) && |values| == |cols|
    requires forall j :: 0 <= j < |cols| ==> values[j] == InitTallies(cols).values[j] + BucketTotal(cols, rows, j)
    ensures values == Totals(cols, rows)
  {
    var v := Totals(cols, rows);
    forall j | 0 <= j < |cols|
      ensures values[j] == v[j]
    {
      assert InitTallies(cols).values[j] == 0;
    }
  }

  /** Each day's passed count, bounded by the day's total. */
  function PassedCounts(cols: seq<string>, rows: seq<StatusRow>, totals: seq<int>): (p: seq<int>)
    requires Dated(rows) && |totals| == |cols|
    requires forall j :: 0 <= j < |cols| ==> totals[j] == BucketTotal(cols, rows, j)
    ensures |p| == |cols|
    ensures forall j :: 0 <= j < |cols| ==> p[j] == BucketPassed(cols, rows, j) && 0 <= p[j] <= totals[j]
  {
    var p := seq(|cols|, j requires 0 <= j < |cols| => BucketPassed(cols, rows, j));
    assert forall j :: 0 <= j < |cols| ==> 0 <= p[j] <= totals[j] by {
      forall j | 0 <= j < |cols|
        ensures 0 <= p[j] <= totals[j]
      {
        PassedWithinTotal(cols, rows, j);
      }
    }
    p
  }

  /** A timestamp written as a five-character year prefix, a five-character day and a suffix has that day. */
  lemma DayOfTimestamp(year: string, day: string, rest: string, status: string, count: nat)
    requires |year| == 5 && |day| == 5
    ensures DayOf(StatusRow(year + day + rest, status, count)) == day
  {
    var d := year + day + rest;
    assert d[5..10] == day by {
      forall k | 0 <= k < 5
        ensures d[5..10][k] == day[k]
      {
        assert d[5 + k] == (year + day)[5 + k];
      }
    }
  }

  /** The pass rates exactly as the source's report loop leaves them. */
  function PassRatesAsWritten(cols: seq<string>, rows: seq<StatusRow>): Option<seq<real>>
    requires Dated(rows)
  {
    match FoldRows(cols, InitTallies(cols), rows)
    case Success(t) => Some(t.rates)
    case Failure(_) => None
  }

  /** Two passed rows on consecutive days of August 2021, counts 2 and 1. */
  function TwoPassedDays(): seq<StatusRow> {
    [StatusRow("2021-" + "08-01" + "T00:00:00+08:00", PolicyStatusPassed, 2),
     StatusRow("2021-" + "08-02" + "T00:00:00+08:00", PolicyStatusPassed, 1)]
  }

  /**
   * Two days, each with one passed row and nothing else: both days pass
   * fully, yet the loop as written re-divides the first day's finished rate
   * by its total again when the second row arrives and reports 0.5 for it.
   */
  lemma PassRateRedividedAsWritten()
    ensures PassRatesAsWritten(["08-01", "08-02"], TwoPassedDays()) == Some([0.5, 1.0])
  {
    var cols := ["08-01", "08-02"];
    var rows := TwoPassedDays();
    var r1, r2 := rows[0], rows[1];
    DayOfTimestamp("2021-", "08-01", "T00:00:00+08:00", PolicyStatusPassed, 2);
    DayOfTimestamp("2021-", "08-02", "T00:00:00+08:00", PolicyStatusPassed, 1);
    assert FirstIndex(cols, "08-01") == Some(0);
    assert FirstIndex(cols, "08-02") == Some(1);
    var t0 := InitTallies(cols);
    var t1 := ApplyRow(cols, t0, r1).value;
    assert t1.values == [2, 0];
    assert t1.rates == [1.0, 0.0];
    var t2 := ApplyRow(cols, t1, r2).value;
    assert t2.values == [2, 1];
    assert t2.rates == [0.5, 1.0];
    assert rows[1..] == [r2];
  }

  /** For the same two days the corrected report gives both days a pass rate of 1. */
  lemma PassRateCorrected(dayOf: int -> string)
    requires dayOf(0) == "08-01" && dayOf(Day) == "08-02"
    ensures var r := PolicyScanReport(0, Day, dayOf, TwoPassedDays());
      r.Success? && r.value.rates == [1.0, 1.0]
  {
    var rows := TwoPassedDays();
    DayOfTimestamp("2021-", "08-01", "T00:00:00+08:00", PolicyStatusPassed, 2);
    DayOfTimestamp("2021-", "08-02", "T00:00:00+08:00", PolicyStatusPassed, 1);
    var cols := TimePoints(0, Day, dayOf);
    assert TimePoints(2 * Day, Day, dayOf) == [];
    assert cols == ["08-01", "08-02"];
    assert AllInRange(cols, rows);
    var r := PolicyScanReport(0, Day, dayOf, rows);
    TwoPassedBuckets(cols);
    assert r.value.rates[0] == Fraction(2, 2) && r.value.rates[1] == Fraction(1, 1);
  }

  /** The day totals and passed counts of the two-day example. */
  lemma TwoPassedBuckets(cols: seq<string>)
    requires cols == ["08-01", "08-02"]
    ensures BucketTotal(cols, TwoPassedDays(), 0) == 2 && BucketPassed(cols, TwoPassedDays(), 0) == 2
    ensures BucketTotal(cols, TwoPassedDays(), 1) == 1 && BucketPassed(cols, TwoPassedDays(), 1) == 1
  {
    var rows := TwoPassedDays();
    DayOfTimestamp("2021-", "08-01", "T00:00:00+08:00", PolicyStatusPassed, 2);
    DayOfTimestamp("2021-", "08-02", "T00:00:00+08:00", PolicyStatusPassed, 1);
    assert FirstIndex(cols, "08-01") == Some(0);
    assert FirstIndex(cols, "08-02") == Some(1);
    assert rows[1..][1..] == [];
    assert rows[1..][0] == rows[1];
    assert DayOf(rows[0]) == "08-01" && DayOf(rows[1]) == "08-02";
    assert rows[0].status == PolicyStatusPassed && rows[1].status == PolicyStatusPassed;
    assert RowShare(cols, rows[0], 0) == 2 && RowShare(cols, rows[1], 0) == 0;
    assert RowShare(cols, rows[0], 1) == 0 && RowShare(cols, rows[1], 1) == 1;
    var tail := rows[1..][1..];
    assert BucketTotal(cols, tail, 0) == 0 && BucketPassed(cols, tail, 0) == 0;
    assert BucketTotal(cols, tail, 1) == 0 && BucketPassed(cols, tail, 1) == 0;
    assert BucketTotal(cols, rows[1..], 0) == 0 && BucketPassed(cols, rows[1..], 0) == 0;
    assert BucketTotal(cols, rows[1..], 1) == 1 && BucketPassed(cols, rows[1..], 1) == 1;
  }

  /** A day no row falls on is filled with a zero total. */
  lemma {:induction false} EmptyDayIsZero(cols: seq<string>, rows: seq<StatusRow>, j: int)
    requires Dated(rows) && 0 <= j < |cols|
    requires forall k :: 0 <= k < |rows| ==> DayOf(rows[k]) != cols[j]
    ensures BucketTotal(cols, rows, j) == 0 && BucketPassed(cols, rows, j) == 0
    decreases |rows|
  {
    if |rows| > 0 {
      assert Dated(rows[1..]);
      assert forall k :: 0 <= k < |rows[1..]| ==> rows[1..][k] == rows[k + 1];
      EmptyDayIsZero(cols, rows[1..], j);
    }
  }

  /** In a successful report, a day no row falls on shows a zero total and a zero pass rate. */
  lemma EmptyDayReportsZero(from: int, to: int, dayOf: int -> string, rows: seq<StatusRow>, j: int)
    requires Dated(rows)
    requires PolicyScanReport(from, to, dayOf, rows).Success?
    requires 0 <= j < |TimePoints(from, to, dayOf)|
    requires forall k :: 0 <= k < |rows| ==> DayOf(rows[k]) != TimePoints(from, to, dayOf)[j]
    ensures PolicyScanReport(from, to, dayOf, rows).value.values[j] == 0
    ensures PolicyScanReport(from, to, dayOf, rows).value.rates[j] == 0.0
  {
    EmptyDayIsZero(TimePoints(from, to, dayOf), rows, j);
  }
}

=== FILE: rule_test.dfy ===
/**
 * Trying a rule against a sample input: the input must be JSON, the rule and
 * the input are written to a scratch directory, the rule engine evaluates
 * them, and the outcome is classified as passed, violated or failed.
 */
module RuleTest {
  import opened Wrappers
  import opened Common

  /** Scratch-directory operations that can fail. */
  datatype FsStep = MakeTmpDir | WriteRule | WriteInput

  /**
   * The reply. `data` is the engine's output, None standing for the empty
   * object sent when there is none; `status` is "" when no evaluation happened.
   */
  datatype TestReply<D> = TestReply(data: Option<D>, error: string, status: string)

  /**
   * PolicyTest. `decoded` is the result of parsing the input as JSON (its
   * error message on failure); `evaluated` is the rule engine's output or its
   * error message; `violations` counts the resources that output flags.
   * An input that is not JSON and an engine error are replies, not errors;
   * only the scratch directory's failures are errors.
   */
  function PolicyTest<D>(decoded: Result<(), string>, fsFails: set<FsStep>,
                         evaluated: Result<D, string>, violations: D -> nat): (r: Result<TestReply<D>, Error>)
    ensures decoded.Failure? ==>
      r == Success(TestReply(None, "invalid input " + decoded.error, ""))
    ensures decoded.Success? ==> (r.Failure? <==> fsFails != {})
    ensures r.Failure? ==> r.error == Err(InternalError, StatusInternalServerError)
    ensures decoded.Success? && fsFails == {} && evaluated.Failure? ==>
      r == Success(TestReply(None, evaluated.error, PolicyStatusFailed))
    ensures r.Success? && evaluated.Success? && decoded.Success? ==>
      && r.value.data == Some(evaluated.value)
      && r.value.error == ""
      && (r.value.status == PolicyStatusViolated <==> violations(evaluated.value) > 0)
      && (r.value.status == PolicyStatusPassed <==> violations(evaluated.value) == 0)
  {
    if decoded.Failure? then Success(TestReply(None, "invalid input " + decoded.error, ""))
    else if fsFails != {} then
      Failure(Err(InternalError, StatusInternalServerError))
    else match evaluated
      case Failure(msg) => Success(TestReply(None, msg, PolicyStatusFailed))
      case Success(out) =>
        var status := if violations(out) > 0 then PolicyStatusViolated else PolicyStatusPassed;
        Success(TestReply(Some(out), "", status))
  }

  /**
   * Every evaluation ends in exactly one of the three result statuses, and
   * the error text is empty exactly when the engine produced an output.
   */
  lemma TestStatusIsClassified<D>(fsFails: set<FsStep>, evaluated: Result<D, string>, violations: D -> nat)
    requires fsFails == {}
    requires evaluated.Failure? ==> evaluated.error != ""
    ensures var r := PolicyTest(Success(()), fsFails, evaluated, violations);
      && r.Success?
      && r.value.status in {PolicyStatusPassed, PolicyStatusViolated, PolicyStatusFailed}
      && (r.value.status == PolicyStatusFailed <==> evaluated.Failure?)
      && (r.value.error == "" <==> evaluated.Success?)
  {
  }
}

=== FILE: scan_gate.dfy ===
/**
 * Gating of compliance-scan requests: which scan type a request gets, which
 * environments and templates may be scanned, which "last scan task" reference a
 * new scan moves, and the request handler that chains them.
 */
module ScanGate {
  import opened Wrappers
  import opened Common
  import opened Entities

  /** True of the scan types that scan an environment rather than a bare template. */
  predicate TargetsEnv(t: TaskType) {
    t == EnvScan || t == EnvParse
  }

  /** True of the parse-only scan types. */
  predicate IsParseType(t: TaskType) {
    t == EnvParse || t == TplParse
  }

  /**
   * The scan type of a request. It is one of the four scan types, and the
   * environment flag and the parse flag can be read back from it, so the
   * choice is one-to-one over (environment given, parse only).
   */
  function GetScanTaskType(envId: Id, parseOnly: bool): (t: TaskType)
    ensures t in {EnvScan, EnvParse, TplScan, TplParse}
    ensures TargetsEnv(t) <==> envId != ""
    ensures IsParseType(t) <==> parseOnly
  {
    if envId != "" && !parseOnly then EnvScan
    else if envId != "" && parseOnly then EnvParse
    else if envId == "" && !parseOnly then TplScan
    else TplParse
  }

  /** Two requests get the same scan type exactly when they agree on both flags. */
  lemma ScanTaskTypeOneToOne(e1: Id, p1: bool, e2: Id, p2: bool)
    ensures GetScanTaskType(e1, p1) == GetScanTaskType(e2, p2) <==> ((e1 == "") == (e2 == "") && p1 == p2)
  {
    var t1, t2 := GetScanTaskType(e1, p1), GetScanTaskType(e2, p2);
    if t1 == t2 {
      assert TargetsEnv(t1) == TargetsEnv(t2);
      assert IsParseType(t1) == IsParseType(t2);
    }
  }

  /**
   * IsScanableEnv: may this environment be scanned? The handler reads the
   * environment through a session restricted to the caller's organisation and
   * the global rows; `inScope` is that restriction, and an environment outside
   * it is not found.
   */
  function IsScanableEnv(db: Db, envId: Id, isParse: bool, inScope: Env -> bool, fails: set<Step>): (r: Result<Env, Error>)
    ensures r.Success? <==>
      && ReadEnv !in fails && envId in db.envs && inScope(db.envs[envId])
      && !db.envs[envId].archived
      && ReadEnvScanEnabled !in fails
      && (db.envs[envId].policyEnable || isParse)
    ensures r.Success? ==> r.value == db.envs[envId]
    ensures ReadEnv !in fails && (envId !in db.envs || !inScope(db.envs[envId])) ==>
      r == Failure(Err(EnvNotExists, StatusBadRequest))
    ensures ReadEnv in fails ==> r == Failure(Err(DBError, StatusInternalServerError))
    ensures r == Failure(Err(EnvArchived, StatusBadRequest)) <==>
      ReadEnv !in fails && envId in db.envs && inScope(db.envs[envId]) && db.envs[envId].archived
    ensures r == Failure(Err(PolicyScanNotEnabled, StatusBadRequest)) <==>
      && ReadEnv !in fails && envId in db.envs && inScope(db.envs[envId]) && !db.envs[envId].archived
      && ReadEnvScanEnabled !in fails && !db.envs[envId].policyEnable && !isParse
    // a parse-only request never fails the scan-enabled check
    ensures isParse && r.Failure? ==> r.error.code != PolicyScanNotEnabled
  {
    match LookupEnv(db, envId, fails)
    case Failure(code) =>
      if code == EnvNotExists then Failure(Err(code, StatusBadRequest))
      else Failure(Err(DBError, StatusInternalServerError))
    case Success(env) =>
      if !inScope(env) then Failure(Err(EnvNotExists, StatusBadRequest))
      else if env.archived then Failure(Err(EnvArchived, StatusBadRequest))
      else if ReadEnvScanEnabled in fails then Failure(Err(DBError, StatusInternalServerError))
      else if !env.policyEnable && !isParse then Failure(Err(PolicyScanNotEnabled, StatusBadRequest))
      else Success(env)
  }

  /**
   * IsScanableTpl: may this template be scanned? The template's own
   * scan-enabled flag is consulted only for a template scan (no environment).
   * Unlike the environment, the template is read without the organisation
   * restriction.
   */
  function IsScanableTpl(db: Db, tplId: Id, envId: Id, isParse: bool, fails: set<Step>): (r: Result<Template, Error>)
    ensures r.Success? <==>
      && ReadTemplate !in fails && tplId in db.templates
      && db.templates[tplId].status != TemplateDisable
      && (envId == "" ==> ReadTemplateScanEnabled !in fails && (db.templates[tplId].policyEnable || isParse))
    ensures r.Success? ==> r.value == db.templates[tplId]
    ensures ReadTemplate !in fails && tplId !in db.templates ==> r == Failure(Err(TemplateNotExists, StatusBadRequest))
    ensures ReadTemplate in fails ==> r == Failure(Err(DBError, StatusInternalServerError))
    ensures r == Failure(Err(TemplateDisabled, StatusBadRequest)) <==>
      ReadTemplate !in fails && tplId in db.templates && db.templates[tplId].status == TemplateDisable
    ensures r == Failure(Err(PolicyScanNotEnabled, StatusBadRequest)) <==>
      && envId == "" && ReadTemplate !in fails && tplId in db.templates
      && db.templates[tplId].status != TemplateDisable
      && ReadTemplateScanEnabled !in fails && !db.templates[tplId].policyEnable && !isParse
    ensures isParse && r.Failure? ==> r.error.code != PolicyScanNotEnabled
  {
    match LookupTemplate(db, tplId, fails)
    case Failure(code) =>
      if code == TemplateNotExists then Failure(Err(code, StatusBadRequest))
      else Failure(Err(DBError, StatusInternalServerError))
    case Success(tpl) =>
      if tpl.status == TemplateDisable then Failure(Err(TemplateDisabled, StatusBadRequest))
      else if envId == "" && ReadTemplateScanEnabled in fails then Failure(Err(DBError, StatusInternalServerError))
      else if envId == "" && !tpl.policyEnable && !isParse then Failure(Err(PolicyScanNotEnabled, StatusBadRequest))
      else Success(tpl)
  }

  /** `d` and `db` agree on every table other than environments and templates. */
  predicate SameOtherTables(d: Db, db: Db) {
    d.(envs := db.envs, templates := db.templates) == db
  }

  /**
   * UpdateLastScanTaskId: an environment scan moves the environment's reference,
   * a template scan moves the template's reference, a parse task moves neither.
   * The environment is required for an environment scan (the source
   * dereferences it).
   */
  function UpdateLastScanTaskId(db: Db, task: ScanTask, env: Option<Env>, tpl: Template, fails: set<Step>): (r: Result<Db, Error>)
    requires task.ttype == EnvScan ==> env.Some?
    ensures r.Failure? <==> (task.ttype == EnvScan && SaveEnv in fails) || (task.ttype == TplScan && SaveTemplate in fails)
    ensures r.Failure? ==> r.error == Err(DBError, StatusInternalServerError)
    ensures r.Success? ==> SameOtherTables(r.value, db)
    ensures task.ttype != EnvScan && task.ttype != TplScan ==> r == Success(db)
    ensures r.Success? && task.ttype == EnvScan ==>
      && r.value.templates == db.templates
      && r.value.envs.Keys == db.envs.Keys + {env.value.id}
      && r.value.envs[env.value.id].lastScanTaskId == task.id
      && r.value.envs[env.value.id].(lastScanTaskId := env.value.lastScanTaskId) == env.value
      && (forall k :: k in db.envs && k != env.value.id ==> r.value.envs[k] == db.envs[k])
    ensures r.Success? && task.ttype == TplScan ==>
      && r.value.envs == db.envs
      && r.value.templates.Keys == db.templates.Keys + {tpl.id}
      && r.value.templates[tpl.id].lastScanTaskId == task.id
      && r.value.templates[tpl.id].(lastScanTaskId := tpl.lastScanTaskId) == tpl
      && (forall k :: k in db.templates && k != tpl.id ==> r.value.templates[k] == db.templates[k])
  {
    if task.ttype == EnvScan then
      if SaveEnv in fails then Failure(Err(DBError, StatusInternalServerError))
      else Success(db.(envs := db.envs[env.value.id := env.value.(lastScanTaskId := task.id)]))
    else if task.ttype == TplScan then
      if SaveTemplate in fails then Failure(Err(DBError, StatusInternalServerError))
      else Success(db.(templates := db.templates[tpl.id := tpl.(lastScanTaskId := task.id)]))
    else
      Success(db)
  }

  /** The checks of a scan request: the environment first (when given), then the template. */
  function CheckScanable(db: Db, tplId: Id, envId: Id, parse: bool, inScope: Env -> bool, fails: set<Step>): (r: Result<(Option<Env>, Template), Error>)
    ensures r.Success? <==>
      && (envId != "" ==> IsScanableEnv(db, envId, parse, inScope, fails).Success?)
      && IsScanableTpl(db, tplId, envId, parse, fails).Success?
    ensures r.Success? ==> r.value.1 == db.templates[tplId]
    ensures r.Success? ==> (r.value.0.Some? <==> envId != "")
    ensures r.Success? && envId != "" ==> r.value.0 == Some(db.envs[envId])
    ensures envId != "" && IsScanableEnv(db, envId, parse, inScope, fails).Failure? ==>
      r == Failure(IsScanableEnv(db, envId, parse, inScope, fails).error)
    ensures (envId != "" ==> IsScanableEnv(db, envId, parse, inScope, fails).Success?) ==>
      r.Failure? ==> r == Failure(IsScanableTpl(db, tplId, envId, parse, fails).error)
  {
    var env :- if envId != "" then
                 match IsScanableEnv(db, envId, parse, inScope, fails)
                 case Success(e) => Success(Some(e))
                 case Failure(err) => Failure(err)
               else Success(None);
    var tpl :- IsScanableTpl(db, tplId, envId, parse, fails);
    Success((env, tpl))
  }

  /**
   * The organisation restriction applies to the environment only: without an
   * environment, the gate's answer is the same whatever the restriction.
   */
  lemma TemplateGateIgnoresOrgScope(db: Db, tplId: Id, parse: bool, s1: Env -> bool, s2: Env -> bool, fails: set<Step>)
    ensures CheckScanable(db, tplId, "", parse, s1, fails) == CheckScanable(db, tplId, "", parse, s2, fails)
    ensures CheckScanable(db, tplId, "", parse, s1, fails).Success? <==> IsScanableTpl(db, tplId, "", parse, fails).Success?
  {
  }

  /**
   * The writes after the gate all go through: the task is created, its result
   * initialised, the last-scan reference its type selects saved, and the
   * transaction committed.
   */
  predicate ScanStepsSucceed(taskType: TaskType, fails: set<Step>) {
    && CreateScanTask !in fails && InitScanResult !in fails && Commit !in fails
    && !(taskType == EnvScan && SaveEnv in fails)
    && !(taskType == TplScan && SaveTemplate in fails)
  }

  /**
   * ScanTemplateOrEnv: gate the request, resolve the default runner, create the
   * pending scan task, move the last-scan reference and commit. Any failing step
   * returns its error and no new state. `runner` is the runner lookup's answer
   * and `newTaskId` the identifier the new task receives. The handler passes the
   * runner found only to the template-scan creation; `envRunner` is the runner
   * the environment-scan creation assigns on its own, and `createCode` the code
   * a failing creation reports.
   */
  function ScanTemplateOrEnv(db: Db, tplId: Id, envId: Id, parse: bool, inScope: Env -> bool, runner: Result<Id, Code>,
                             envRunner: Id, createCode: Code, newTaskId: Id, fails: set<Step>): (r: Result<(Db, ScanTask), Error>)
    ensures r.Success? <==>
      && CheckScanable(db, tplId, envId, parse, inScope, fails).Success? && runner.Success?
      && ScanStepsSucceed(GetScanTaskType(envId, parse), fails)
    ensures CheckScanable(db, tplId, envId, parse, inScope, fails).Failure? ==>
      r == Failure(CheckScanable(db, tplId, envId, parse, inScope, fails).error)
    ensures CheckScanable(db, tplId, envId, parse, inScope, fails).Success? && runner.Failure? ==>
      r == Failure(Err(runner.error, StatusInternalServerError))
    ensures CheckScanable(db, tplId, envId, parse, inScope, fails).Success? && runner.Success? && CreateScanTask in fails ==>
      r == Failure(Err(createCode, StatusInternalServerError))
    ensures CheckScanable(db, tplId, envId, parse, inScope, fails).Success? && runner.Success? && CreateScanTask !in fails && r.Failure? ==>
      r.error.code == DBError
    ensures r.Success? && WellKeyed(db) ==>
      var (d, task) := r.value;
      && task.id == newTaskId && task.tplId == tplId && task.envId == envId
      && task.ttype == GetScanTaskType(envId, parse)
      && task.runnerId == (if envId == "" then runner.value else envRunner)
      && task.policyStatus == PolicyStatusPending
      && d.scanTasks == db.scanTasks[newTaskId := task]
      && (task.ttype == EnvScan ==> envId in d.envs && d.envs[envId].lastScanTaskId == newTaskId && d.templates == db.templates)
      && (task.ttype == TplScan ==> tplId in d.templates && d.templates[tplId].lastScanTaskId == newTaskId && d.envs == db.envs)
      && (parse ==> d.envs == db.envs && d.templates == db.templates)
  {
    var (env, tpl) :- CheckScanable(db, tplId, envId, parse, inScope, fails);
    var runnerId :- match runner
                    case Success(id) => Success(id)
                    case Failure(code) => Failure(Err(code, StatusInternalServerError));
    var taskType := GetScanTaskType(envId, parse);
    if CreateScanTask in fails then Failure(Err(createCode, StatusInternalServerError))
    else
      var taskRunner := if envId == "" then runnerId else envRunner;
      var task := ScanTask(newTaskId, taskType, tpl.id, envId, taskRunner, "", PolicyStatusPending);
      var d1 := db.(scanTasks := db.scanTasks[newTaskId := task]);
      if InitScanResult in fails then Failure(Error(DBError, None))
      else
        var d2 :- UpdateLastScanTaskId(d1, task, env, tpl, fails);
        if Commit in fails then Failure(Error(DBError, None))
        else Success((d2, task))
  }

  /**
   * A template scan of a template whose scanning is disabled is refused with
   * PolicyScanNotEnabled, and the same request in parse-only mode goes through.
   */
  lemma ParseOnlyBypassesDisabledTemplateScan(db: Db, tplId: Id, inScope: Env -> bool, runner: Id, envRunner: Id, createCode: Code, newTaskId: Id)
    requires tplId in db.templates
    requires db.templates[tplId].status != TemplateDisable
    requires !db.templates[tplId].policyEnable
    ensures ScanTemplateOrEnv(db, tplId, "", false, inScope, Success(runner), envRunner, createCode, newTaskId, {}) ==
      Failure(Err(PolicyScanNotEnabled, StatusBadRequest))
    ensures ScanTemplateOrEnv(db, tplId, "", true, inScope, Success(runner), envRunner, createCode, newTaskId, {}).Success?
  {
  }
}

=== FILE: summary_join.dfy ===
/**
 * Attaching per-status scan counts to policy rows: the policy list, and the
 * policy lists of one template or one environment, each fill a row's passed /
 * violated / failed / suppressed counts from a list of (policy id, status,
 * count) summaries by looking them up under the key "policy id + status".
 */
module SummaryJoin {
  import opened Wrappers
  import opened Common

  /** One summary row: how many results of one policy carry one status. */
  datatype ScanCount = ScanCount(id: Id, status: string, count: nat)

  /** A policy row of some response type `T`, with its tallies. */
  datatype Target<T> = Target(id: Id, summary: Summary, rest: T)

  /** The lookup key: the policy id with the status appended. */
  function Key(id: Id, status: string): string {
    id + status
  }

  /** The lookup map, filled in order, so a later summary with the same key overwrites an earlier one. */
  function SumMap(sums: seq<ScanCount>): (m: map<string, nat>)
    ensures forall k :: 0 <= k < |sums| ==> Key(sums[k].id, sums[k].status) in m
    ensures forall key :: key in m ==> exists k :: 0 <= k < |sums| && Key(sums[k].id, sums[k].status) == key
    decreases |sums|
  {
    if |sums| == 0 then map[]
    else
      var last := sums[|sums| - 1];
      var m := SumMap(sums[..|sums| - 1]);
      assert forall k :: 0 <= k < |sums| - 1 ==> sums[..|sums| - 1][k] == sums[k];
      m[Key(last.id, last.status) := last.count]
  }

  function Lookup(m: map<string, nat>, key: string, otherwise: nat): nat {
    if key in m then m[key] else otherwise
  }

  /** One row: each of the four counts is taken from the map when its key is present and kept otherwise. */
  function JoinOne<T>(m: map<string, nat>, t: Target<T>): Target<T> {
    var s := t.summary;
    t.(summary := Summary(
      Lookup(m, Key(t.id, PolicyStatusPassed), s.passed),
      Lookup(m, Key(t.id, PolicyStatusViolated), s.violated),
      Lookup(m, Key(t.id, PolicyStatusSuppressed), s.suppressed),
      Lookup(m, Key(t.id, PolicyStatusFailed), s.failed)))
  }

  /**
   * PolicyTargetSummaryTpl / PolicyTargetSummaryEnv and the same loop in
   * SearchPolicy: rows keep their order, ids and other fields; with no
   * summaries at all the rows are returned untouched.
   */
  function JoinSummaries<T>(targets: seq<Target<T>>, sums: seq<ScanCount>): (r: seq<Target<T>>)
    ensures |r| == |targets|
    ensures forall i :: 0 <= i < |r| ==> r[i].id == targets[i].id && r[i].rest == targets[i].rest
    ensures |sums| == 0 ==> r == targets
  {
    if |sums| == 0 then targets
    else
      var m := SumMap(sums);
      seq(|targets|, i requires 0 <= i < |targets| => JoinOne(m, targets[i]))
  }

  /** Reference: the count of the last summary for this policy and status, if there is one. */
  function LastCount(sums: seq<ScanCount>, id: Id, status: string): Option<nat>
    decreases |sums|
  {
    if |sums| == 0 then None
    else
      var last := sums[|sums| - 1];
      if last.id == id && last.status == status then Some(last.count)
      else LastCount(sums[..|sums| - 1], id, status)
  }

  /** Every summary carries a status a policy result can have. */
  predicate KnownStatuses(sums: seq<ScanCount>) {
    forall k :: 0 <= k < |sums| ==> IsKnownPolicyStatus(sums[k].status)
  }

  /** No known status is a proper suffix of another, nor equal to another with a prefix. */
  lemma SuffixFree(s1: string, s2: string, pre: string)
    requires IsKnownPolicyStatus(s1) && IsKnownPolicyStatus(s2)
    requires s2 == pre + s1
    ensures pre == [] && s1 == s2
  {
    if pre == [] {
      assert pre + s1 == s1;
    } else {
      // the first two letters of the shorter status never reappear at that
      // distance from the end of a longer one
      FirstTwoAfter(pre, s1);
      assert false;
    }
  }

  lemma FirstTwoAfter(pre: string, s: string)
    ensures |s| >= 2 ==> (pre + s)[|pre|] == s[0] && (pre + s)[|pre| + 1] == s[1]
  {
  }

  /** If a + b == c + d with b no longer than d, then d is b with a's tail in front. */
  lemma ConcatSplit(a: string, b: string, c: string, d: string)
    requires a + b == c + d && |b| <= |d|
    ensures |c| <= |a| && a == c + a[|c|..] && d == a[|c|..] + b
  {
    var k := a + b;
    assert a == k[..|a|] && c == k[..|c|];
    assert d == k[|c|..];
    assert a[|c|..] + b == k[|c|..];
  }

  /** With known statuses, the key "id + status" determines both the id and the status. */
  lemma KeyInjective(id1: Id, s1: string, id2: Id, s2: string)
    requires IsKnownPolicyStatus(s1) && IsKnownPolicyStatus(s2)
    requires Key(id1, s1) == Key(id2, s2)
    ensures id1 == id2 && s1 == s2
  {
    if |s1| <= |s2| {
      ConcatSplit(id1, s1, id2, s2);
      SuffixFree(s1, s2, id1[|id2|..]);
    } else {
      ConcatSplit(id2, s2, id1, s1);
      SuffixFree(s2, s1, id2[|id1|..]);
    }
  }

  /** With known statuses, the lookup under a known status finds exactly the last matching summary. */
  lemma {:induction false} SumMapIsLastCount(sums: seq<ScanCount>, id: Id, status: string)
    requires KnownStatuses(sums) && IsKnownPolicyStatus(status)
    ensures Key(id, status) in SumMap(sums) <==> LastCount(sums, id, status).Some?
    ensures Key(id, status) in SumMap(sums) ==> SumMap(sums)[Key(id, status)] == LastCount(sums, id, status).value
    decreases |sums|
  {
    if |sums| > 0 {
      var init := sums[..|sums| - 1];
      var last := sums[|sums| - 1];
      assert KnownStatuses(init) by {
        assert forall k :: 0 <= k < |init| ==> init[k] == sums[k];
      }
      SumMapIsLastCount(init, id, status);
      if Key(last.id, last.status) == Key(id, status) {
        KeyInjective(last.id, last.status, id, status);
      }
    }
  }

  /**
   * The join against its reference: with summaries of known statuses, each
   * count of each row is that of the last summary for the row's policy and
   * that status, or the row's own count when there is none.
   */
  lemma JoinIsLastCount<T>(targets: seq<Target<T>>, sums: seq<ScanCount>, i: int)
    requires KnownStatuses(sums) && 0 <= i < |targets|
    ensures var r := JoinSummaries(targets, sums)[i].summary;
            var id, s := targets[i].id, targets[i].summary;
      && r.passed == LastCount(sums, id, PolicyStatusPassed).GetOr(s.passed)
      && r.violated == LastCount(sums, id, PolicyStatusViolated).GetOr(s.violated)
      && r.suppressed == LastCount(sums, id, PolicyStatusSuppressed).GetOr(s.suppressed)
      && r.failed == LastCount(sums, id, PolicyStatusFailed).GetOr(s.failed)
  {
    var id := targets[i].id;
    if |sums| > 0 {
      SumMapIsLastCount(sums, id, PolicyStatusPassed);
      SumMapIsLastCount(sums, id, PolicyStatusViolated);
      SumMapIsLastCount(sums, id, PolicyStatusSuppressed);
      SumMapIsLastCount(sums, id, PolicyStatusFailed);
    }
  }

  /** A policy no summary mentions keeps its counts. */
  lemma UnmentionedKeepsCounts<T>(targets: seq<Target<T>>, sums: seq<ScanCount>, i: int)
    requires KnownStatuses(sums) && 0 <= i < |targets|
    requires forall k :: 0 <= k < |sums| ==> sums[k].id != targets[i].id
    ensures JoinSummaries(targets, sums)[i] == targets[i]
  {
    var id := targets[i].id;
    if |sums| > 0 {
      var m := SumMap(sums);
      forall st | IsKnownPolicyStatus(st)
        ensures Key(id, st) !in m
      {
        if Key(id, st) in m {
          var k :| 0 <= k < |sums| && Key(sums[k].id, sums[k].status) == Key(id, st);
          KeyInjective(sums[k].id, sums[k].status, id, st);
        }
      }
    }
  }
}

=== FILE: task_done.dfy ===
/**
 * What the task manager does once a task has finished: it stores the state's
 * resources and outputs and the plan's changes, reconciles the environment's
 * drift rows with the drift a scheduled plan detected, arms or clears the
 * environment's auto-destroy deadline, asks the runner to stop a task's
 * container, and stores a scan task's results.
 *
 * Files are passed in as already read: `Success([])` stands for a file that
 * does not exist or is empty, `Failure(msg)` for one that could not be read.
 * Decoders, the runner-address lookup, the HTTP call and the clock are
 * parameters.
 */
module TaskDone {
  import opened Wrappers
  import opened Common
  import opened Entities

  /** What a done-action leaves behind: the database after the writes that happened, and the error it returns. */
  datatype Outcome<E> = Outcome(db: Db, err: Option<E>)

  /** The errors of state and plan ingestion, one per failing step. */
  datatype IngestError =
    | ReadStateJson(msg: string)
    | UnmarshalStateJson(msg: string)
    | ReadProviderSchema(msg: string)
    | UnmarshalProviderSchema(msg: string)
    | SaveTaskResourcesFailed
    | SaveTaskOutputsFailed
    | ReadPlanJson(msg: string)
    | UnmarshalPlanJson(msg: string)
    | SaveTaskChangesFailed

  /** The part of a state file the task manager keeps. */
  datatype TfState = TfState(resources: seq<Resource>, outputs: seq<Output>)

  /** The state file was read and is not empty. */
  predicate StateReadable(stateFile: Result<seq<byte>, string>) {
    stateFile.Success? && stateFile.value != []
  }

  /** Both files read and decode; an empty schema file needs no decoding. */
  predicate FilesDecode(stateFile: Result<seq<byte>, string>, decodeState: seq<byte> -> Result<TfState, string>,
                        schemaFile: Result<seq<byte>, string>, decodeSchema: seq<byte> -> Result<SensitiveAttrs, string>) {
    && StateReadable(stateFile) && decodeState(stateFile.value).Success?
    && schemaFile.Success? && (schemaFile.value != [] ==> decodeSchema(schemaFile.value).Success?)
  }

  /**
   * taskDoneProcessState: an absent or empty state file is not an error;
   * otherwise the state and the provider schema (an empty schema meaning no
   * sensitive attributes) are decoded, the resources are saved, then the
   * outputs. The saves are separate statements, so a failing output save
   * leaves the resources saved.
   */
  function ProcessState(db: Db, task: Task, stateFile: Result<seq<byte>, string>,
                        decodeState: seq<byte> -> Result<TfState, string>,
                        schemaFile: Result<seq<byte>, string>,
                        decodeSchema: seq<byte> -> Result<SensitiveAttrs, string>,
                        fails: set<Step>): (r: Outcome<IngestError>)
    ensures r.db == db.(resources := r.db.resources, outputs := r.db.outputs)
    ensures stateFile.Failure? ==> r == Outcome(db, Some(ReadStateJson(stateFile.error)))
    ensures stateFile == Success([]) ==> r == Outcome(db, None)
    ensures r.err.None? && stateFile.Success? && stateFile.value != [] ==>
      && decodeState(stateFile.value).Success? && schemaFile.Success?
      && (schemaFile.value != [] ==> decodeSchema(schemaFile.value).Success?)
      && r.db.resources == db.resources[task.id := TaskResources(decodeState(stateFile.value).value.resources,
           if schemaFile.value == [] then map[] else decodeSchema(schemaFile.value).value)]
      && r.db.outputs == db.outputs[task.id := decodeState(stateFile.value).value.outputs]
      && SaveResources !in fails && SaveOutputs !in fails
    ensures StateReadable(stateFile) && decodeState(stateFile.value).Failure? ==>
      r == Outcome(db, Some(UnmarshalStateJson(decodeState(stateFile.value).error)))
    ensures StateReadable(stateFile) && decodeState(stateFile.value).Success? && schemaFile.Failure? ==>
      r == Outcome(db, Some(ReadProviderSchema(schemaFile.error)))
    ensures
      && StateReadable(stateFile) && decodeState(stateFile.value).Success? && schemaFile.Success?
      && schemaFile.value != [] && decodeSchema(schemaFile.value).Failure?
      ==> r == Outcome(db, Some(UnmarshalProviderSchema(decodeSchema(schemaFile.value).error)))
    ensures FilesDecode(stateFile, decodeState, schemaFile, decodeSchema) && SaveResources in fails ==>
      r == Outcome(db, Some(SaveTaskResourcesFailed))
    ensures FilesDecode(stateFile, decodeState, schemaFile, decodeSchema) && SaveResources !in fails && SaveOutputs in fails ==>
      r.err == Some(SaveTaskOutputsFailed)
    ensures r.err == Some(SaveTaskOutputsFailed) ==>
      && r.db.outputs == db.outputs && task.id in r.db.resources
      && stateFile.Success? && decodeState(stateFile.value).Success?
      && r.db.resources[task.id].resources == decodeState(stateFile.value).value.resources
    ensures r.err.Some? && r.err != Some(SaveTaskOutputsFailed) ==> r.db == db
  {
    match stateFile
    case Failure(msg) => Outcome(db, Some(ReadStateJson(msg)))
    case Success(bs) =>
      if |bs| == 0 then Outcome(db, None)
      else match decodeState(bs)
        case Failure(msg) => Outcome(db, Some(UnmarshalStateJson(msg)))
        case Success(st) =>
          match schemaFile
          case Failure(msg) => Outcome(db, Some(ReadProviderSchema(msg)))
          case Success(ps) =>
            var decoded := if |ps| > 0 then decodeSchema(ps) else Success(map[]);
            match decoded
            case Failure(msg) => Outcome(db, Some(UnmarshalProviderSchema(msg)))
            case Success(sensitive) =>
              if SaveResources in fails then Outcome(db, Some(SaveTaskResourcesFailed))
              else
                var db1 := db.(resources := db.resources[task.id := TaskResources(st.resources, sensitive)]);
                if SaveOutputs in fails then Outcome(db1, Some(SaveTaskOutputsFailed))
                else Outcome(db1.(outputs := db1.outputs[task.id := st.outputs]), None)
  }

  /** Processing the same files again writes the same rows: state ingestion is idempotent. */
  lemma ProcessStateIdempotent(db: Db, task: Task, stateFile: Result<seq<byte>, string>,
                               decodeState: seq<byte> -> Result<TfState, string>,
                               schemaFile: Result<seq<byte>, string>,
                               decodeSchema: seq<byte> -> Result<SensitiveAttrs, string>, fails: set<Step>)
    ensures var once := ProcessState(db, task, stateFile, decodeState, schemaFile, decodeSchema, fails);
      ProcessState(once.db, task, stateFile, decodeState, schemaFile, decodeSchema, fails) == once
  {
    var once := ProcessState(db, task, stateFile, decodeState, schemaFile, decodeSchema, fails);
    if once.db != db {
      var st := decodeState(stateFile.value).value;
      var decoded := if |schemaFile.value| > 0 then decodeSchema(schemaFile.value) else Success(map[]);
      var row := TaskResources(st.resources, decoded.value);
      ProcessStateWrites(db, task, stateFile, decodeState, schemaFile, decodeSchema, fails);
      ProcessStateWrites(once.db, task, stateFile, decodeState, schemaFile, decodeSchema, fails);
      RewriteSame(db, task.id, row, st.outputs, SaveOutputs in fails);
    }
  }

  /** What the success path stores: the task's rows, then its outputs unless that save fails. */
  function WriteRows(db: Db, id: Id, row: TaskResources, outs: seq<Output>, outputsFail: bool): Outcome<IngestError> {
    var db1 := db.(resources := db.resources[id := row]);
    if outputsFail then Outcome(db1, Some(SaveTaskOutputsFailed))
    else Outcome(db1.(outputs := db1.outputs[id := outs]), None)
  }

  /** Once every file reads and decodes and the rows save, processing is exactly WriteRows. */
  lemma ProcessStateWrites(db: Db, task: Task, stateFile: Result<seq<byte>, string>,
                           decodeState: seq<byte> -> Result<TfState, string>,
                           schemaFile: Result<seq<byte>, string>,
                           decodeSchema: seq<byte> -> Result<SensitiveAttrs, string>, fails: set<Step>)
    requires stateFile.Success? && |stateFile.value| > 0 && decodeState(stateFile.value).Success?
    requires schemaFile.Success? && SaveResources !in fails
    requires |schemaFile.value| > 0 ==> decodeSchema(schemaFile.value).Success?
    ensures var st := decodeState(stateFile.value).value;
      var sensitive := if |schemaFile.value| > 0 then decodeSchema(schemaFile.value).value else map[];
      ProcessState(db, task, stateFile, decodeState, schemaFile, decodeSchema, fails)
        == WriteRows(db, task.id, TaskResources(st.resources, sensitive), st.outputs, SaveOutputs in fails)
  {
  }

  /** Writing rows that are already stored leaves the database as it is. */
  lemma RewriteSame(db: Db, id: Id, row: TaskResources, outs: seq<Output>, outputsFail: bool)
    ensures var once := WriteRows(db, id, row, outs, outputsFail);
      WriteRows(once.db, id, row, outs, outputsFail) == once
  {
    var once := WriteRows(db, id, row, outs, outputsFail);
    assert once.db.resources[id := row] == once.db.resources;
    assert !outputsFail ==> once.db.outputs[id := outs] == once.db.outputs;
  }

  /**
   * taskDoneProcessPlan: an absent or empty plan file is not an error;
   * otherwise the plan is decoded and its resource changes saved.
   */
  function ProcessPlan(db: Db, task: Task, planFile: Result<seq<byte>, string>,
                       decodePlan: seq<byte> -> Result<seq<Change>, string>, fails: set<Step>): (r: Outcome<IngestError>)
    ensures r.db == db.(changes := r.db.changes)
    ensures r.err.Some? ==> r.db == db
    ensures r.db != db ==> planFile.Success? && decodePlan(planFile.value).Success?
                           && r.db.changes == db.changes[task.id := decodePlan(planFile.value).value]
    ensures r.err.None? <==> (planFile == Success([]) ||
      (planFile.Success? && decodePlan(planFile.value).Success? && SaveChanges !in fails))
    ensures r.err.None? && planFile != Success([]) ==> task.id in r.db.changes
  {
    match planFile
    case Failure(msg) => Outcome(db, Some(ReadPlanJson(msg)))
    case Success(bs) =>
      if |bs| == 0 then Outcome(db, None)
      else match decodePlan(bs)
        case Failure(msg) => Outcome(db, Some(UnmarshalPlanJson(msg)))
        case Success(changes) =>
          if SaveChanges in fails then Outcome(db, Some(SaveTaskChangesFailed))
          else Outcome(db.(changes := db.changes[task.id := changes]), None)
  }

  /** The changes a successful plan ingestion stores are exactly the decoded ones, whatever was stored before. */
  lemma ProcessPlanStoresDecoded(db: Db, task: Task, bs: seq<byte>,
                                 decodePlan: seq<byte> -> Result<seq<Change>, string>)
    requires bs != [] && decodePlan(bs).Success?
    ensures var r := ProcessPlan(db, task, Success(bs), decodePlan, {});
      r.err.None? && r.db.changes[task.id] == decodePlan(bs).value
      && ProcessPlan(r.db, task, Success(bs), decodePlan, {}) == r
  {
  }

  // ----------------------------------------------------------------------
  // Drift reconciliation
  // ----------------------------------------------------------------------

  /** The resources recorded for a task (none when it has no row). */
  function ResourcesOf(db: Db, taskId: Id): seq<Resource> {
    if taskId in db.resources then db.resources[taskId].resources else []
  }

  /** GetResourceIdByAddressAndTaskId: the first resource of the task at this address. */
  function FindResource(rs: seq<Resource>, address: string): (r: Option<Resource>)
    ensures r.Some? ==> r.value in rs && r.value.address == address
    ensures r.None? <==> forall i :: 0 <= i < |rs| ==> rs[i].address != address
  {
    if |rs| == 0 then None
    else if rs[0].address == address then Some(rs[0])
    else
      var r := FindResource(rs[1..], address);
      assert forall i :: 1 <= i < |rs| ==> rs[i] == rs[1..][i - 1];
      r
  }

  /** The addresses of the drift rows that belong to resource task `last`. */
  function DriftAddrs(drift: map<Id, DriftRow>, last: Id): set<string> {
    set k | k in drift && drift[k].resTaskId == last :: drift[k].address
  }

  /** DeleteEnvResourceDrift: every row of the resource task goes. */
  function DeleteAllOf(drift: map<Id, DriftRow>, last: Id): (r: map<Id, DriftRow>)
    ensures DriftAddrs(r, last) == {}
    ensures forall k :: k in drift && drift[k].resTaskId != last ==> k in r && r[k] == drift[k]
  {
    map k | k in drift && drift[k].resTaskId != last :: drift[k]
  }

  /** DeleteEnvResourceDriftByAddressList: the rows of the resource task whose address is no longer detected go. */
  function DeleteUnlisted(drift: map<Id, DriftRow>, last: Id, keep: set<string>): (r: map<Id, DriftRow>)
    ensures DriftAddrs(r, last) == DriftAddrs(drift, last) * keep
    ensures forall k :: k in r <==> k in drift && (drift[k].resTaskId == last ==> drift[k].address in keep)
    ensures forall k :: k in r ==> r[k] == drift[k]
  {
    var r := map k | k in drift && (drift[k].resTaskId == last ==> drift[k].address in keep) :: drift[k];
    assert DriftAddrs(r, last) == DriftAddrs(drift, last) * keep by {
      forall a | a in DriftAddrs(drift, last) * keep
        ensures a in DriftAddrs(r, last)
      {
        var k :| k in drift && drift[k].resTaskId == last && drift[k].address == a;
        assert k in r;
      }
    }
    r
  }

  /** The drift row an upsert writes for a detected address whose resource was found. */
  predicate IsUpsertRow(rs: seq<Resource>, last: Id, m: map<string, DriftInfo>, order: seq<string>, k: Id, row: DriftRow) {
    && row.resTaskId == last && row.address in order && row.address in m && row.info == m[row.address]
    && FindResource(rs, row.address).Some? && FindResource(rs, row.address).value.id == k
  }

  /**
   * The upsert loop, visiting the detected addresses in `order`: an address
   * whose resource is not found is skipped; otherwise the drift row keyed by
   * that resource's id is written.
   */
  function UpsertAll(drift: map<Id, DriftRow>, rs: seq<Resource>, last: Id, m: map<string, DriftInfo>,
                     order: seq<string>): (r: map<Id, DriftRow>)
    requires forall a :: a in order ==> a in m
    ensures drift.Keys <= r.Keys
    ensures forall a :: a in order && FindResource(rs, a).Some? ==> FindResource(rs, a).value.id in r
    ensures forall k :: k in r ==> (k in drift && r[k] == drift[k]) || IsUpsertRow(rs, last, m, order, k, r[k])
    decreases |order|
  {
    if |order| == 0 then drift
    else
      var a := order[0];
      var d := match FindResource(rs, a)
        case None => drift
        case Some(res) => drift[res.id := DriftRow(last, a, m[a])];
      var r := UpsertAll(d, rs, last, m, order[1..]);
      assert forall x :: x in order <==> x == a || x in order[1..];
      r
  }

  /** Resource ids are unique within a task's resources. */
  predicate UniqueIds(rs: seq<Resource>) {
    forall i, j :: 0 <= i < j < |rs| ==> rs[i].id != rs[j].id
  }

  /** Distinct addresses that both resolve resolve to distinct ids. */
  lemma DistinctAddressesDistinctIds(rs: seq<Resource>, a: string, b: string)
    requires UniqueIds(rs) && a != b
    requires FindResource(rs, a).Some? && FindResource(rs, b).Some?
    ensures FindResource(rs, a).value.id != FindResource(rs, b).value.id
  {
    var ra, rb := FindResource(rs, a).value, FindResource(rs, b).value;
    var i :| 0 <= i < |rs| && rs[i] == ra;
    var j :| 0 <= j < |rs| && rs[j] == rb;
    assert i != j;
  }

  /**
   * With unique resource ids and each address visited once, every resolved
   * address ends with exactly its own drift row, whatever the order of the
   * visits.
   */
  lemma {:induction false} UpsertWritesEachAddress(drift: map<Id, DriftRow>, rs: seq<Resource>, last: Id,
                                                    m: map<string, DriftInfo>, order: seq<string>, a: string)
    requires forall x :: x in order ==> x in m
    requires forall i, j :: 0 <= i < j < |order| ==> order[i] != order[j]
    requires UniqueIds(rs) && a in order && FindResource(rs, a).Some?
    ensures UpsertAll(drift, rs, last, m, order)[FindResource(rs, a).value.id] == DriftRow(last, a, m[a])
    decreases |order|
  {
    var h := order[0];
    var d := match FindResource(rs, h)
      case None => drift
      case Some(res) => drift[res.id := DriftRow(last, h, m[h])];
    assert forall x :: x in order <==> x == h || x in order[1..];
    if a == h {
      var id := FindResource(rs, a).value.id;
      assert d[id] == DriftRow(last, a, m[a]);
      assert a !in order[1..];
      forall x | x in order[1..] && FindResource(rs, x).Some?
        ensures FindResource(rs, x).value.id != id
      {
        DistinctAddressesDistinctIds(rs, x, a);
      }
      UpsertKeepsUnvisited(d, rs, last, m, order[1..], id);
    } else {
      assert forall i, j :: 0 <= i < j < |order[1..]| ==> order[1..][i] != order[1..][j] by {
        forall i, j | 0 <= i < j < |order[1..]|
          ensures order[1..][i] != order[1..][j]
        {
          assert order[1..][i] == order[i + 1] && order[1..][j] == order[j + 1];
        }
      }
      UpsertWritesEachAddress(d, rs, last, m, order[1..], a);
    }
  }

  /** A key that no later visit resolves to keeps its row. */
  lemma {:induction false} UpsertKeepsUnvisited(drift: map<Id, DriftRow>, rs: seq<Resource>, last: Id,
                                                 m: map<string, DriftInfo>, order: seq<string>, id: Id)
    requires forall x :: x in order ==> x in m
    requires id in drift
    requires forall x :: x in order && FindResource(rs, x).Some? ==> FindResource(rs, x).value.id != id
    ensures id in UpsertAll(drift, rs, last, m, order) && UpsertAll(drift, rs, last, m, order)[id] == drift[id]
    decreases |order|
  {
    if |order| > 0 {
      var h := order[0];
      var d := match FindResource(rs, h)
        case None => drift
        case Some(res) => drift[res.id := DriftRow(last, h, m[h])];
      assert forall x :: x in order[1..] ==> x in order;
      UpsertKeepsUnvisited(d, rs, last, m, order[1..], id);
    }
  }

  /** The drift outcome: the database, the error returned, and whether the drift notice was sent. */
  datatype DriftOutcome = DriftOutcome(db: Db, err: Option<Code>, notified: bool)

  /** `order` lists the detected addresses, each once: the iteration order over the detected map. */
  predicate IsOrderOf(order: seq<string>, m: map<string, DriftInfo>) {
    && (forall a :: a in order ==> a in m)
    && (forall a :: a in m ==> a in order)
    && (forall i, j :: 0 <= i < j < |order| ==> order[i] != order[j])
  }

  /**
   * taskDoneProcessDriftTask. `planStepFound` is whether the plan step could
   * be read, `log` the plan output log, `parse` the drift parser. Read
   * problems and failing deletes or resource lookups are only logged; a
   * missing environment is returned. No detected drift removes every drift
   * row of the environment's last resource task; otherwise rows no longer
   * detected are removed and the detected ones upserted, and the drift
   * notice goes out.
   */
  function ProcessDrift(db: Db, task: Task, planStepFound: bool, log: Result<seq<byte>, string>,
                        parse: seq<byte> -> map<string, DriftInfo>, order: seq<string>,
                        fails: set<Step>): (r: DriftOutcome)
    requires log.Success? ==> IsOrderOf(order, parse(log.value))
    ensures r.db == db.(drift := r.db.drift)
    ensures !planStepFound || log.Failure? ==> r == DriftOutcome(db, None, false)
    ensures r.err.Some? <==> planStepFound && log.Success? && LookupEnv(db, task.envId, fails).Failure?
    ensures r.err.Some? ==> r == DriftOutcome(db, Some(LookupEnv(db, task.envId, fails).error), false)
    ensures r.notified <==> (planStepFound && log.Success? && LookupEnv(db, task.envId, fails).Success?
                             && |parse(log.value)| > 0)
    ensures r.err.None? && planStepFound && log.Success? && DeleteDrift !in fails ==>
      var last := db.envs[task.envId].lastResTaskId;
      DriftAddrs(r.db.drift, last) <= parse(log.value).Keys
  {
    if !planStepFound || log.Failure? then DriftOutcome(db, None, false)
    else match LookupEnv(db, task.envId, fails)
      case Failure(code) => DriftOutcome(db, Some(code), false)
      case Success(env) =>
        var m := parse(log.value);
        var last := env.lastResTaskId;
        if |m| == 0 then
          var drift := if DeleteDrift in fails then db.drift else DeleteAllOf(db.drift, last);
          DriftOutcome(db.(drift := drift), None, false)
        else
          var d1 := if DeleteDrift in fails then db.drift else DeleteUnlisted(db.drift, last, m.Keys);
          var rs := ResourcesOf(db, last);
          var d2 := if ReadResource in fails || UpsertDrift in fails then d1 else UpsertAll(d1, rs, last, m, order);
          assert DeleteDrift !in fails ==> DriftAddrs(d2, last) <= m.Keys by {
            if DeleteDrift !in fails {
              forall a | a in DriftAddrs(d2, last)
                ensures a in m
              {
                var k :| k in d2 && d2[k].resTaskId == last && d2[k].address == a;
                if k in d1 && d2[k] == d1[k] {
                  assert a in DriftAddrs(d1, last);
                }
              }
            }
          }
          DriftOutcome(db.(drift := d2), None, true)
  }

  /** After the upsert, the resource task's rows carry exactly the detected addresses. */
  lemma UpsertAddrsExact(d1: map<Id, DriftRow>, rs: seq<Resource>, last: Id, m: map<string, DriftInfo>,
                         order: seq<string>)
    requires IsOrderOf(order, m) && UniqueIds(rs)
    requires forall a :: a in m ==> FindResource(rs, a).Some?
    requires DriftAddrs(d1, last) <= m.Keys
    ensures DriftAddrs(UpsertAll(d1, rs, last, m, order), last) == m.Keys
  {
    var r := UpsertAll(d1, rs, last, m, order);
    forall a | a in m
      ensures a in DriftAddrs(r, last)
    {
      UpsertWritesEachAddress(d1, rs, last, m, order, a);
      var k := FindResource(rs, a).value.id;
      assert r[k].resTaskId == last && r[k].address == a;
    }
    forall a | a in DriftAddrs(r, last)
      ensures a in m
    {
      var k :| k in r && r[k].resTaskId == last && r[k].address == a;
      if k in d1 && r[k] == d1[k] {
        assert a in DriftAddrs(d1, last);
      }
    }
  }

  /** The detection premises shared by the drift lemmas: resource ids unique and every detected address resolving. */
  predicate DetectionResolves(db: Db, task: Task, m: map<string, DriftInfo>) {
    && task.envId in db.envs
    && UniqueIds(ResourcesOf(db, db.envs[task.envId].lastResTaskId))
    && forall a :: a in m ==> FindResource(ResourcesOf(db, db.envs[task.envId].lastResTaskId), a).Some?
  }

  /**
   * When every detected address resolves to a resource of unique id, the
   * environment's drift rows after a fault-free run carry exactly the
   * detected addresses.
   */
  lemma DriftRowsMatchDetection(db: Db, task: Task, bs: seq<byte>,
                                parse: seq<byte> -> map<string, DriftInfo>, order: seq<string>)
    requires IsOrderOf(order, parse(bs)) && DetectionResolves(db, task, parse(bs))
    ensures DriftAddrs(ProcessDrift(db, task, true, Success(bs), parse, order, {}).db.drift,
                       db.envs[task.envId].lastResTaskId) == parse(bs).Keys
  {
    var m := parse(bs);
    var last := db.envs[task.envId].lastResTaskId;
    if |m| == 0 {
      assert m.Keys == {};
    } else {
      DriftRunUpserts(db, task, bs, parse, order);
      UpsertAddrsExact(DeleteUnlisted(db.drift, last, m.Keys), ResourcesOf(db, last), last, m, order);
    }
  }

  /** ... and each detected address's row, keyed by its resource, holds the detected drift. */
  lemma DriftRowsHoldDetection(db: Db, task: Task, bs: seq<byte>,
                               parse: seq<byte> -> map<string, DriftInfo>, order: seq<string>, a: string)
    requires IsOrderOf(order, parse(bs)) && DetectionResolves(db, task, parse(bs)) && a in parse(bs)
    ensures var last := db.envs[task.envId].lastResTaskId;
      ProcessDrift(db, task, true, Success(bs), parse, order, {}).db.drift[FindResource(ResourcesOf(db, last), a).value.id]
        == DriftRow(last, a, parse(bs)[a])
  {
    var m := parse(bs);
    var last := db.envs[task.envId].lastResTaskId;
    assert |m| > 0 by {
      assert a in m.Keys;
    }
    DriftRunUpserts(db, task, bs, parse, order);
    UpsertWritesEachAddress(DeleteUnlisted(db.drift, last, m.Keys), ResourcesOf(db, last), last, m, order, a);
  }

  /** A fault-free run that detects drift upserts over the rows left by the delete. */
  lemma DriftRunUpserts(db: Db, task: Task, bs: seq<byte>, parse: seq<byte> -> map<string, DriftInfo>, order: seq<string>)
    requires IsOrderOf(order, parse(bs)) && task.envId in db.envs && |parse(bs)| > 0
    ensures var last := db.envs[task.envId].lastResTaskId;
      ProcessDrift(db, task, true, Success(bs), parse, order, {}).db.drift
        == UpsertAll(DeleteUnlisted(db.drift, last, parse(bs).Keys), ResourcesOf(db, last), last, parse(bs), order)
  {
  }

  /** The concrete run of DriftExample: rows for A and B, resources for A, B and C. */
  function ExampleDb(info: DriftInfo): Db {
    var env := Env("e", "t", Active, false, false, "", None, "", "", "r");
    Db(map["e" := env], map[], map[], map[], {}, map["r" := TaskResources(ExampleResources(), map[])], map[], map[],
       map["ra" := DriftRow("r", "A", info), "rb" := DriftRow("r", "B", info)], map[])
  }

  function ExampleResources(): seq<Resource> {
    [Resource("ra", "A"), Resource("rb", "B"), Resource("rc", "C")]
  }

  function ExampleParse(info: DriftInfo): seq<byte> -> map<string, DriftInfo> {
    (bs: seq<byte>) => map["B" := info, "C" := info]
  }

  lemma ExampleResolves(info: DriftInfo)
    ensures IsOrderOf(["B", "C"], ExampleParse(info)([1]))
    ensures DetectionResolves(ExampleDb(info), Task("t1", Plan, "e", "", ""), ExampleParse(info)([1]))
  {
    ExampleOrder(info);
    ExampleUnique();
    ExampleFinds();
    ExampleLookup(info);
  }

  lemma ExampleLookup(info: DriftInfo)
    ensures "e" in ExampleDb(info).envs && ExampleDb(info).envs["e"].lastResTaskId == "r"
    ensures ResourcesOf(ExampleDb(info), "r") == ExampleResources()
  {
  }

  lemma ExampleOrder(info: DriftInfo)
    ensures ExampleParse(info)([1]).Keys == {"B", "C"}
    ensures IsOrderOf(["B", "C"], ExampleParse(info)([1]))
  {
  }

  lemma ExampleUnique()
    ensures UniqueIds(ExampleResources())
  {
    assert "ra" != "rb" by { assert "ra"[1] != "rb"[1]; }
    assert "ra" != "rc" by { assert "ra"[1] != "rc"[1]; }
    assert "rb" != "rc" by { assert "rb"[1] != "rc"[1]; }
  }

  lemma ExampleFinds()
    ensures FindResource(ExampleResources(), "B").Some? && FindResource(ExampleResources(), "C").Some?
  {
  }

  /** The reconciliation on a concrete run: rows for {A, B} and a detection of {B, C} leave rows for {B, C}. */
  lemma DriftExample(info: DriftInfo)
    ensures var r := ProcessDrift(ExampleDb(info), Task("t1", Plan, "e", "", ""), true, Success([1]), ExampleParse(info), ["B", "C"], {});
      DriftAddrs(r.db.drift, "r") == {"B", "C"} && r.notified
  {
    ExampleResolves(info);
    DriftRowsMatchDetection(ExampleDb(info), Task("t1", Plan, "e", "", ""), [1], ExampleParse(info), ["B", "C"]);
  }

  /** With no drift detected and a working delete, the environment keeps no drift rows and no notice goes out. */
  lemma NoDriftClearsRows(db: Db, task: Task, bs: seq<byte>,
                          parse: seq<byte> -> map<string, DriftInfo>, order: seq<string>)
    requires IsOrderOf(order, parse(bs)) && |parse(bs)| == 0 && task.envId in db.envs
    ensures var r := ProcessDrift(db, task, true, Success(bs), parse, order, {});
      DriftAddrs(r.db.drift, db.envs[task.envId].lastResTaskId) == {} && !r.notified && r.err.None?
  {
  }

  // ----------------------------------------------------------------------
  // Auto-destroy deadline
  // ----------------------------------------------------------------------

  datatype AutoDestroyError = GetEnvFailed(code: Code) | ParseTtlFailed(msg: string) | UpdateEnvFailed

  /** The environment was just deployed and has a TTL but no deadline yet. */
  predicate ArmsDeadline(task: Task, env: Env) {
    task.ttype == Apply && env.status == Active && env.autoDestroyAt.None? && env.ttl != "" && env.ttl != "0"
  }

  /** The environment was just destroyed. */
  predicate ClearsDeadline(task: Task, env: Env) {
    task.ttype == Destroy && env.status == Inactive
  }

  /**
   * taskDoneProcessAutoDestroy. `now` is the current instant and `parseTtl`
   * turns a TTL string into a duration. A destroyed environment loses its
   * deadline and auto-destroy task but keeps its TTL (the default for a
   * redeploy); a newly active environment with a TTL and no deadline gets
   * now + TTL. The environment row is updated exactly once, with whatever
   * attributes were collected.
   */
  function AutoDestroy(db: Db, task: Task, now: int, parseTtl: string -> Result<int, string>,
                       fails: set<Step>): (r: Result<Db, AutoDestroyError>)
    ensures LookupEnv(db, task.envId, fails).Failure? ==> r == Failure(GetEnvFailed(LookupEnv(db, task.envId, fails).error))
    ensures r.Failure? && r.error.ParseTtlFailed? ==>
      ArmsDeadline(task, db.envs[task.envId]) && parseTtl(db.envs[task.envId].ttl).Failure?
    ensures r.Failure? && r.error == UpdateEnvFailed ==> UpdateEnvRow in fails
    ensures LookupEnv(db, task.envId, fails).Success? && ArmsDeadline(task, db.envs[task.envId])
              && parseTtl(db.envs[task.envId].ttl).Failure? ==>
      r == Failure(ParseTtlFailed(parseTtl(db.envs[task.envId].ttl).error))
    ensures LookupEnv(db, task.envId, fails).Success? && UpdateEnvRow in fails
              && !(ArmsDeadline(task, db.envs[task.envId]) && parseTtl(db.envs[task.envId].ttl).Failure?) ==>
      r == Failure(UpdateEnvFailed)
    ensures r.Success? <==> (LookupEnv(db, task.envId, fails).Success? && UpdateEnvRow !in fails
      && !(ArmsDeadline(task, db.envs[task.envId]) && parseTtl(db.envs[task.envId].ttl).Failure?))
    ensures r.Success? ==> task.envId in db.envs && task.envId in r.value.envs
    ensures r.Success? ==>
      var env := db.envs[task.envId];
      var e := r.value.envs[task.envId];
      && r.value == db.(envs := db.envs[task.envId := e])
      && e == env.(autoDestroyAt := e.autoDestroyAt, autoDestroyTaskId := e.autoDestroyTaskId)
      && (ClearsDeadline(task, env) ==> e.autoDestroyAt.None? && e.autoDestroyTaskId == "")
      && (ArmsDeadline(task, env) ==>
            e.autoDestroyAt == Some(now + parseTtl(env.ttl).value) && e.autoDestroyTaskId == env.autoDestroyTaskId)
      && (!ClearsDeadline(task, env) && !ArmsDeadline(task, env) ==> e == env)
  {
    var env :- match LookupEnv(db, task.envId, fails)
      case Failure(code) => Failure(GetEnvFailed(code))
      case Success(e) => Success(e);
    var cleared := if ClearsDeadline(task, env) then env.(autoDestroyAt := None, autoDestroyTaskId := "") else env;
    var armed :- if ArmsDeadline(task, env) then
        match parseTtl(env.ttl)
        case Failure(msg) => Failure(ParseTtlFailed(msg))
        case Success(d) => Success(cleared.(autoDestroyAt := Some(now + d)))
      else Success(cleared);
    if UpdateEnvRow in fails then Failure(UpdateEnvFailed)
    else Success(db.(envs := db.envs[task.envId := armed]))
  }

  /** A second successful apply leaves the deadline the first one set: the deadline is armed once. */
  lemma DeadlineArmedOnce(db: Db, task: Task, now: int, later: int, parseTtl: string -> Result<int, string>)
    requires task.ttype == Apply
    requires AutoDestroy(db, task, now, parseTtl, {}).Success?
    ensures var db1 := AutoDestroy(db, task, now, parseTtl, {}).value;
      var db2 := AutoDestroy(db1, task, later, parseTtl, {});
      db2.Success? && db2.value.envs[task.envId].autoDestroyAt == db1.envs[task.envId].autoDestroyAt
  {
  }

  /** Destroying and then redeploying an environment with a TTL arms a fresh deadline from the kept TTL. */
  lemma RedeployRearms(db: Db, destroy: Task, apply: Task, now: int, later: int, parseTtl: string -> Result<int, string>)
    requires destroy.ttype == Destroy && apply.ttype == Apply && destroy.envId == apply.envId
    requires destroy.envId in db.envs && db.envs[destroy.envId].status == Inactive
    requires db.envs[destroy.envId].ttl != "" && db.envs[destroy.envId].ttl != "0"
    requires parseTtl(db.envs[destroy.envId].ttl).Success?
    ensures var db1 := AutoDestroy(db, destroy, now, parseTtl, {}).value;
      var redeployed := db1.(envs := db1.envs[apply.envId := db1.envs[apply.envId].(status := Active)]);
      var db2 := AutoDestroy(redeployed, apply, later, parseTtl, {});
      db2.Success? && db2.value.envs[apply.envId].autoDestroyAt == Some(later + parseTtl(db.envs[destroy.envId].ttl).value)
  {
  }

  // ----------------------------------------------------------------------
  // Stopping a task's container
  // ----------------------------------------------------------------------

  /** The runner's stop endpoint, joined to the runner's address. */
  const RunnerStopTaskPath := "/task/stop"

  /** The stop request posted to a runner. */
  datatype StopRequest = StopRequest(url: string, taskId: Id, containerIds: seq<string>)

  datatype StopError = TaskLookupFailed(code: Code) | RunnerAddressFailed(msg: string) | RequestFailed(msg: string)

  /** What stopping did: the request posted, if any, and the error returned. */
  datatype StopOutcome = StopOutcome(sent: Option<StopRequest>, err: Option<StopError>)

  /** GetTaskById / GetScanTaskById, reduced to the runner and container they yield. */
  function LookupRunner(db: Db, taskId: Id, isScanTask: bool, fails: set<Step>): (r: Result<(Id, string), Code>)
    ensures r.Success? <==> ReadTask !in fails && (if isScanTask then taskId in db.scanTasks else taskId in db.tasks)
    ensures r.Success? && isScanTask ==> r.value == (db.scanTasks[taskId].runnerId, db.scanTasks[taskId].containerId)
    ensures r.Success? && !isScanTask ==> r.value == (db.tasks[taskId].runnerId, db.tasks[taskId].containerId)
    ensures r.Failure? ==> r.error == (if ReadTask in fails then DBError else TaskNotExists)
  {
    if ReadTask in fails then Failure(DBError)
    else if isScanTask then
      if taskId in db.scanTasks then Success((db.scanTasks[taskId].runnerId, db.scanTasks[taskId].containerId))
      else Failure(TaskNotExists)
    else if taskId in db.tasks then Success((db.tasks[taskId].runnerId, db.tasks[taskId].containerId))
    else Failure(TaskNotExists)
  }

  /**
   * stopTaskContainers (and its two entry points, which fix `isScanTask`).
   * `runnerAddress` resolves a runner, `join` joins URL parts and `post`
   * sends the request, yielding its error if any.
   */
  function StopTaskContainers(db: Db, taskId: Id, isScanTask: bool, runnerAddress: Id -> Result<string, string>,
                              join: seq<string> -> string,
                              post: StopRequest -> Option<string>, fails: set<Step>): (r: StopOutcome)
    ensures r.sent.Some? <==> (LookupRunner(db, taskId, isScanTask, fails).Success?
                               && runnerAddress(LookupRunner(db, taskId, isScanTask, fails).value.0).Success?)
    ensures r.sent.Some? ==>
      var (runnerId, containerId) := LookupRunner(db, taskId, isScanTask, fails).value;
      && r.sent.value == StopRequest(join([runnerAddress(runnerId).value, RunnerStopTaskPath]), taskId, [containerId])
      && (r.err.Some? <==> post(r.sent.value).Some?)
    ensures r.sent.None? ==> r.err.Some? && !r.err.value.RequestFailed?
    ensures LookupRunner(db, taskId, isScanTask, fails).Failure? ==>
      r == StopOutcome(None, Some(TaskLookupFailed(LookupRunner(db, taskId, isScanTask, fails).error)))
    ensures LookupRunner(db, taskId, isScanTask, fails).Success?
              && runnerAddress(LookupRunner(db, taskId, isScanTask, fails).value.0).Failure? ==>
      r == StopOutcome(None, Some(RunnerAddressFailed(runnerAddress(LookupRunner(db, taskId, isScanTask, fails).value.0).error)))
    ensures r.sent.Some? && post(r.sent.value).Some? ==> r.err == Some(RequestFailed(post(r.sent.value).value))
  {
    match LookupRunner(db, taskId, isScanTask, fails)
    case Failure(code) => StopOutcome(None, Some(TaskLookupFailed(code)))
    case Success((runnerId, containerId)) =>
      match runnerAddress(runnerId)
      case Failure(msg) => StopOutcome(None, Some(RunnerAddressFailed(msg)))
      case Success(addr) =>
        var req := StopRequest(join([addr, RunnerStopTaskPath]), taskId, [containerId]);
        match post(req)
        case None => StopOutcome(Some(req), None)
        case Some(msg) => StopOutcome(Some(req), Some(RequestFailed(msg)))
  }

  /** The stop request names exactly one container: the one recorded for the task in the table its kind selects. */
  lemma StopNamesTheTasksContainer(db: Db, taskId: Id, isScanTask: bool, runnerAddress: Id -> Result<string, string>,
                                   join: seq<string> -> string, post: StopRequest -> Option<string>)
    requires isScanTask ==> taskId in db.scanTasks
    requires !isScanTask ==> taskId in db.tasks
    requires runnerAddress(if isScanTask then db.scanTasks[taskId].runnerId else db.tasks[taskId].runnerId).Success?
    ensures var r := StopTaskContainers(db, taskId, isScanTask, runnerAddress, join, post, {});
      && r.sent.Some? && r.sent.value.taskId == taskId
      && r.sent.value.containerIds == [if isScanTask then db.scanTasks[taskId].containerId else db.tasks[taskId].containerId]
  {
  }

  // ----------------------------------------------------------------------
  // Scan results
  // ----------------------------------------------------------------------

  datatype ScanResultError = ReadResultFailed(msg: string) | SaveScanResultFailed | CleanScanResultFailed

  /** The violations read from the result file: none when it is unreadable, empty or undecodable. */
  function ResultsOf(file: Result<seq<byte>, string>, decode: seq<byte> -> Result<seq<Violation>, string>): seq<Violation> {
    if file.Success? && |file.value| > 0 && decode(file.value).Success? then decode(file.value).value else []
  }

  /**
   * sacnTaskDoneProcessTfResult. A passed or violated scan stores its results
   * (none when the result file cannot be used) with its status; a failed scan
   * has its results cleaned; any other status writes nothing. A failure to
   * read the result file is returned only after the results were stored;
   * a decoding failure is not returned at all.
   */
  function ScanTaskDone(db: Db, task: ScanTask, file: Result<seq<byte>, string>,
                        decode: seq<byte> -> Result<seq<Violation>, string>, fails: set<Step>): (r: Outcome<ScanResultError>)
    ensures r.db == db.(scanResults := r.db.scanResults)
    ensures r.db.scanResults == db.scanResults
            || (task.id in r.db.scanResults && r.db.scanResults == db.scanResults[task.id := r.db.scanResults[task.id]])
    ensures task.policyStatus in {PolicyStatusPassed, PolicyStatusViolated} ==>
      if UpdateScanResult in fails then r == Outcome(db, Some(SaveScanResultFailed))
      else && task.id in r.db.scanResults && r.db.scanResults[task.id] == ResultUpdated(ResultsOf(file, decode), task.policyStatus)
           && r.err == (if file.Failure? then Some(ReadResultFailed(file.error)) else None)
    ensures task.policyStatus == PolicyStatusFailed ==>
      r == (if CleanScanResult in fails then Outcome(db, Some(CleanScanResultFailed))
            else Outcome(db.(scanResults := db.scanResults[task.id := ResultCleaned]), None))
    ensures task.policyStatus !in {PolicyStatusPassed, PolicyStatusViolated, PolicyStatusFailed} ==> r == Outcome(db, None)
  {
    if task.policyStatus == PolicyStatusPassed || task.policyStatus == PolicyStatusViolated then
      var results := ResultsOf(file, decode);
      if UpdateScanResult in fails then Outcome(db, Some(SaveScanResultFailed))
      else
        var db1 := db.(scanResults := db.scanResults[task.id := ResultUpdated(results, task.policyStatus)]);
        Outcome(db1, if file.Failure? then Some(ReadResultFailed(file.error)) else None)
    else if task.policyStatus == PolicyStatusFailed then
      if CleanScanResult in fails then Outcome(db, Some(CleanScanResultFailed))
      else Outcome(db.(scanResults := db.scanResults[task.id := ResultCleaned]), None)
    else Outcome(db, None)
  }

  /** Decoded results are stored exactly; an unusable file stores an empty result but still records the status. */
  lemma ScanResultsStoredOrEmpty(db: Db, task: ScanTask, file: Result<seq<byte>, string>,
                                 decode: seq<byte> -> Result<seq<Violation>, string>)
    requires task.policyStatus == PolicyStatusViolated
    ensures var r := ScanTaskDone(db, task, file, decode, {}).db.scanResults[task.id];
      && r.ResultUpdated? && r.status == PolicyStatusViolated
      && (file.Success? && file.value != [] && decode(file.value).Success? ==> r.results == decode(file.value).value)
      && (file.Failure? || file == Success([]) || decode(file.value).Failure? ==> r.results == [])
  {
  }
}

=== FILE: template_ops.dfy ===
/**
 * Template handlers: the partial update (an attribute map built from the keys
 * present in the form), the guarded delete, and the repository address that
 * the template list derives for templates that have none stored.
 */
module TemplateOps {
  import opened Wrappers
  import opened Common
  import opened Entities

  /** The update form; a field is Some exactly when its key is present in the request. */
  datatype UpdateForm = UpdateForm(
    id: Id,
    name: Option<string>,
    description: Option<string>,
    playbook: Option<string>,
    status: Option<string>,
    workdir: Option<string>,
    tfVarsFile: Option<string>,
    playVarsFile: Option<string>,
    tfVersion: Option<string>,
    repoRevision: Option<string>,
    policyEnable: Option<bool>,
    tplTriggers: Option<seq<string>>,
    keyId: Option<Id>,
    vcsId: Option<Id>,
    repoId: Option<string>,
    repoFullName: Option<string>)

  /** A column value in the update map. */
  datatype AttrValue = Text(s: string) | Flag(b: bool) | List(items: seq<string>)

  /** The template columns an update can write. */
  datatype Column =
    | Name | Description | Playbook | TplStatus | Workdir | TfVarsFile | PlayVarsFile | TfVersion
    | RepoRevision | PolicyEnable | Triggers | KeyId | VcsId | RepoId | RepoFullName | RepoAddr

  const AllColumns: set<Column> := {Name, Description, Playbook, TplStatus, Workdir, TfVarsFile, PlayVarsFile,
    TfVersion, RepoRevision, PolicyEnable, Triggers, KeyId, VcsId, RepoId, RepoFullName, RepoAddr}

  /** The column's name in the update map; the form's trigger list is written as "triggers". */
  function ColumnName(c: Column): string {
    match c
    case Name => "name"
    case Description => "description"
    case Playbook => "playbook"
    case TplStatus => "status"
    case Workdir => "workdir"
    case TfVarsFile => "tfVarsFile"
    case PlayVarsFile => "playVarsFile"
    case TfVersion => "tfVersion"
    case RepoRevision => "repoRevision"
    case PolicyEnable => "policyEnable"
    case Triggers => "triggers"
    case KeyId => "keyId"
    case VcsId => "vcsId"
    case RepoId => "repoId"
    case RepoFullName => "repoFullName"
    case RepoAddr => "repoAddr"
  }

  type Attrs = map<Column, AttrValue>

  /** The repository triple is written only when all three keys are present. */
  predicate HasRepoTriple(f: UpdateForm) {
    f.vcsId.Some? && f.repoId.Some? && f.repoFullName.Some?
  }

  /** Whether the update map gets an entry for this column. */
  predicate Writes(f: UpdateForm, c: Column) {
    match c
    case Name => f.name.Some?
    case Description => f.description.Some?
    case Playbook => f.playbook.Some?
    case TplStatus => f.status.Some?
    case Workdir => f.workdir.Some?
    case TfVarsFile => f.tfVarsFile.Some?
    case PlayVarsFile => f.playVarsFile.Some?
    case TfVersion => f.tfVersion.Some?
    case RepoRevision => f.repoRevision.Some?
    case PolicyEnable => f.policyEnable.Some?
    case Triggers => f.tplTriggers.Some?
    case KeyId => f.keyId.Some?
    case VcsId | RepoId | RepoFullName => HasRepoTriple(f)
    case RepoAddr => HasRepoTriple(f) && f.vcsId.value != ""
  }

  /** The entry written for a column; the address is cleared when a vcs is bound. */
  function WrittenValue(f: UpdateForm, c: Column): AttrValue
    requires Writes(f, c)
  {
    match c
    case Name => Text(f.name.value)
    case Description => Text(f.description.value)
    case Playbook => Text(f.playbook.value)
    case TplStatus => Text(f.status.value)
    case Workdir => Text(f.workdir.value)
    case TfVarsFile => Text(f.tfVarsFile.value)
    case PlayVarsFile => Text(f.playVarsFile.value)
    case TfVersion => Text(f.tfVersion.value)
    case RepoRevision => Text(f.repoRevision.value)
    case PolicyEnable => Flag(f.policyEnable.value)
    case Triggers => List(f.tplTriggers.value)
    case KeyId => Text(f.keyId.value)
    case VcsId => Text(f.vcsId.value)
    case RepoId => Text(f.repoId.value)
    case RepoFullName => Text(f.repoFullName.value)
    case RepoAddr => Text("")
  }

  /** The update map of UpdateTemplate. */
  function BuildAttrs(f: UpdateForm): (a: Attrs)
    ensures forall c :: c in a <==> Writes(f, c)
    ensures forall c :: c in a ==> a[c] == WrittenValue(f, c)
  {
    map c | c in AllColumns && Writes(f, c) :: WrittenValue(f, c)
  }

  /** The triple is written all together or not at all, and the address only alongside a non-empty vcs. */
  lemma RepoColumnsTogether(f: UpdateForm)
    ensures var a := BuildAttrs(f);
      && (VcsId in a <==> RepoId in a) && (RepoId in a <==> RepoFullName in a)
      && (RepoAddr in a <==> VcsId in a && a[VcsId] != Text(""))
      && (RepoAddr in a ==> a[RepoAddr] == Text(""))
      && (Triggers in a <==> f.tplTriggers.Some?)
  {
    TripleKey(f, VcsId);
    TripleKey(f, RepoId);
    TripleKey(f, RepoFullName);
    AddrKey(f);
    VcsValue(f);
    TriggersKey(f);
  }

  /** Each of the three repository columns is keyed exactly when the form carries the whole triple. */
  lemma TripleKey(f: UpdateForm, c: Column)
    requires c == VcsId || c == RepoId || c == RepoFullName
    ensures c in BuildAttrs(f) <==> HasRepoTriple(f)
  {
    assert Writes(f, c) <==> HasRepoTriple(f);
  }

  lemma AddrKey(f: UpdateForm)
    ensures var a := BuildAttrs(f);
      && (RepoAddr in a <==> HasRepoTriple(f) && f.vcsId.value != "")
      && (RepoAddr in a ==> a[RepoAddr] == Text(""))
  {
    assert Writes(f, RepoAddr) <==> HasRepoTriple(f) && f.vcsId.value != "";
  }

  /** The vcs column holds the form's vcs id. */
  lemma VcsValue(f: UpdateForm)
    ensures VcsId in BuildAttrs(f) ==> BuildAttrs(f)[VcsId] == Text(f.vcsId.value)
  {
  }

  /** The triggers column is keyed exactly when the form has triggers. */
  lemma TriggersKey(f: UpdateForm)
    ensures Triggers in BuildAttrs(f) <==> f.tplTriggers.Some?
  {
    assert Writes(f, Triggers) <==> f.tplTriggers.Some?;
  }

  function TextOr(a: Attrs, c: Column, stored: string): string {
    if c in a && a[c].Text? then a[c].s else stored
  }

  /** Writing an update map onto a stored template: each present column is overwritten, the rest kept. */
  function ApplyAttrs(t: Template, a: Attrs): (r: Template)
    ensures r.id == t.id && r.orgId == t.orgId && r.lastScanTaskId == t.lastScanTaskId
    ensures a == map[] ==> r == t
  {
    t.(name := TextOr(a, Name, t.name),
       description := TextOr(a, Description, t.description),
       playbook := TextOr(a, Playbook, t.playbook),
       status := TextOr(a, TplStatus, t.status),
       workdir := TextOr(a, Workdir, t.workdir),
       tfVarsFile := TextOr(a, TfVarsFile, t.tfVarsFile),
       playVarsFile := TextOr(a, PlayVarsFile, t.playVarsFile),
       tfVersion := TextOr(a, TfVersion, t.tfVersion),
       repoRevision := TextOr(a, RepoRevision, t.repoRevision),
       policyEnable := if PolicyEnable in a && a[PolicyEnable].Flag? then a[PolicyEnable].b else t.policyEnable,
       triggers := if Triggers in a && a[Triggers].List? then a[Triggers].items else t.triggers,
       keyId := TextOr(a, KeyId, t.keyId),
       vcsId := TextOr(a, VcsId, t.vcsId),
       repoId := TextOr(a, RepoId, t.repoId),
       repoFullName := TextOr(a, RepoFullName, t.repoFullName),
       repoAddr := TextOr(a, RepoAddr, t.repoAddr))
  }

  /** A stored template's value for a column. */
  function Stored(t: Template, c: Column): AttrValue {
    match c
    case Name => Text(t.name)
    case Description => Text(t.description)
    case Playbook => Text(t.playbook)
    case TplStatus => Text(t.status)
    case Workdir => Text(t.workdir)
    case TfVarsFile => Text(t.tfVarsFile)
    case PlayVarsFile => Text(t.playVarsFile)
    case TfVersion => Text(t.tfVersion)
    case RepoRevision => Text(t.repoRevision)
    case PolicyEnable => Flag(t.policyEnable)
    case Triggers => List(t.triggers)
    case KeyId => Text(t.keyId)
    case VcsId => Text(t.vcsId)
    case RepoId => Text(t.repoId)
    case RepoFullName => Text(t.repoFullName)
    case RepoAddr => Text(t.repoAddr)
  }

  /** Every entry has the kind of value its column holds. */
  predicate WellTyped(a: Attrs) {
    forall c :: c in a ==> match c
      case PolicyEnable => a[c].Flag?
      case Triggers => a[c].List?
      case _ => a[c].Text?
  }

  /** A well-typed map sets exactly its columns and keeps every other one. */
  lemma ApplyIsColumnwise(t: Template, a: Attrs, c: Column)
    requires WellTyped(a)
    ensures Stored(ApplyAttrs(t, a), c) == if c in a then a[c] else Stored(t, c)
  {
  }

  /**
   * The partial update column by column: a present key sets its column, an
   * absent key keeps the stored value, the triple moves together, and
   * the address is cleared only when a non-empty vcs is bound.
   */
  lemma UpdateIsColumnwise(t: Template, f: UpdateForm, c: Column)
    ensures var r := ApplyAttrs(t, BuildAttrs(f));
      && r.id == t.id && r.orgId == t.orgId && r.lastScanTaskId == t.lastScanTaskId
      && Stored(r, c) == if Writes(f, c) then WrittenValue(f, c) else Stored(t, c)
  {
    ApplyIsColumnwise(t, BuildAttrs(f), c);
  }

  /** A form with no keys changes nothing. */
  lemma EmptyFormChangesNothing(t: Template, id: Id)
    ensures ApplyAttrs(t, BuildAttrs(UpdateForm(id, None, None, None, None, None, None, None, None, None,
                                                None, None, None, None, None, None))) == t
  {
    var f := UpdateForm(id, None, None, None, None, None, None, None, None, None, None, None, None, None, None, None);
    assert BuildAttrs(f) == map[];
  }

  /**
   * UpdateTemplate's database part: any failure to read the template reports
   * TemplateNotExists with 400, a template of another organisation 403, and a
   * failing update or commit a DBError; on success only this template changes.
   */
  function UpdateTemplate(db: Db, orgId: Id, f: UpdateForm, fails: set<Step>): (r: Result<(Db, Template), Error>)
    ensures r.Failure? && (ReadTemplate in fails || f.id !in db.templates) ==> r.error == Err(TemplateNotExists, StatusBadRequest)
    ensures ReadTemplate !in fails && f.id in db.templates && db.templates[f.id].orgId != orgId ==>
      r == Failure(Err(TemplateNotExists, StatusForbidden))
    ensures r.Success? <==> (ReadTemplate !in fails && f.id in db.templates && db.templates[f.id].orgId == orgId
                             && UpdateTemplateRow !in fails && Commit !in fails)
    ensures r.Success? ==>
      && r.value.1 == ApplyAttrs(db.templates[f.id], BuildAttrs(f))
      && r.value.0 == db.(templates := db.templates[f.id := r.value.1])
  {
    var tpl :- match LookupTemplate(db, f.id, fails)
      case Failure(_) => Failure(Err(TemplateNotExists, StatusBadRequest))
      case Success(t) => Success(t);
    if tpl.orgId != orgId then Failure(Err(TemplateNotExists, StatusForbidden))
    else if UpdateTemplateRow in fails then Failure(Error(DBError, None))
    else
      var updated := ApplyAttrs(tpl, BuildAttrs(f));
      if Commit in fails then Failure(Error(DBError, None))
      else Success((db.(templates := db.templates[f.id := updated]), updated))
  }

  /** A relation binding a policy group to this template. */
  predicate BindsTemplate(rel: PolicyRel, id: Id) {
    rel.scope == ScopeTemplate && rel.targetId == id
  }

  /**
   * DeleteTemplate. `isActive` is the active-environment query's condition.
   * A missing template is 404, a read fault 500, another organisation's
   * template 403, a template some active environment uses 405; then the
   * template's policy-group relations go first and the template row second.
   */
  function DeleteTemplate(db: Db, orgId: Id, id: Id, isActive: Env -> bool, fails: set<Step>): (r: Result<Db, Error>)
    ensures ReadTemplate !in fails && id !in db.templates ==> r == Failure(Err(TemplateNotExists, StatusNotFound))
    ensures ReadTemplate in fails ==> r == Failure(Err(DBError, StatusInternalServerError))
    ensures ReadTemplate !in fails && id in db.templates && db.templates[id].orgId != orgId ==>
      r == Failure(Err(TemplateNotExists, StatusForbidden))
    ensures r.Success? ==>
      && ReadTemplate !in fails && ReadActiveEnvs !in fails
      && id in db.templates && db.templates[id].orgId == orgId
      && (forall k :: k in db.envs ==> !(db.envs[k].tplId == id && isActive(db.envs[k])))
    ensures r.Failure? && r.error.code == TemplateActiveEnvExists ==>
      r.error.status == Some(StatusMethodNotAllowed) && exists k :: k in db.envs && db.envs[k].tplId == id && isActive(db.envs[k])
    ensures
      && ReadTemplate !in fails && ReadActiveEnvs !in fails && id in db.templates && db.templates[id].orgId == orgId
      && (exists k :: k in db.envs && db.envs[k].tplId == id && isActive(db.envs[k]))
      ==> r == Failure(Err(TemplateActiveEnvExists, StatusMethodNotAllowed))
    ensures r.Success? <==>
      && ReadTemplate !in fails && ReadActiveEnvs !in fails && DeletePolicyRels !in fails
      && DeleteTemplateRow !in fails && Commit !in fails
      && id in db.templates && db.templates[id].orgId == orgId
      && !(exists k :: k in db.envs && db.envs[k].tplId == id && isActive(db.envs[k]))
    ensures r.Failure? ==> r.error.code in {TemplateNotExists, DBError, TemplateActiveEnvExists}
    ensures r.Success? ==>
      && r.value.templates == db.templates - {id}
      && r.value.policyRels == set rel | rel in db.policyRels && !BindsTemplate(rel, id)
      && r.value == db.(templates := r.value.templates, policyRels := r.value.policyRels)
  {
    var tpl :- match LookupTemplate(db, id, fails)
      case Failure(TemplateNotExists) => Failure(Err(TemplateNotExists, StatusNotFound))
      case Failure(_) => Failure(Err(DBError, StatusInternalServerError))
      case Success(t) => Success(t);
    if tpl.orgId != orgId then Failure(Err(TemplateNotExists, StatusForbidden))
    else if ReadActiveEnvs in fails then Failure(Error(DBError, None))
    else if exists k :: k in db.envs && db.envs[k].tplId == id && isActive(db.envs[k]) then
      Failure(Err(TemplateActiveEnvExists, StatusMethodNotAllowed))
    else if DeletePolicyRels in fails then Failure(Err(DBError, StatusInternalServerError))
    else
      var rels := set rel | rel in db.policyRels && !BindsTemplate(rel, id);
      if DeleteTemplateRow in fails || Commit in fails then Failure(Error(DBError, None))
      else Success(db.(templates := db.templates - {id}, policyRels := rels))
  }

  /** The relations are deleted before the template: a failing relation delete reports 500 whatever follows. */
  lemma DeleteRelationsFirst(db: Db, orgId: Id, id: Id, isActive: Env -> bool, fails: set<Step>)
    requires ReadTemplate !in fails && ReadActiveEnvs !in fails && DeletePolicyRels in fails
    requires id in db.templates && db.templates[id].orgId == orgId
    requires forall k :: k in db.envs ==> !(db.envs[k].tplId == id && isActive(db.envs[k]))
    ensures DeleteTemplate(db, orgId, id, isActive, fails) == Failure(Err(DBError, StatusInternalServerError))
  {
  }

  /**
   * The active-environment guard comes before every write: once an active
   * environment uses the template, faults in the relation delete, the row
   * delete or the commit make no difference to the answer.
   */
  lemma ActiveEnvRefusesBeforeWrites(db: Db, orgId: Id, id: Id, isActive: Env -> bool, fails: set<Step>)
    requires ReadTemplate !in fails && ReadActiveEnvs !in fails
    requires exists k :: k in db.envs && db.envs[k].tplId == id && isActive(db.envs[k])
    ensures DeleteTemplate(db, orgId, id, isActive, fails) ==
      DeleteTemplate(db, orgId, id, isActive, fails - {DeletePolicyRels, DeleteTemplateRow, Commit})
  {
  }

  /** A fault-free delete of a deletable template leaves no relation pointing at it and keeps every other one. */
  lemma DeleteDropsExactlyBindings(db: Db, orgId: Id, id: Id, isActive: Env -> bool, rel: PolicyRel)
    requires DeleteTemplate(db, orgId, id, isActive, {}).Success?
    ensures rel in DeleteTemplate(db, orgId, id, isActive, {}).value.policyRels <==>
      rel in db.policyRels && !(rel.scope == ScopeTemplate && rel.targetId == id)
  {
  }

  /** A version-control service: its kind and its base address. */
  datatype Vcs = Vcs(id: Id, vcsType: string, address: string)

  /** The vcs kind whose repositories are served by the portal itself. */
  const GitTypeLocal := "local"

  /** What a lookup of an id absent from the vcs map yields: the zero record. */
  const ZeroVcs := Vcs("", "", "")

  /** The vcs ids the template list asks for: those of templates with no stored address, in order. */
  function CollectVcsIds(tpls: seq<Template>): (ids: seq<Id>)
    ensures forall k :: 0 <= k < |tpls| && tpls[k].repoAddr == "" ==> tpls[k].vcsId in ids
    ensures forall v :: v in ids ==> exists k :: 0 <= k < |tpls| && tpls[k].repoAddr == "" && tpls[k].vcsId == v
  {
    if |tpls| == 0 then []
    else
      var rest := CollectVcsIds(tpls[1..]);
      assert forall k :: 1 <= k < |tpls| ==> tpls[k] == tpls[1..][k - 1];
      (if tpls[0].repoAddr == "" then [tpls[0].vcsId] else []) + rest
  }

  /** The vcs rows by id; a later row of the same id wins. */
  function VcsMap(vcsList: seq<Vcs>): (m: map<Id, Vcs>)
    ensures forall v :: v in vcsList ==> v.id in m
    ensures forall id :: id in m ==> m[id] in vcsList && m[id].id == id
  {
    if |vcsList| == 0 then map[]
    else
      var last := vcsList[|vcsList| - 1];
      var m := VcsMap(vcsList[..|vcsList| - 1]);
      assert forall v :: v in vcsList ==> v == last || v in vcsList[..|vcsList| - 1];
      m[last.id := last]
  }

  /** The address shown for one template. `join` joins URL parts. */
  function RepoAddrOf(t: Template, m: map<Id, Vcs>, portal: string, join: seq<string> -> string): string {
    if t.repoAddr == "" && t.repoFullName != "" then
      var vcs := if t.vcsId in m then m[t.vcsId] else ZeroVcs;
      if vcs.vcsType == GitTypeLocal then join([portal, vcs.address, t.repoId])
      else join([vcs.address, t.repoFullName])
    else t.repoAddr
  }

  /**
   * SearchTemplate's address derivation: each template keeps every field but
   * its address, a stored address is kept, and a template without one gets
   * the address its vcs kind calls for when it has a repository name.
   */
  function DeriveRepoAddrs(tpls: seq<Template>, vcsList: seq<Vcs>, portal: string, join: seq<string> -> string): (r: seq<Template>)
    ensures |r| == |tpls|
    ensures forall k :: 0 <= k < |r| ==> r[k] == tpls[k].(repoAddr := r[k].repoAddr)
    ensures forall k :: 0 <= k < |r| && (tpls[k].repoAddr != "" || tpls[k].repoFullName == "") ==> r[k] == tpls[k]
  {
    var m := VcsMap(vcsList);
    seq(|tpls|, k requires 0 <= k < |tpls| => tpls[k].(repoAddr := RepoAddrOf(tpls[k], m, portal, join)))
  }

  /** The vcs rows whose ids are in `ids`, as the lookup by id list returns them. */
  function VcsByIds(all: seq<Vcs>, ids: seq<Id>): (r: seq<Vcs>)
    ensures forall v :: v in r <==> v in all && v.id in ids
  {
    if |all| == 0 then []
    else
      var rest := VcsByIds(all[1..], ids);
      assert forall v :: v in all <==> v == all[0] || v in all[1..];
      (if all[0].id in ids then [all[0]] else []) + rest
  }

  /** Two vcs lists agree on the ids that matter: same presence, same row. */
  predicate AgreeOn(m1: map<Id, Vcs>, m2: map<Id, Vcs>, ids: seq<Id>) {
    forall id :: id in ids ==> (id in m1 <==> id in m2) && (id in m1 ==> m1[id] == m2[id])
  }

  /** With vcs ids unique, restricting the list to some ids keeps the map on those ids. */
  lemma VcsMapRestricted(all: seq<Vcs>, ids: seq<Id>)
    requires forall i, j :: 0 <= i < j < |all| ==> all[i].id != all[j].id
    ensures AgreeOn(VcsMap(VcsByIds(all, ids)), VcsMap(all), ids)
  {
    var m1, m2 := VcsMap(VcsByIds(all, ids)), VcsMap(all);
    forall id | id in ids
      ensures (id in m1 <==> id in m2) && (id in m1 ==> m1[id] == m2[id])
    {
      if id in m1 {
        assert m1[id] in all;
      }
      if id in m2 {
        assert m2[id] in VcsByIds(all, ids);
      }
      if id in m1 && id in m2 {
        var a :| 0 <= a < |all| && all[a] == m1[id];
        var b :| 0 <= b < |all| && all[b] == m2[id];
        assert a == b;
      }
    }
  }

  /**
   * Fetching only the collected vcs ids loses nothing: the addresses derived
   * from the restricted list are those derived from the whole vcs table.
   */
  lemma CollectedVcsSuffice(tpls: seq<Template>, all: seq<Vcs>, portal: string, join: seq<string> -> string)
    requires forall i, j :: 0 <= i < j < |all| ==> all[i].id != all[j].id
    ensures DeriveRepoAddrs(tpls, VcsByIds(all, CollectVcsIds(tpls)), portal, join) == DeriveRepoAddrs(tpls, all, portal, join)
  {
    var ids := CollectVcsIds(tpls);
    VcsMapRestricted(all, ids);
    var m1, m2 := VcsMap(VcsByIds(all, ids)), VcsMap(all);
    var r1 := DeriveRepoAddrs(tpls, VcsByIds(all, ids), portal, join);
    var r2 := DeriveRepoAddrs(tpls, all, portal, join);
    forall k | 0 <= k < |tpls|
      ensures r1[k] == r2[k]
    {
      DeriveAt(tpls, VcsByIds(all, ids), portal, join, k);
      DeriveAt(tpls, all, portal, join, k);
      if tpls[k].repoAddr == "" {
        assert tpls[k].vcsId in ids;
      }
      SameVcsSameAddr(tpls[k], m1, m2, portal, join);
    }
  }

  /** One entry of the derivation: the template with the address its vcs map gives it. */
  lemma DeriveAt(tpls: seq<Template>, vcsList: seq<Vcs>, portal: string, join: seq<string> -> string, k: int)
    requires 0 <= k < |tpls|
    ensures DeriveRepoAddrs(tpls, vcsList, portal, join)[k] ==
      tpls[k].(repoAddr := RepoAddrOf(tpls[k], VcsMap(vcsList), portal, join))
  {
  }

  /** Two vcs maps that agree on a template's vcs id give it the same address. */
  lemma SameVcsSameAddr(t: Template, m1: map<Id, Vcs>, m2: map<Id, Vcs>, portal: string, join: seq<string> -> string)
    requires t.repoAddr == "" ==> (t.vcsId in m1 <==> t.vcsId in m2) && (t.vcsId in m1 ==> m1[t.vcsId] == m2[t.vcsId])
    ensures RepoAddrOf(t, m1, portal, join) == RepoAddrOf(t, m2, portal, join)
  {
  }

  /**
   * The address derived for a template with no stored address and a
   * repository name. When the vcs list has its vcs (ids unique), a local-git
   * vcs gives portal + vcs address + repository id and any other kind gives
   * vcs address + full name. When the list lacks it, the lookup yields the
   * zero record, whose empty kind is not local, so the address is the empty
   * base joined with the full name.
   */
  lemma RepoAddrByKind(tpls: seq<Template>, vcsList: seq<Vcs>, portal: string, join: seq<string> -> string, k: int)
    requires 0 <= k < |tpls| && tpls[k].repoAddr == "" && tpls[k].repoFullName != ""
    requires forall i, j :: 0 <= i < j < |vcsList| ==> vcsList[i].id != vcsList[j].id
    ensures var t, r := tpls[k], DeriveRepoAddrs(tpls, vcsList, portal, join)[k].repoAddr;
      forall vcs :: vcs in vcsList && vcs.id == t.vcsId ==>
        r == if vcs.vcsType == GitTypeLocal then join([portal, vcs.address, t.repoId]) else join([vcs.address, t.repoFullName])
    ensures var t, r := tpls[k], DeriveRepoAddrs(tpls, vcsList, portal, join)[k].repoAddr;
      (forall vcs :: vcs in vcsList ==> vcs.id != t.vcsId) ==> r == join(["", t.repoFullName])
  {
    DeriveAt(tpls, vcsList, portal, join, k);
    var m := VcsMap(vcsList);
    forall vcs | vcs in vcsList && vcs.id == tpls[k].vcsId
      ensures m[tpls[k].vcsId] == vcs
    {
      var a :| 0 <= a < |vcsList| && vcsList[a] == vcs;
      var b :| 0 <= b < |vcsList| && vcsList[b] == m[tpls[k].vcsId];
      assert a == b;
    }
  }
}

=== FILE: wrappers.dfy ===
/** Failure-compatible Option and Result types shared by every module of the model. */
module Wrappers {

  datatype Option<+T> = None | Some(value: T) {

    /** The wrapped value, or `default` when there is none. */
    function GetOr(default: T): T {
      match this
      case Some(v) => v
      case None => default
    }
  }

  datatype Result<+T, +E> = Success(value: T) | Failure(error: E) {

    predicate IsFailure() {
      Failure?
    }

    function PropagateFailure<U>(): Result<U, E>
      requires Failure?
    {
      Failure(error)
    }

    function Extract(): T
      requires Success?
    {
      value
    }
  }
}
